=== FILE: README.md ===
# externals-manager in Dafny

This project models the core of externals-manager, a small build orchestrator for external
software packages. A package is a recipe: named steps, each a list of shell commands,
plus setup commands per shell. A distribution is a set of package versions with
dependencies between them. Making a distribution builds its packages in dependency order.
Each package resumes from the first step that is missing or stale according to the
completion stamps it recorded before. Each package also sees the `sh` setup commands of the
packages built before it. At the end one setup script is written per shell.

The model covers both generations of the code:

- the current package manager (`extmgr/`): packages with a source phase and a
  flag-qualified build phase, the per-flag and shared directory layouts, the distribution
  with its Kahn topological sort, and the executor's registry, `register_distribution` and
  `make_distribution`;
- the older package class (`core/`): five fixed steps named after the configuration alias,
  with its own start-step scan;
- the pure helpers both generations use to build command lines, the two `BuildConfig`
  records, and the command-line rules of `main.py` (job count, build type, build flag).

The modules follow the program's structure:

| module | file | models |
|---|---|---|
| `Common` | common.dfy | errors, `Option`/`Result`, distinctness, counting, joining and stripping text |
| `Paths` | paths.dfy | paths as component lists, `Path.name`, `str.split` |
| `Config` | config.dfy | both `BuildConfig` records |
| `Cli` | cli.dfy | `main.py`: `pos_int`, the build-type choice, the OS alias, the build flag |
| `Commands` | commands.dfy | the command builders of both package classes |
| `Selection` | selection.dfy | where a run resumes, for both package classes |
| `Steps` | steps.dfy | running steps, stamping and saving after each success |
| `Package` | package.dfy | `set_config`, the directory layouts, `_make` |
| `Legacy` | legacy.dfy | the older package's steps, layout and `_make` |
| `Distribution` | distribution.dfy | `add_package` and `sorted_packages` |
| `Executor` | executor.dfy | the registry, `register_distribution`, `make_distribution` |

Effects are parameters:

- The shell is a function `Shell = (nat, string) -> Exit`. It receives the number of the
  script within the session and the script's text, and answers `Success`, `NonZero` or
  `Interrupt`.
- Wall-clock time is a `nat` clock. Each successful step is stamped with the next tick.
- A `World` value says whether each package's stamp file is absent, readable (with a
  table) or unreadable. It also says whether a package's directories can be made and
  whether each shell's setup script can be written.
- Every script handed to the shell is recorded, and so is every stamp table saved to the
  stamp file. The contracts can therefore speak about what was run and what was saved.

Where the code and its documentation disagree, the model follows the code:

- `set_config` replaces the in-memory stamps only when a stamp file exists. Without one,
  the stamps a package already held stay (extmgr/core/BasePackage.py:150-160), and
  `set_config` never empties the table itself. The table a build starts from is empty
  only because the constructor creates an empty one (extmgr/core/BasePackage.py:40) and
  `main.py` calls `make_distribution` once per process (main.py:173-174).
  `Package.SetConfig` therefore keeps the held table, and `Executor.Attempt` passes it an
  empty one.
- `update_packages` builds a new table of package versions on every call. The default
  `res={}` of the nested `get_subclasses` is created afresh each time the nested function
  is defined, and the result replaces `self.packages` (extmgr/core/Executor.py:169,199).
  Versions known before discovery are forgotten, and `Executor.Discover` models this.
- A run of steps whose stamps are non-decreasing is not always up to date. A first stamp
  of 0 selects step 0, so `[0, 5]` resumes at the first step. `Selection.StartIndexMeaning`
  states the exact condition: every step before the start is done and in order.
- The older package writes its scripts without `set -e` (core/BasePackage.py:131-132).
  A failing command in the middle of a step does not stop that step there.
- `make_distribution` looks up each package's `sh` setup commands in a dry run too
  (extmgr/core/Executor.py:76). A package without them fails the dry run as well.

## Model

| member | source | states |
|---|---|---|
| Common.Filter | core/BasePackage.py:24 | the kept elements are exactly the input elements the predicate accepts, and there are no more of them than inputs |
| Common.FilterMultiplicity | core/BasePackage.py:24 | each accepted element is kept as often as it occurs in the input, and each other one not at all |
| Common.FilterAppend | core/BasePackage.py:24 | filtering a concatenation filters each part in turn, so the kept elements keep their order |
| Common.Strip | main.py:141 | stripped text neither starts nor ends with a character Python counts as whitespace, the separators U+001C to U+001F and the Unicode spaces included |
| Common.StripTrailing | main.py:141 | stripping text that has no surrounding whitespace gives it back, even with trailing whitespace appended, whitespace being every character Python's `str.isspace` accepts |
| Common.Decimal | main.py:36 | a number is rendered as a non-empty run of digits, without a leading zero when it is positive |
| Common.DecimalRoundTrip | main.py:36 | the decimal rendering of a number reads back as that number |
| Paths.Child | extmgr/core/BasePackage.py:134-141 | joining a component adds exactly that component at the end |
| Paths.ChildInjective | extmgr/core/BasePackage.py:134-141 | two joined paths are equal exactly when their parents and names are, and the parent can be recovered |
| Paths.UnderChild | extmgr/core/BasePackage.py:134-141 | a path under a root stays under it when a component is joined |
| Paths.Split | main.py:135 | splitting yields at least one piece and no piece contains the separator |
| Paths.SplitJoin | extmgr/core/BasePackage.py:292 | splitting undoes joining with a one-character separator that no part contains |
| Paths.Name | extmgr/core/BasePackage.py:406 | a file name taken from a URL or path never contains '/' |
| Paths.NameOfLastSegment | extmgr/core/BasePackage.py:406 | the file name of `dir/f` is `f` whenever `f` is a proper file name |
| Config.ParseBuildType | extmgr/core/BuildConfig.py:12 | exactly the three build-type literals are accepted, each as the build type of that name |
| Config.BuildTypeRoundTrip | extmgr/core/BuildConfig.py:12 | every build type's name reads back as that build type |
| Config.ConfigStringIsFlag | extmgr/core/BuildConfig.py:19-20 | a configuration prints as its build flag, so two configurations print alike exactly when their flags agree |
| Config.ConfigDefaults | extmgr/core/BuildConfig.py:6-17 | a configuration made without the optional fields runs one job and is not a dry run |
| Config.LegacyConfigStringIsAlias | core/BuildConfig.py:19-20 | an older configuration prints as its alias, so two print alike exactly when their aliases agree |
| Config.LegacyConfigDefaults | core/BuildConfig.py:6-17 | an older configuration made without the optional fields runs one process and is not a dry run |
| Cli.PosInt | main.py:24-36 | no value or an empty one gives the empty job count; otherwise the value is accepted exactly when it reads as an integer above 0, an accepted value comes back as the plain decimal of its number, as `str()` renders it, and a refusal names the value; `int()` skips only tab to carriage return, the space and the non-ASCII Unicode spaces around the number |
| Cli.PosIntIgnoresWhitespace | main.py:29-36 | a positive number with any whitespace `int()` skips before and after it is accepted as that number |
| Cli.PosIntPadded | main.py:29-36 | a space and a tab before a positive number and a newline after it are skipped |
| Cli.PosIntRefusesSeparator | main.py:29-31 | a number after the file separator U+001C is refused, since `int()` does not skip the ASCII separators |
| Cli.StripRemovesSeparator | main.py:141 | `str.strip()`, unlike `int()`, removes a leading file separator U+001C |
| Cli.ParseNotNumber | main.py:29-31 | text that starts with neither whitespace, a sign nor a digit is not a number |
| Common.TrimPadded | main.py:141 | trimming removes exactly the whitespace put around text that has none at its ends |
| Cli.ParseDecimal | main.py:29 | the decimal rendering of a number reads back as that number |
| Cli.PosIntCanonical | main.py:36 | an accepted job count reads as the same number as the value given, is all digits and has no leading zero, so a sign or underscores in the value are gone |
| Cli.PosIntIdempotent | main.py:24-36 | an accepted job count is accepted again unchanged |
| Cli.PosIntDropsLeadingZeros | main.py:29-36 | leading zeros are dropped from an accepted job count |
| Cli.PosIntRejectsZero | main.py:33-34 | "0" is refused |
| Cli.PosIntRejectsNegative | main.py:33-34 | every negative number is refused |
| Cli.PosIntRejectsText | main.py:30-31 | text that is not a number, such as "abc", is refused with the value named |
| Cli.SelectBuildType | main.py:117-123 | Release when chosen or when nothing is chosen, otherwise Debug or RelWithDebInfo in the order the flags are tested |
| Cli.BuildTypeAliasInjective | main.py:147-151 | the three-letter aliases of build types are distinct |
| Cli.MajorVersion | main.py:135 | the major version is the prefix of the version up to its first '.', or all of it |
| Cli.MajorVersionOf | main.py:135 | the major version of `major.rest` is `major` |
| Cli.OsAlias | main.py:134-140 | the OS alias is the distribution id, with "almalinux" renamed "el", followed by the release version up to its first '.', or the whole version when it has none |
| Cli.OsAliasOf | main.py:134-140 | for a release version `major.rest` the alias is the id, or "el" for almalinux, followed by `major` |
| Cli.OsAliasDotless | main.py:134-140 | a release version without a '.' is appended whole |
| Cli.OsAliasExample | main.py:137-140 | AlmaLinux 9.4 gives "el9" |
| Cli.GccTag | main.py:141 | the compiler tag is "gcc" followed by the stripped compiler version up to its first '.', or the whole of it when it has none |
| Cli.GccTagDotless | main.py:141 | a compiler version without a '.', such as "13" with a trailing newline, gives "gcc" followed by its digits |
| Cli.GccTagMajor | main.py:141 | the compiler tag of a version `major.minor` with trailing whitespace is "gcc" + `major` |
| Cli.BuildFlag | main.py:153 | the build flag starts with processor, OS alias and compiler tag each followed by '-', ends with the build-type alias, and has no other characters |
| Cli.BuildFlagFields | main.py:153 | when the platform facts hold no '-', splitting the build flag at '-' gives back processor, OS alias, compiler tag and build-type alias |
| Cli.BuildFlagSeparatesBuildTypes | main.py:147-153 | the same machine gives different build flags for different build types |
| Cli.BuildFlagExample | main.py:153 | x86_64, el9, gcc13 and Release give "x86_64-el9-gcc13-opt" |
| Commands.ScriptText | extmgr/core/BasePackage.py:292 | every step script starts in fail-fast mode |
| Commands.ScriptLines | extmgr/core/BasePackage.py:292 | the lines of a step script are the fail-fast line followed by the commands, when none spans lines |
| Commands.ApplyPatch | extmgr/core/BasePackage.py:350-367 | the patch is tried in a dry run first and applied for real only when the dry run exits 0, inside the source directory |
| Commands.ApplyPatchWords | extmgr/core/BasePackage.py:362-364 | the dry run and the real application are the same `patch` command on the same file, the second indented and without `--dry-run` |
| Commands.CloneGitRepo | extmgr/core/BasePackage.py:369-390 | when asked, an existing source directory is first removed by an `if`/`rm`/`fi` block; then the repository is cloned into it, and the tag is checked out between a `cd` into it and `cd -` |
| Commands.CloneRemoveExistPrepends | extmgr/core/BasePackage.py:382-389 | asking for removal only prepends the three removal lines to the plain clone |
| Commands.DownloadFile | extmgr/core/BasePackage.py:392-421 | one wget command writing the URL to the target, preceded when asked by an `if`/`rm`/`fi` block removing an existing target |
| Commands.DownloadDefaultTarget | extmgr/core/BasePackage.py:406 | without a destination the file lands in the build directory under the URL's file name |
| Commands.ExtractArchive | extmgr/core/BasePackage.py:423-438 | one tar command extracting into the destination, the source directory by default |
| Commands.ExtractArchiveToSource | extmgr/core/BasePackage.py:440-451 | extracting to the source directory is extracting with no explicit destination |
| Commands.CMakeConfig | extmgr/core/BasePackage.py:453-476 | one configure command whose definitions are the user's followed by the defaults the user left out |
| Commands.CMakeDefinesComplete | extmgr/core/BasePackage.py:465-476 | the user's definitions come first and unchanged, every key is defined once, and the build type and install prefix are always defined, the user's value winning |
| Commands.TwoDefaults | extmgr/core/BasePackage.py:470-474 | appending defaults for two different keys keeps keys distinct and defines both, the user's value winning |
| Commands.LookupAppend | extmgr/core/BasePackage.py:467-474 | a key is looked up in the first list when defined there, otherwise in the second |
| Commands.CMakeBuild | extmgr/core/BasePackage.py:478-488 | one build command for the build directory and target that ends with the job count, with nothing else in between |
| Commands.CMakeBuildWords | extmgr/core/BasePackage.py:478-488 | the build command reads back word by word as the directory, the target and the job count in their places |
| Commands.AppendEnvVar | extmgr/core/BasePackage.py:490-518 | one six-line block per pair in order for sh or csh; any other shell is an error exactly when there is a pair |
| Commands.AppendEnvVarConcat | extmgr/core/BasePackage.py:494-518 | rendering a concatenation of pair lists renders each part in turn |
| Commands.LegacyCloneGitRepo | core/BasePackage.py:195-196 | one clone command of the URL into the source directory that ends with the branch, with nothing else in between |
| Commands.LegacyCloneWords | core/BasePackage.py:195-196 | the older clone command reads back word by word as the URL, the source directory and the branch |
| Commands.WgetFile | core/BasePackage.py:198-200 | one wget command for the URL that ends with the output file, with nothing else in between |
| Commands.WgetWords | core/BasePackage.py:198-200 | the wget command reads back word by word as the URL and the output file |
| Commands.GenCMakeArgs | core/BasePackage.py:202-205 | the definitions text neither starts nor ends with whitespace |
| Commands.GenCMakeArgsLayout | core/BasePackage.py:202-205 | the definitions come out in order, separated by two spaces, with nothing around them |
| Selection.ScanFrom | extmgr/core/BasePackage.py:239-255 | the scan finds nothing exactly when every step is in order, and otherwise stops where the first step out of order says |
| Selection.StartIndex | extmgr/core/BasePackage.py:234-255 | a single step restarts exactly when it never completed; a longer list restarts exactly when some step is out of order, at that step when it never completed and after it when it is newer than its successor |
| Selection.StartIndexMeaning | extmgr/core/BasePackage.py:234-257 | every step before the start completed in order, and the start never completed or is older than its predecessor |
| Selection.StartIndexIgnoresLater | extmgr/core/BasePackage.py:239-249 | the stamps of steps after the start do not affect the start |
| Selection.StartIndexFresh | extmgr/core/BasePackage.py:236-245 | a package with no stamps starts at its first step |
| Selection.StartIndexExample | extmgr/core/BasePackage.py:247-248 | a step older than its predecessor is where the run resumes |
| Selection.LegacyScanFrom | core/BasePackage.py:155-174 | the older scan starts no earlier than where it looks, and finds nothing only when every step from there on has completed |
| Selection.LegacyStartIndex | core/BasePackage.py:155-174 | the older start is a step of the list, and there is none only when every step has completed |
| Selection.LegacyStartIndexAgrees | core/BasePackage.py:155-174 | the older scan, which checks the last step separately, picks the same start as the current scan |
| Steps.Qualify | extmgr/core/BasePackage.py:231-232 | build-phase steps are renamed `flag-name`, keeping their commands |
| Steps.QualifyDistinct | extmgr/core/BasePackage.py:231-232 | qualifying keeps distinct step names distinct |
| Steps.RunSteps | extmgr/core/BasePackage.py:257-281 | a run that finishes ticks the clock and hands over one script per step; one that stops has steps and hands over at least one script |
| Steps.ExecSteps | extmgr/core/BasePackage.py:216-281 | a dry run or a phase without steps changes nothing and finishes; a phase that stops handed over at least one script |
| Steps.AcceptedMeaning | extmgr/core/BasePackage.py:260-279 | the steps counted as accepted each got a successful exit, and the next one did not |
| Steps.RunStepsCount | extmgr/core/BasePackage.py:260-281 | each accepted step advances the clock and saves the stamps once; the run finishes exactly when every step is accepted; one script is run per accepted step, plus the one that failed |
| Steps.RunStepsRefusal | extmgr/core/BasePackage.py:274-276 | a run that does not finish ends on the first refused step, with that step's exit |
| Steps.RunStepsScripts | extmgr/core/BasePackage.py:274 | each script handed to the shell is the environment commands followed by the step's own |
| Steps.RunStepsKeepsOthers | extmgr/core/BasePackage.py:278 | only the stamps of accepted steps change |
| Steps.RunStepsStampsLater | extmgr/core/BasePackage.py:278-279 | every accepted step is stamped later than the run began, and the last save holds the final stamps |
| Steps.RunStepsStampsDistinct | extmgr/core/BasePackage.py:278 | with distinct names, accepted step `i` is stamped with the `i+1`-th tick |
| Steps.RunStepsClockAhead | extmgr/core/BasePackage.py:278 | a run keeps every stamp at or before the clock |
| Steps.Resume | extmgr/core/BasePackage.py:253-270 | nothing runs and nothing changes when every step is up to date or in a dry run |
| Steps.ResumeFromStart | extmgr/core/BasePackage.py:257-276 | a resumed run first hands the shell the start step's script and leaves the stamps of steps before the start alone |
| Steps.RunAllFromStamps | extmgr/core/BasePackage.py:257-279 | when every step from the start succeeds, the steps before it keep their stamps and the rest are stamped with consecutive ticks |
| Steps.ResumeRerun | extmgr/core/BasePackage.py:234-281 | right after a run that finished, every step is up to date, so running again runs nothing whatever the shell would answer |
| Steps.ResumeKeepsOthers | extmgr/core/BasePackage.py:278 | a run never changes the stamp of a name that is not one of its steps |
| Steps.ResumeAppends | extmgr/core/BasePackage.py:274-279 | a run only appends to the scripts handed over and the tables saved |
| Steps.ExecStepsRerun | extmgr/core/BasePackage.py:216-281 | a phase with or without flag-qualified names is up to date right after it finished |
| Package.DeriveDirs | extmgr/core/BasePackage.py:134-141 | the version directory is install prefix/name/version and holds `src`, the stamp file and the install directory, named after the flag or `install`; the build directory is build prefix/name/version, plus the flag in the per-flag layout, and holds `tmp-<flag>.sh` or `tmp.sh` |
| Package.SharedDirsIgnoreFlag | extmgr/core/UniquePackage.py:29-36 | in the shared layout the directories do not depend on the build flag |
| Package.PerFlagDirsSeparate | extmgr/core/BasePackage.py:137-141 | in the per-flag layout two build flags give different build, install and script paths |
| Package.VersionsSeparate | extmgr/core/BasePackage.py:135-140 | two versions of a package never share a directory |
| Package.LoadStamps | extmgr/core/BasePackage.py:150-160 | an unreadable file is an error, a readable one replaces the stamps, and an absent one keeps those held |
| Package.SetConfig | extmgr/core/BasePackage.py:120-160 | configuring fails exactly when the stamp file is unreadable, derives the layout's directories, and keeps the held stamps without a file |
| Package.FreshPackageStartsAtFirstStep | extmgr/core/BasePackage.py:150-160 | a package configured with no stamp file and no held stamps starts at its first source step |
| Package.CheckSetup | extmgr/core/BasePackage.py:208-212 | the setup check hands its script to the shell alone and stamps nothing |
| Package.Make | extmgr/core/BasePackage.py:184-214 | a dry run changes nothing, failing to make the directories fails, a missing `sh` entry is the only error, and a build that finishes ends with the `sh` setup check |
| Package.MakeStopsAfterSource | extmgr/core/BasePackage.py:200-202 | a source phase that does not finish is the whole build: no further script, and no name outside the source steps stamped |
| Package.MakeBuildsAfterSource | extmgr/core/BasePackage.py:200-212 | after a source phase that finishes, the build phase starts from its final state; a stopped build phase is the result, and the rest only appends and keeps the other stamps |
| Package.StepNames | extmgr/core/BasePackage.py:201-205 | the names a build stamps are the source step names and the flag-qualified build step names |
| Package.MakeAppends | extmgr/core/BasePackage.py:184-214 | a build only appends to the scripts handed over and the tables saved |
| Package.MakeKeepsOthers | extmgr/core/BasePackage.py:184-214 | a build stamps only its own steps |
| Package.MakeRerun | extmgr/core/BasePackage.py:184-214 | building again right after a build that finished runs no step, only the setup check |
| Package.NoBuildStepsIgnoreFlag | extmgr/core/UniquePackage.py:57-58 | a shared-layout recipe without build steps, the shared layout's default, builds alike under every build flag |
| Legacy.LegacySteps | core/BasePackage.py:92-100 | five steps in order, named download, patch, and alias + `-configure`, `-build`, `-install`, the names distinct, each step running the recipe's commands for it |
| Legacy.LegacyNamesDistinct | core/BasePackage.py:92-100 | the five step names are distinct whatever the alias |
| Legacy.PreEnv | core/BasePackage.py:24 | the environment commands are those given, less those starting with '#', each kept as often as given |
| Legacy.PreEnvAppend | core/BasePackage.py:24 | the commands are filtered one by one, so the kept ones stay in their order |
| Legacy.PreEnvOne | core/BasePackage.py:24 | a single command is dropped exactly when it starts with '#' |
| Legacy.PreEnvIdempotent | core/BasePackage.py:24 | filtering the environment commands twice keeps what filtering once kept |
| Legacy.LegacyScript | core/BasePackage.py:132 | an older script starts with its first command, and is that command alone when there is one |
| Legacy.LegacyScriptLines | core/BasePackage.py:132 | the lines of an older script are its commands, when none spans lines |
| Legacy.DeriveLegacyDirs | core/BasePackage.py:27-32 | source, install and stamp file are `src`, the alias and the stamp file name under install directory/name/version, and the build directory is build directory/name/version/alias |
| Legacy.LegacyDirsArePerFlag | core/BasePackage.py:27-32 | the older layout is the current per-flag layout with the alias in place of the flag |
| Legacy.LegacyLoadStamps | core/BasePackage.py:44-52 | the older package loads into a fresh table, so no stamp file means no stamps |
| Legacy.LegacyMake | core/BasePackage.py:102-153 | a dry run changes nothing, and otherwise the steps resume from the older scan's start |
| Legacy.LegacyRerun | core/BasePackage.py:102-174 | building an older package again right after a build that succeeded runs nothing |
| Legacy.LegacyFreshBuild | core/BasePackage.py:115-146 | a fresh older package that succeeds runs all five steps, each with the environment commands first, and stamps all five |
| Distribution.EmptyDist | extmgr/core/BaseDistribution.py:6-21 | a new distribution has no members and is well formed |
| Distribution.AddPackage | extmgr/core/BaseDistribution.py:23-41 | a second member with the same name is refused; otherwise the package is appended |
| Distribution.AddPackageKeeps | extmgr/core/BaseDistribution.py:37-41 | adding keeps the distribution well formed, records the given dependency list (empty when none), and keeps everyone else's |
| Distribution.SortedNames | extmgr/core/BaseDistribution.py:43-77 | the result lists every member once with each dependency before its dependents, and starts with the members that depend on nothing in their order; a cycle is reported exactly when no such order exists |
| Distribution.SortedPackages | extmgr/core/BaseDistribution.py:43-79 | the packages come out as a permutation of the members in dependency order, or the cycle error when there is none |
| Distribution.TopoOrderIrreflexive | extmgr/core/BaseDistribution.py:76-77 | no member that can be ordered depends on itself |
| Distribution.SelfDependencyFails | extmgr/core/BaseDistribution.py:76-77 | a member that depends on itself makes the sort fail with a cycle |
| Distribution.TwoNamesOrder | extmgr/core/BaseDistribution.py:63-73 | when one of two members depends only on the other, the other comes first |
| Distribution.ReleaseBOrder | extmgr/distributions/dist_python/__init__.py:43-49 | in releaseB, Catch2 is built before fmt |
| Executor.AddToRegistry | extmgr/core/Executor.py:31-45 | a known name and version is refused; otherwise it becomes known and nothing else changes |
| Executor.AddToRegistryValid | extmgr/core/Executor.py:31-45 | adding a package keeps the registry well formed |
| Executor.AddFound | extmgr/core/Executor.py:169-197 | the walk adds every version it finds to the table it started from, keeps that table's versions, adds nothing it did not find, and fails only on a duplicate |
| Executor.AddFoundFinds | extmgr/core/Executor.py:186-187 | finding a version already in the table is an error |
| Executor.AddFoundRejectsTwins | extmgr/core/Executor.py:186-187 | finding the same name and version twice is an error |
| Executor.AddFoundSucceeds | extmgr/core/Executor.py:169-197 | the walk succeeds when nothing it finds is in the table already or found twice |
| Executor.Discover | extmgr/core/Executor.py:160-199 | the known versions become exactly those found, each filed as found, and the distributions stay |
| Executor.DiscoverSucceeds | extmgr/core/Executor.py:169-199 | discovery succeeds exactly when no name and version is found twice, whatever was known before |
| Executor.DiscoverRejectsTwins | extmgr/core/Executor.py:186-187 | finding the same name and version twice is an error |
| Executor.DiscoverRerun | extmgr/core/Executor.py:169-199 | discovering again with the same classes gives the same registry |
| Executor.DiscoverValid | extmgr/core/Executor.py:199 | the registry discovery builds is well formed when every distribution member is a version the walk finds |
| Executor.FirstMissing | extmgr/core/Executor.py:140-142 | nothing is missing exactly when every requested version is known, and what is reported missing is requested and unknown |
| Executor.AddAll | extmgr/core/Executor.py:153-155 | adding the requested versions in order gives a well-formed distribution of exactly those members |
| Executor.AddAllSucceeds | extmgr/core/Executor.py:153-155 | adding succeeds exactly when all the names are distinct |
| Executor.AddAllDeps | extmgr/core/Executor.py:155 | each added member records its entry of the dependency map, or nothing |
| Executor.RegisterDistribution | extmgr/core/Executor.py:116-158 | a taken name and an unknown version are refused with their errors; on success only the new distribution is added, with exactly the requested members |
| Executor.RegisterSucceeds | extmgr/core/Executor.py:133-157 | registering succeeds exactly when the name is free, every version is known, every dependency is a requested member, and the requested names are distinct |
| Executor.RegisterRecordsDeps | extmgr/core/Executor.py:152-155 | each member's dependencies are its entry of the given map |
| Executor.RegisterValid | extmgr/core/Executor.py:116-158 | registering keeps the registry well formed |
| Executor.Attempt | extmgr/core/Executor.py:67-76 | an unreadable stamp file is an error, a dry run builds nothing, and a package that finishes ends with its `sh` setup check |
| Executor.DryRunQuiet | extmgr/core/Executor.py:70-71 | in a dry run no package's turn runs anything or advances the clock |
| Executor.BuildAll | extmgr/core/Executor.py:67-86 | packages are tried in order until one does not finish; each is recorded with the environment so far, the first with the starting one |
| Executor.BuildAllStops | extmgr/core/Executor.py:67-73 | the loop stops at the first package that does not finish or reports an error: packages after it are never tried |
| Executor.BuildAllEnvs | extmgr/core/Executor.py:67-86 | each package is given the starting environment plus the `sh` setup commands of every package built before it |
| Executor.BuildAllQuiet | extmgr/core/Executor.py:67-86 | when no turn runs anything, neither does the loop, and every package finishes |
| Executor.BuildAllErrors | extmgr/core/Executor.py:67-86 | the loop fails only with an error of a package's turn or a missing `sh` entry |
| Executor.EnvOf | extmgr/core/Executor.py:75-86 | the accumulated environment holds exactly the `sh` commands of the packages built |
| Executor.EnvOfContains | extmgr/core/Executor.py:86 | the accumulated environment holds each package's `sh` commands right after those of the packages before it |
| Executor.SetupFile | extmgr/core/Executor.py:93-103 | each setup script is install prefix/`setup-scripts`/distribution/flag/`<flag>.<shell>` |
| Executor.SetupFilesDiffer | extmgr/core/Executor.py:103 | different shells get different setup files |
| Executor.SetupLines | extmgr/core/Executor.py:96-100 | a shell's setup lines are empty exactly when no package has commands for it, and otherwise end with an empty line |
| Executor.SetupLinesContain | extmgr/core/Executor.py:98-100 | a shell's setup script holds, for each package with commands for it, a header line, those commands and a blank line |
| Executor.Shells | extmgr/core/Executor.py:96-100 | a shell gets a setup script exactly when some package has commands for it |
| Executor.MakeFrom | extmgr/core/Executor.py:63-114 | errors come only from turns; a dry run builds nothing and succeeds; otherwise it succeeds exactly when every package finished and every setup script, one per shell any package names, was written |
| Executor.MakeDistribution | extmgr/core/Executor.py:47-114 | an unknown distribution fails, a dependency cycle is an error, and otherwise the packages are made in dependency order |
| Executor.Order | extmgr/core/Executor.py:63 | the build order lists, for each member in the sorted order, the recipe registered for that member's name and version |
| Executor.DependencyEarlier | extmgr/core/Executor.py:63-67 | every dependency of a package is built before it |
| Executor.DependencySetupVisible | extmgr/core/Executor.py:63-86 | each package is built with the `sh` setup commands of each of its dependencies in its environment |

## Left out

- Logging, the `ILog` mixin and every message the code prints are not modelled.
- `watch_proc` is not modelled. The code never calls it.
- The singleton metaclass of `Executor` is not modelled. The registry is an ordinary value
  passed to each operation.
- File-system effects are not modelled: `resolve()`, `mkdir`, removing temporary scripts,
  and `chmod`. Directories are paths as lists of components. Making a package's directories
  is a yes/no answer from the world.
- Writing a step script can fail in `_run_cmds`. That failure is not modelled; it answers
  false like a non-zero exit, so the shell oracle's `NonZero` answer covers it.
- Only the setup script contents that would be written are modelled. When one write
  fails, which scripts were written before it is not modelled.
- Creating the setup directory can fail (extmgr/core/Executor.py:94). That failure is not
  modelled.
- Stamps are natural numbers read from a clock that advances one tick per successful step.
  The code uses floating-point `time.time()` (current) and `time.time_ns()` (older).
  Only the order of stamps matters to the code.
- Reading a missing key from the stamp `defaultdict` inserts a 0 entry. The model reads 0
  without inserting. The difference would only appear in the saved JSON.
- A stamp file's JSON is not parsed. Its contents are given as a table, or as unreadable.
- `update_packages` walks the subclasses of `BasePackage` and instantiates them. The walk
  is not modelled. `Executor.Discover` takes the list of recipes the walk would find, in
  the walk's order.
- A registered distribution holds package objects in the code and names and versions in
  the model, looked up in the registry. After a new discovery the code's distributions
  keep their old objects; the model looks the members up afresh, which is why
  `Executor.DiscoverValid` asks that the walk find every member.
- Saving the stamp table can fail (extmgr/core/BasePackage.py:317-318). The exception
  would leave `make_distribution` uncaught, since it catches only `KeyboardInterrupt`
  (extmgr/core/Executor.py:110). That failure is not modelled: every save succeeds.
- The concrete package recipes under `extmgr/distributions/` and `packages/` are not
  modelled. The one exception is the releaseB distribution, whose build order is checked.
- The argument parser of `main.py` is not modelled. Neither are reading `/etc/os-release`,
  `gcc -dumpversion` and `platform.processor()`: their outputs are parameters.
- Python's `int()` is modelled for ASCII digits, an optional sign, single underscores
  between digits and surrounding whitespace. That whitespace is tab to carriage return and
  the space among the ASCII characters, plus the non-ASCII characters `str.isspace`
  accepts; the separators U+001C to U+001F are not skipped. Non-ASCII digits are not
  modelled.
- Recipes' step, setup and configure commands are taken as already evaluated for the
  configuration. In the code they are methods that read the directories and settings
  `set_config` fixes, such as the install and build directories and the job count
  (extmgr/core/BasePackage.py:465-474 and :488). The model holds their results as data.
  Package.NoBuildStepsIgnoreFlag is therefore stated only for the shared layout, whose
  directories do not depend on the flag.
- Cli.PosInt: accepts numbers of any length, while Python's `int()` refuses decimal text
  of more than 4300 digits by default. A job count that long is not a realistic input.
- `KeyboardInterrupt` is the shell's `Interrupt` answer. An interrupted package ends the
  distribution build with a false answer. The model records that the build ended on that
  package.
- Commands.ApplyPatch: fixes each of the six lines of text. Whether the patch applies is
  decided by the shell at run time and is not modelled.
- Commands.ExtractArchive: states the command and its destination but not the rendering
  of the strip count, which is the plain decimal of the integer.
- Commands.CMakeBuild: the job count is whatever text the configuration holds; the words
  of the command are stated only when the directory, target and job count hold no space.
- Executor.MakeFrom: says nothing about the setup files when the answer is false. The code
  may have written some of them by then.
- Executor.Attempt: a turn starts from an empty stamp table before loading the stamp file,
  as for a package instance used only once. A package instance reused across invocations
  within one process, which would keep stamps without a file, is not modelled.

=== FILE: cli.dfy ===
/** The pure rules of the command-line entry point: the job-count validator, the choice of
    build type, and the composition of the build flag from the platform facts the entry
    point reads from the system. */
module Cli {
  import opened Common
  import opened Paths
  import opened Config

  /** The digits text Python's `int()` accepts: digits, with single underscores allowed
      between two digits. */
  predicate DigitGroups(s: string) {
    && s != []
    && IsDigit(s[0]) && IsDigit(s[|s| - 1])
    && (forall i :: 0 <= i < |s| ==> IsDigit(s[i]) || s[i] == '_')
    && (forall i :: 0 <= i < |s| - 1 ==> !(s[i] == '_' && s[i + 1] == '_'))
  }

  function DropUnderscores(s: string): (r: string)
    requires forall i :: 0 <= i < |s| ==> IsDigit(s[i]) || s[i] == '_'
    ensures AllDigits(r)
  {
    if s == [] then [] else (if s[0] == '_' then [] else [s[0]]) + DropUnderscores(s[1..])
  }

  /** The whitespace Python's `int()` skips around a number: tab to carriage return and
      the space among the ASCII characters, and every non-ASCII character `str.isspace()`
      accepts. The ASCII separators U+001C to U+001F are not skipped. */
  predicate IntSpace(c: char) {
    '\t' <= c <= '\r' || c == ' ' || (c >= '\U{80}' && IsSpace(c))
  }

  /** Python's `int(text)` on base-10 text: surrounding whitespace is ignored, one sign
      is allowed, and the digits may be grouped by single underscores. */
  function ParseInt(text: string): Option<int> {
    var t := Trim(text, IntSpace);
    var body := Unsigned(t);
    if DigitGroups(body) then Some(Signed(t, DigitsValue(DropUnderscores(body)))) else None
  }

  /** `t` without its leading sign, if it has one. */
  function Unsigned(t: string): string {
    if t != [] && (t[0] == '-' || t[0] == '+') then t[1..] else t
  }

  /** `v` with the sign `t` starts with. */
  function Signed(t: string, v: nat): int {
    if t != [] && t[0] == '-' then -(v as int) else v
  }

  lemma DropUnderscoresOfDigits(s: string)
    requires AllDigits(s)
    ensures DropUnderscores(s) == s
  {
    if s != [] {
      DropUnderscoresOfDigits(s[1..]);
      assert s == [s[0]] + s[1..];
    }
  }

  /** Plain digits parse to their value. */
  lemma ParseDigits(s: string)
    requires s != [] && AllDigits(s)
    ensures ParseInt(s) == Some(DigitsValue(s))
  {
    StripDigits(s);
    assert Unsigned(s) == s;
    DigitsAreGroups(s);
    DropUnderscoresOfDigits(s);
  }

  /** Digits carry no surrounding whitespace. */
  lemma StripDigits(s: string)
    requires s != [] && AllDigits(s)
    ensures Trim(s, IntSpace) == s
  {
    TrimPadded([], s, [], IntSpace);
    assert [] + s + [] == s;
  }

  /** Plain digits are one group. */
  lemma DigitsAreGroups(s: string)
    requires s != [] && AllDigits(s)
    ensures DigitGroups(s)
  {
  }

  /** `int(str(n))` is `n`. */
  lemma ParseDecimal(n: nat)
    ensures ParseInt(Decimal(n)) == Some(n)
  {
    ParseDigits(Decimal(n));
    DecimalRoundTrip(n);
  }

  /** The job-count validator: no value or an empty one means "no number" and yields
      the empty text; otherwise the text must be an integer greater than zero and the
      result is its canonical decimal. */
  function PosInt(value: Option<string>): (r: Result<string>)
    ensures value == None || value == Some("") ==> r == Ok("")
    ensures value.Some? && value.value != "" ==>
      (r.Ok? <==> ParseInt(value.value).Some? && ParseInt(value.value).value > 0)
    ensures r.Err? ==> r.error == NotPositiveInteger(value.GetOr(""))
    ensures r.Ok? && r.value != "" ==> r.value == Decimal(ParseInt(value.value).value)
  {
    match value
    case None => Ok("")
    case Some(text) =>
      if text == "" then Ok("")
      else match ParseInt(text)
        case None => Err(NotPositiveInteger(text))
        case Some(i) =>
          if i <= 0 then Err(NotPositiveInteger(text)) else Ok(Decimal(i))
  }

  /** An accepted job count comes back as the canonical decimal of the same number: it
      parses to what the input parsed to and has no leading zero. */
  lemma PosIntCanonical(value: Option<string>)
    requires PosInt(value).Ok? && PosInt(value).value != ""
    ensures value.Some? && ParseInt(PosInt(value).value) == ParseInt(value.value)
    ensures PosInt(value).value[0] != '0' && AllDigits(PosInt(value).value)
  {
    var i := ParseInt(value.value).value;
    assert PosInt(value).value == Decimal(i);
    ParseDecimal(i);
  }

  /** The validator is idempotent: feeding it its own output gives that output back. */
  lemma PosIntIdempotent(value: Option<string>)
    requires PosInt(value).Ok?
    ensures PosInt(Some(PosInt(value).value)) == PosInt(value)
  {
    var r := PosInt(value).value;
    if r != "" {
      var i := ParseInt(value.value).value;
      ParseDecimal(i);
    }
  }

  /** `k` zero digits. */
  function Zeros(k: nat): (z: string)
    ensures |z| == k && forall i :: 0 <= i < k ==> z[i] == '0'
  {
    seq(k, _ => '0')
  }

  /** Zero digits in front of a number's digits leave its value unchanged. */
  lemma {:induction false} LeadingZerosValue(z: string, s: string)
    requires AllDigits(s) && forall i :: 0 <= i < |z| ==> z[i] == '0'
    ensures AllDigits(z + s) && DigitsValue(z + s) == DigitsValue(s)
    decreases |z| + |s|
  {
    assert DigitValue('0') == 0;
    if s == [] {
      assert z + s == z;
      if z != [] {
        LeadingZerosValue(z[..|z| - 1], []);
        assert z[..|z| - 1] + [] == z[..|z| - 1];
      }
    } else {
      var init := s[..|s| - 1];
      LeadingZerosValue(z, init);
      assert (z + s)[..|z + s| - 1] == z + init;
    }
  }

  /** Leading zeros are dropped: "007" is accepted as "7". */
  lemma PosIntDropsLeadingZeros(k: nat, n: nat)
    requires n > 0
    ensures PosInt(Some(Zeros(k) + Decimal(n))) == Ok(Decimal(n))
  {
    var s := Zeros(k) + Decimal(n);
    LeadingZerosValue(Zeros(k), Decimal(n));
    ParseDigits(s);
    DecimalRoundTrip(n);
  }

  /** Whitespace `int()` skips around the number is ignored: tabs, newlines and spaces
      around a positive number are accepted. */
  lemma PosIntIgnoresWhitespace(lead: string, n: nat, pad: string)
    requires n > 0
    requires forall i :: 0 <= i < |lead| ==> IntSpace(lead[i])
    requires forall i :: 0 <= i < |pad| ==> IntSpace(pad[i])
    ensures PosInt(Some(lead + Decimal(n) + pad)) == Ok(Decimal(n))
  {
    var d := Decimal(n);
    TrimPadded(lead, d, pad, IntSpace);
    StripDigits(d);
    ParseDecimal(n);
  }

  /** A space and a tab before the number and a newline after it are skipped. */
  lemma PosIntPadded(n: nat)
    requires n > 0
    ensures PosInt(Some(" \t" + Decimal(n) + "\n")) == Ok(Decimal(n))
  {
    var lead, pad := " \t", "\n";
    assert IntSpace(lead[0]) && IntSpace(lead[1]) && IntSpace(pad[0]);
    PosIntIgnoresWhitespace(lead, n, pad);
  }

  /** The ASCII separators are not whitespace to `int()`: a number after a file separator
      is refused. */
  lemma PosIntRefusesSeparator(n: nat)
    requires n > 0
    ensures PosInt(Some("\U{1C}" + Decimal(n))) == Err(NotPositiveInteger("\U{1C}" + Decimal(n)))
  {
    var d := Decimal(n);
    var t := "\U{1C}" + d;
    assert t[0] == '\U{1C}' && t[|t| - 1] == d[|d| - 1];
    ParseNotNumber(t);
  }

  /** Text that starts with neither whitespace, a sign nor a digit, and does not end with
      whitespace, is not a number. */
  lemma ParseNotNumber(t: string)
    requires t != [] && !IntSpace(t[0]) && !IntSpace(t[|t| - 1])
    requires !IsDigit(t[0]) && t[0] != '-' && t[0] != '+'
    ensures ParseInt(t) == None
  {
    IntTrimmed(t);
  }

  /** Text that neither starts nor ends with whitespace is what `int()` reads. */
  lemma IntTrimmed(t: string)
    requires t != [] && !IntSpace(t[0]) && !IntSpace(t[|t| - 1])
    ensures Trim(t, IntSpace) == t
  {
  }

  /** `str.strip()` does remove the file separator that `int()` refuses. */
  lemma StripRemovesSeparator(n: nat)
    ensures Strip("\U{1C}" + Decimal(n)) == Decimal(n)
  {
    var d := Decimal(n);
    assert !IsSpace(d[0]) && !IsSpace(d[|d| - 1]);
    TrimPadded("\U{1C}", d, [], IsSpace);
    assert "\U{1C}" + d + [] == "\U{1C}" + d;
  }

  /** Zero is refused. */
  lemma PosIntRejectsZero()
    ensures PosInt(Some("0")) == Err(NotPositiveInteger("0"))
  {
    ParseDecimal(0);
    assert Decimal(0) == "0";
  }

  /** A negative number is refused. */
  lemma PosIntRejectsNegative(n: nat)
    ensures PosInt(Some("-" + Decimal(n))) == Err(NotPositiveInteger("-" + Decimal(n)))
  {
    ParseNegative(Decimal(n));
  }

  /** A minus sign before plain digits parses to the negated value, which is never
      positive. */
  lemma ParseNegative(d: string)
    requires d != [] && AllDigits(d)
    ensures ParseInt("-" + d) == Some(-(DigitsValue(d) as int))
  {
    var t := "-" + d;
    StripSigned(d);
    assert Unsigned(t) == d;
    DigitsAreGroups(d);
    DropUnderscoresOfDigits(d);
    assert ParseInt(t) == Some(Signed(t, DigitsValue(d)));
  }

  /** A minus sign before plain digits carries no surrounding whitespace. */
  lemma StripSigned(d: string)
    requires d != [] && AllDigits(d)
    ensures Trim("-" + d, IntSpace) == "-" + d
  {
    var t := "-" + d;
    TrimPadded([], t, [], IntSpace);
    assert [] + t + [] == t;
  }

  /** Text that is not a number is refused. */
  lemma PosIntRejectsText()
    ensures PosInt(Some("abc")) == Err(NotPositiveInteger("abc"))
  {
    ParseNotNumber("abc");
  }

  /** The build type chosen from the three mutually exclusive switches: Release unless a
      switch says otherwise, and the first set switch in the order opt, dbg, rwd wins. */
  function SelectBuildType(opt: bool, dbg: bool, rwd: bool): (t: BuildType)
    ensures t == Release <==> opt || (!dbg && !rwd)
    ensures t == Debug <==> !opt && dbg
    ensures t == RelWithDebInfo <==> !opt && !dbg && rwd
  {
    if opt then Release
    else if dbg then Debug
    else if rwd then RelWithDebInfo
    else Release
  }

  /** The short tag of a build type used in the build flag. */
  function BuildTypeAlias(t: BuildType): (a: string)
    ensures |a| == 3 && a in {"opt", "dbg", "rwd"}
  {
    match t
    case Release => "opt"
    case Debug => "dbg"
    case RelWithDebInfo => "rwd"
  }

  /** Distinct build types have distinct tags. */
  lemma BuildTypeAliasInjective(s: BuildType, t: BuildType)
    ensures BuildTypeAlias(s) == BuildTypeAlias(t) <==> s == t
  {
  }

  /** The part of a version string before its first '.'. */
  function MajorVersion(v: string): (m: string)
    ensures '.' !in m && StartsWith(v, m)
    ensures |m| == |v| || v[|m|] == '.'
  {
    SplitFirst(v, '.');
    Split(v, '.')[0]
  }

  lemma {:induction false} SplitFirst(s: string, sep: char)
    ensures StartsWith(s, Split(s, sep)[0])
    ensures var m := Split(s, sep)[0]; |m| == |s| || s[|m|] == sep
  {
    if s != [] && s[0] != sep {
      SplitFirst(s[1..], sep);
    }
  }

  /** The OS tag: the release ID, with almalinux shortened to "el", followed by the
      longest leading part of the release version that holds no '.'. */
  function OsAlias(id: string, versionId: string): (r: string)
    ensures var tag := if id == "almalinux" then "el" else id;
            && StartsWith(r, tag)
            && '.' !in r[|tag|..]
            && StartsWith(versionId, r[|tag|..])
            && (|r| - |tag| == |versionId| || versionId[|r| - |tag|] == '.')
  {
    var tag := if id == "almalinux" then "el" else id;
    var m := MajorVersion(versionId);
    assert (tag + m)[|tag|..] == m;
    tag + m
  }

  /** The compiler tag: "gcc" and the longest leading part of the stripped compiler
      version that holds no '.'. */
  function GccTag(dumpVersion: string): (r: string)
    ensures StartsWith(r, "gcc")
    ensures var v := Strip(dumpVersion);
            && '.' !in r[3..]
            && StartsWith(v, r[3..])
            && (|r| - 3 == |v| || v[|r| - 3] == '.')
  {
    var m := MajorVersion(Strip(dumpVersion));
    assert ("gcc" + m)[3..] == m;
    "gcc" + m
  }

  /** The build flag, `processor-osalias-gccN-alias`. */
  function BuildFlag(processor: string, osAlias: string, gcc: string, t: BuildType): (f: string)
    ensures StartsWith(f, processor + "-" + osAlias + "-" + gcc + "-")
    ensures |f| == |processor| + |osAlias| + |gcc| + 6
    ensures f[|f| - 3..] == BuildTypeAlias(t) && f[|f| - 4] == '-'
  {
    processor + "-" + osAlias + "-" + gcc + "-" + BuildTypeAlias(t)
  }

  /** When none of the platform facts holds a '-', the build flag splits back at its
      dashes into the processor, the OS tag, the compiler tag and the build-type alias. */
  lemma BuildFlagFields(processor: string, osAlias: string, gcc: string, t: BuildType)
    requires '-' !in processor && '-' !in osAlias && '-' !in gcc
    ensures Split(BuildFlag(processor, osAlias, gcc, t), '-') == [processor, osAlias, gcc, BuildTypeAlias(t)]
  {
    var a := BuildTypeAlias(t);
    assert '-' !in a;
    var parts := [processor, osAlias, gcc, a];
    assert Join(parts[3..], "-") == a;
    assert Join(parts[2..], "-") == gcc + "-" + a;
    assert Join(parts[1..], "-") == osAlias + "-" + (gcc + "-" + a);
    assert Join(parts, "-") == BuildFlag(processor, osAlias, gcc, t);
    SplitJoin(parts, '-');
  }

  /** On one platform, configurations of different build types get different build
      flags, so their build-phase stamps and directories never alias. */
  lemma BuildFlagSeparatesBuildTypes(processor: string, osAlias: string, gcc: string, s: BuildType, t: BuildType)
    ensures BuildFlag(processor, osAlias, gcc, s) == BuildFlag(processor, osAlias, gcc, t) <==> s == t
  {
    var f := BuildFlag(processor, osAlias, gcc, s);
    var g := BuildFlag(processor, osAlias, gcc, t);
    if f == g {
      assert f[|f| - 3..] == g[|g| - 3..];
      BuildTypeAliasInjective(s, t);
    }
  }

  /** AlmaLinux 9.4 is tagged "el9". */
  lemma OsAliasExample()
    ensures OsAlias("almalinux", "9.4") == "el9"
  {
    OsAliasOf("almalinux", "9", "4");
  }

  /** The OS tag of a dotted release version is the release ID, almalinux shortened to
      "el", followed by the part before the first dot. */
  lemma OsAliasOf(id: string, major: string, rest: string)
    requires '.' !in major
    ensures OsAlias(id, major + "." + rest) == (if id == "almalinux" then "el" else id) + major
  {
    MajorVersionOf(major, rest);
  }

  /** A release version without a dot is kept whole. */
  lemma OsAliasDotless(id: string, versionId: string)
    requires '.' !in versionId
    ensures OsAlias(id, versionId) == (if id == "almalinux" then "el" else id) + versionId
  {
    var m := MajorVersion(versionId);
    assert |m| == |versionId|;
  }

  /** The major version is everything before the first dot. */
  lemma MajorVersionOf(major: string, rest: string)
    requires '.' !in major
    ensures MajorVersion(major + "." + rest) == major
  {
    var v := major + "." + rest;
    var m := MajorVersion(v);
    assert v[|major|] == '.';
    assert m == v[..|m|] && major == v[..|major|];
  }

  /** The compiler tag ignores the minor version and the trailing newline of the reported
      version: "13.2.1\n" is tagged "gcc13". */
  lemma GccTagMajor(major: string, minor: string, pad: string)
    requires major != [] && AllDigits(major)
    requires minor == [] || !IsSpace(minor[|minor| - 1])
    requires forall i :: 0 <= i < |pad| ==> IsSpace(pad[i])
    ensures GccTag(major + "." + minor + pad) == "gcc" + major
  {
    var v := major + "." + minor;
    assert v[0] == major[0] && IsDigit(major[0]);
    assert v[|v| - 1] == (if minor == [] then '.' else minor[|minor| - 1]);
    StripTrailing(v, pad);
    assert '.' !in major by {
      forall i | 0 <= i < |major| ensures major[i] != '.' {
        assert IsDigit(major[i]);
      }
    }
    MajorVersionOf(major, minor);
  }

  /** A compiler that reports only its major version, as GCC does since version 7,
      "13\n" say, is tagged with that version. */
  lemma GccTagDotless(major: string, pad: string)
    requires major != [] && AllDigits(major)
    requires forall i :: 0 <= i < |pad| ==> IsSpace(pad[i])
    ensures GccTag(major + pad) == "gcc" + major
  {
    assert IsDigit(major[0]) && IsDigit(major[|major| - 1]);
    StripTrailing(major, pad);
    assert '.' !in major by {
      forall i | 0 <= i < |major| ensures major[i] != '.' {
        assert IsDigit(major[i]);
      }
    }
    var m := MajorVersion(major);
    assert |m| == |major|;
  }

  lemma BuildFlagExample()
    ensures BuildFlag("x86_64", "el9", "gcc13", Release) == "x86_64-el9-gcc13-opt"
  {
  }
}

=== FILE: commands.dfy ===
/** The shell-command builders packages compose their steps from. They are pure: each
    returns the lines of shell text for one action and touches nothing. */
module Commands {
  import opened Common
  import opened Paths
  import opened Config

  /** The script a step runs: fail-fast mode, then one command per line. */
  function ScriptText(cmds: seq<string>): (text: string)
    ensures StartsWith(text, "set -e\n")
  {
    "set -e\n" + Join(cmds, "\n")
  }

  /** The script's lines read back as the fail-fast line followed by the commands, when
      there is at least one command and none spans several lines. */
  lemma ScriptLines(cmds: seq<string>)
    requires cmds != [] && forall i :: 0 <= i < |cmds| ==> '\n' !in cmds[i]
    ensures Split(ScriptText(cmds), '\n') == ["set -e"] + cmds
  {
    var parts := ["set -e"] + cmds;
    assert parts[1..] == cmds;
    assert Join(parts, "\n") == ScriptText(cmds);
    SplitJoin(parts, '\n');
  }

  /** Splits text at single spaces. */
  function Words(line: string): seq<string> {
    Split(line, ' ')
  }

  /** Applies a patch idempotently: a dry run first, and the real application only when
      the dry run succeeded, both ignoring hunks that are already applied (-N). */
  function ApplyPatch(sourceDir: Path, patchFile: Path): (r: seq<string>)
    ensures |r| == 6 && r[0] == "cd " + Render(sourceDir) && r[5] == "cd -"
    ensures r[1] == "patch -p1 -N --dry-run -i " + Render(patchFile)
    ensures r[2] == "if [ $? -eq 0 ]; then" && r[4] == "fi"
    ensures r[3] == "    patch -p1 -N -i " + Render(patchFile)
  {
    [ "cd " + Render(sourceDir),
      "patch -p1 -N --dry-run -i " + Render(patchFile),
      "if [ $? -eq 0 ]; then",
      "    patch -p1 -N -i " + Render(patchFile),
      "fi",
      "cd -" ]
  }

  /** When the patch file's path holds no space, the dry run and the real application are
      the same `patch` command, the second indented and without `--dry-run`. */
  lemma ApplyPatchWords(sourceDir: Path, patchFile: Path)
    requires ' ' !in Render(patchFile)
    ensures var r := ApplyPatch(sourceDir, patchFile);
            && Words(r[1]) == ["patch", "-p1", "-N", "--dry-run", "-i", Render(patchFile)]
            && Words(r[3]) == ["", "", "", ""] + ["patch", "-p1", "-N", "-i", Render(patchFile)]
  {
    var f := Render(patchFile);
    var i := "-i" + " " + f;
    WordsOne(f);
    WordsCons("-i", f);
    assert Words(i) == ["-i", f];
    var r := ApplyPatch(sourceDir, patchFile);
    assert r[1] == "patch -p1 -N --dry-run " + i;
    assert r[3] == "    patch -p1 -N " + i;
    DryRunWords(i);
    AppliedWords(i);
  }

  lemma DryRunWords(i: string)
    ensures Words("patch -p1 -N --dry-run " + i) == ["patch", "-p1", "-N", "--dry-run"] + Words(i)
  {
    var d := "--dry-run" + " " + i;
    var n := "-N" + " " + d;
    var p := "-p1" + " " + n;
    assert "patch" + " " + p == "patch -p1 -N --dry-run " + i;
    WordsCons("--dry-run", i);
    assert Words(d) == ["--dry-run"] + Words(i);
    WordsCons("-N", d);
    assert Words(n) == ["-N", "--dry-run"] + Words(i);
    WordsCons("-p1", n);
    assert Words(p) == ["-p1", "-N", "--dry-run"] + Words(i);
    WordsCons("patch", p);
  }

  lemma AppliedWords(i: string)
    ensures Words("    patch -p1 -N " + i) == ["", "", "", "", "patch", "-p1", "-N"] + Words(i)
  {
    var n := "-N" + " " + i;
    var p := "-p1" + " " + n;
    var a := "patch" + " " + p;
    var s1 := "" + " " + a;
    var s2 := "" + " " + s1;
    var s3 := "" + " " + s2;
    var s4 := "" + " " + s3;
    assert s4 == "    patch -p1 -N " + i;
    WordsCons("-N", i);
    assert Words(n) == ["-N"] + Words(i);
    WordsCons("-p1", n);
    assert Words(p) == ["-p1", "-N"] + Words(i);
    WordsCons("patch", p);
    assert Words(a) == ["patch", "-p1", "-N"] + Words(i);
    WordsCons("", a);
    assert Words(s1) == ["", "patch", "-p1", "-N"] + Words(i);
    WordsCons("", s1);
    assert Words(s2) == ["", "", "patch", "-p1", "-N"] + Words(i);
    WordsCons("", s2);
    assert Words(s3) == ["", "", "", "patch", "-p1", "-N"] + Words(i);
    WordsCons("", s3);
  }

  /** Splitting a word without a space, a space and the rest gives the word, then the
      words of the rest. */
  lemma WordsCons(w: string, t: string)
    requires ' ' !in w
    ensures Words(w + " " + t) == [w] + Words(t)
  {
    SplitAfter(w, ' ', t);
  }

  lemma WordsOne(w: string)
    requires ' ' !in w
    ensures Words(w) == [w]
  {
    SplitNoSep(w, ' ');
  }

  /** Shell lines removing `target` when it exists as a directory (`-d`) or at all (`-e`). */
  function RemoveIfPresent(test: string, target: string): seq<string> {
    [ "if [ " + test + " " + target + " ]; then",
      "    rm -rvf " + target,
      "fi" ]
  }

  /** Clones a repository into the source directory and checks out `tag`. */
  function CloneGitRepo(sourceDir: Path, url: string, tag: string, removeExist: bool := false): (r: seq<string>)
    ensures |r| == (if removeExist then 7 else 4)
    ensures removeExist ==> r[0] == "if [ -d " + Render(sourceDir) + " ]; then"
    ensures removeExist ==> r[1] == "    rm -rvf " + Render(sourceDir) && r[2] == "fi"
    ensures r[|r| - 4] == "git clone " + url + " " + Render(sourceDir)
    ensures r[|r| - 3] == "cd " + Render(sourceDir) && r[|r| - 2] == "git checkout " + tag && r[|r| - 1] == "cd -"
  {
    var res := if removeExist then RemoveIfPresent("-d", Render(sourceDir)) else [];
    res + [ "git clone " + url + " " + Render(sourceDir) ] + [ "cd " + Render(sourceDir), "git checkout " + tag, "cd -" ]
  }

  /** Asking for removal only prepends the three removal lines; the clone itself is
      the same. */
  lemma CloneRemoveExistPrepends(sourceDir: Path, url: string, tag: string)
    ensures CloneGitRepo(sourceDir, url, tag, true)
         == RemoveIfPresent("-d", Render(sourceDir)) + CloneGitRepo(sourceDir, url, tag)
    ensures |CloneGitRepo(sourceDir, url, tag)| == 4
  {
  }

  /** Where a downloaded file lands: `dest` when given, else the build directory under
      the URL's file name. */
  function DownloadTarget(buildDir: Path, url: string, dest: Option<Path>): Path {
    match dest
    case Some(d) => d
    case None => Child(buildDir, Name(url))
  }

  /** Downloads `url` with wget to its target, optionally removing an old copy first. */
  function DownloadFile(buildDir: Path, url: string, dest: Option<Path> := None, removeExist: bool := false): (r: seq<string>)
    ensures var file := Render(DownloadTarget(buildDir, url, dest));
            && |r| == (if removeExist then 4 else 1)
            && (removeExist ==> r[0] == "if [ -e " + file + " ]; then" && r[1] == "    rm -rvf " + file && r[2] == "fi")
            && r[|r| - 1] == "wget " + url + " -O " + file
  {
    var file := Render(DownloadTarget(buildDir, url, dest));
    (if removeExist then RemoveIfPresent("-e", file) else []) + [ "wget " + url + " -O " + file ]
  }

  /** Without an explicit destination, a URL ending in a file name is saved under that
      name in the build directory. */
  lemma DownloadDefaultTarget(buildDir: Path, site: string, file: string)
    requires '/' !in file && file != "" && file != "."
    ensures DownloadFile(buildDir, site + "/" + file)
         == [ "wget " + site + "/" + file + " -O " + Render(Child(buildDir, file)) ]
  {
    NameOfLastSegment(site, file);
    var url := site + "/" + file;
    assert DownloadTarget(buildDir, url, None) == Child(buildDir, file);
    assert "wget " + url + " -O " + Render(Child(buildDir, file))
        == "wget " + site + "/" + file + " -O " + Render(Child(buildDir, file));
  }

  /** Extracts an archive into `dest` (the source directory by default), stripping
      `stripComponents` leading path components. */
  function ExtractArchive(sourceDir: Path, archive: Path, dest: Option<Path> := None, stripComponents: int := 1): (r: seq<string>)
    ensures |r| == 1
    ensures StartsWith(r[0], "tar -xvf " + Render(archive) + " -C " + Render(dest.GetOr(sourceDir)) + " --strip-components=")
  {
    var target := dest.GetOr(sourceDir);
    [ "tar -xvf " + Render(archive) + " -C " + Render(target) + " --strip-components=" + IntString(stripComponents) ]
  }

  /** Extracting "to the source directory" is extracting with no explicit destination. */
  function ExtractArchiveToSource(sourceDir: Path, archive: Path, stripComponents: int := 1): (r: seq<string>)
    ensures r == ExtractArchive(sourceDir, archive, None, stripComponents)
  {
    ExtractArchive(sourceDir, archive, Some(sourceDir), stripComponents)
  }

  function Keys(args: seq<(string, string)>): (ks: seq<string>)
    ensures |ks| == |args| && forall i :: 0 <= i < |args| ==> ks[i] == args[i].0
  {
    if args == [] then [] else [args[0].0] + Keys(args[1..])
  }

  /** Value of the first entry for `key`. */
  function Lookup(args: seq<(string, string)>, key: string): Option<string> {
    if args == [] then None
    else if args[0].0 == key then Some(args[0].1)
    else Lookup(args[1..], key)
  }

  lemma LookupAppend(a: seq<(string, string)>, b: seq<(string, string)>, key: string)
    ensures Lookup(a + b, key) == if key in Keys(a) then Lookup(a, key) else Lookup(b, key)
  {
    if a == [] {
      assert a + b == b;
    } else {
      assert (a + b)[1..] == a[1..] + b;
      LookupAppend(a[1..], b, key);
      assert key in Keys(a) <==> key == a[0].0 || key in Keys(a[1..]);
    }
  }

  /** A default definition, present only when the user did not define `key`. */
  function DefaultDefine(args: seq<(string, string)>, key: string, value: string): seq<(string, string)> {
    if key in Keys(args) then [] else [(key, value)]
  }

  /** The definitions `cmake_config` passes: the user's, in order, followed by the
      default build type and install prefix for whichever of the two the user left out. */
  function CMakeDefines(args: seq<(string, string)>, buildType: BuildType, installDir: Path): seq<(string, string)> {
    args
    + DefaultDefine(args, BuildTypeKey, BuildTypeName(buildType))
    + DefaultDefine(args, PrefixKey, Render(installDir))
  }

  const BuildTypeKey: string := "CMAKE_BUILD_TYPE"
  const PrefixKey: string := "CMAKE_INSTALL_PREFIX"

  function RenderDefines(defs: seq<(string, string)>): string {
    if defs == [] then "" else " -D" + defs[0].0 + "=" + defs[0].1 + RenderDefines(defs[1..])
  }

  lemma RenderDefinesAppend(a: seq<(string, string)>, b: seq<(string, string)>)
    ensures RenderDefines(a + b) == RenderDefines(a) + RenderDefines(b)
  {
    if a == [] {
      assert a + b == b;
    } else {
      assert (a + b)[1..] == a[1..] + b;
      RenderDefinesAppend(a[1..], b);
    }
  }

  lemma RenderDefault(args: seq<(string, string)>, key: string, value: string)
    ensures RenderDefines(DefaultDefine(args, key, value))
         == if key !in Keys(args) then " -D" + key + "=" + value else ""
  {
    if key !in Keys(args) {
      var d := [(key, value)];
      assert RenderDefines(d[1..]) == "";
    }
  }

  /** The CMake configure command: the user's definitions in order, then the defaults
      for those left out. */
  function CMakeConfig(buildDir: Path, sourceDir: Path, installDir: Path, buildType: BuildType,
                       args: seq<(string, string)> := []): (r: seq<string>)
    ensures r == [ "cmake -B " + Render(buildDir) + " -S " + Render(sourceDir)
                   + RenderDefines(CMakeDefines(args, buildType, installDir)) ]
  {
    var head := "cmake -B " + Render(buildDir) + " -S " + Render(sourceDir);
    var buildTypeArg :=
      if BuildTypeKey !in Keys(args) then " -D" + BuildTypeKey + "=" + BuildTypeName(buildType) else "";
    var prefixArg :=
      if PrefixKey !in Keys(args) then " -D" + PrefixKey + "=" + Render(installDir) else "";
    var d1 := DefaultDefine(args, BuildTypeKey, BuildTypeName(buildType));
    var d2 := DefaultDefine(args, PrefixKey, Render(installDir));
    RenderDefault(args, BuildTypeKey, BuildTypeName(buildType));
    RenderDefault(args, PrefixKey, Render(installDir));
    RenderDefinesAppend(args, d1);
    RenderDefinesAppend(args + d1, d2);
    assert CMakeDefines(args, buildType, installDir) == args + d1 + d2;
    assert RenderDefines(args + d1 + d2) == RenderDefines(args) + buildTypeArg + prefixArg;
    [head + (RenderDefines(args) + buildTypeArg + prefixArg)]
  }

  /** Whatever the user passes, the configure command defines the build type and the
      install prefix exactly once each (given the user's keys are distinct, as keys of a
      dictionary are); a user value overrides the default and the user's own definitions
      come first, unchanged. */
  lemma CMakeDefinesComplete(args: seq<(string, string)>, buildType: BuildType, installDir: Path)
    requires Distinct(Keys(args))
    ensures var defs := CMakeDefines(args, buildType, installDir);
      && |defs| >= |args|
      && defs[..|args|] == args
      && Distinct(Keys(defs))
      && Lookup(defs, BuildTypeKey) == Some(Lookup(args, BuildTypeKey).GetOr(BuildTypeName(buildType)))
      && Lookup(defs, PrefixKey) == Some(Lookup(args, PrefixKey).GetOr(Render(installDir)))
  {
    var v1 := BuildTypeName(buildType);
    var v2 := Render(installDir);
    DefineKeysDiffer();
    TwoDefaults(args, BuildTypeKey, v1, PrefixKey, v2);
    assert CMakeDefines(args, buildType, installDir)
        == args + DefaultDefine(args, BuildTypeKey, v1) + DefaultDefine(args, PrefixKey, v2);
  }

  lemma DefineKeysDiffer()
    ensures BuildTypeKey != PrefixKey
  {
    assert |BuildTypeKey| == 16 && |PrefixKey| == 20;
  }

  /** Appending defaults for two different keys keeps the user's entries first, keeps
      keys distinct, and makes both keys present with the user's value winning. */
  lemma TwoDefaults(args: seq<(string, string)>, k1: string, v1: string, k2: string, v2: string)
    requires Distinct(Keys(args)) && k1 != k2
    ensures var defs := args + DefaultDefine(args, k1, v1) + DefaultDefine(args, k2, v2);
      && defs[..|args|] == args
      && Distinct(Keys(defs))
      && Lookup(defs, k1) == Some(Lookup(args, k1).GetOr(v1))
      && Lookup(defs, k2) == Some(Lookup(args, k2).GetOr(v2))
  {
    var defs := args + DefaultDefine(args, k1, v1) + DefaultDefine(args, k2, v2);
    assert defs[..|args|] == args;
    TwoDefaultsDistinct(args, k1, v1, k2, v2);
    TwoDefaultsLookup(args, k1, v1, k2, v2);
  }

  lemma TwoDefaultsDistinct(args: seq<(string, string)>, k1: string, v1: string, k2: string, v2: string)
    requires Distinct(Keys(args)) && k1 != k2
    ensures Distinct(Keys(args + DefaultDefine(args, k1, v1) + DefaultDefine(args, k2, v2)))
  {
    var d1 := DefaultDefine(args, k1, v1);
    var d2 := DefaultDefine(args, k2, v2);
    KeysAppend(args, d1);
    KeysAppend(args + d1, d2);
    var ks1 := Keys(args) + Keys(d1);
    if d1 != [] {
      DistinctAppend(Keys(args), k1);
    } else {
      assert ks1 == Keys(args);
    }
    if d2 != [] {
      assert k2 !in ks1;
      DistinctAppend(ks1, k2);
    } else {
      assert ks1 + Keys(d2) == ks1;
    }
  }

  lemma TwoDefaultsLookup(args: seq<(string, string)>, k1: string, v1: string, k2: string, v2: string)
    requires k1 != k2
    ensures var defs := args + DefaultDefine(args, k1, v1) + DefaultDefine(args, k2, v2);
      && Lookup(defs, k1) == Some(Lookup(args, k1).GetOr(v1))
      && Lookup(defs, k2) == Some(Lookup(args, k2).GetOr(v2))
  {
    var d1 := DefaultDefine(args, k1, v1);
    var d2 := DefaultDefine(args, k2, v2);
    LookupPresent(args, k1);
    LookupPresent(args, k2);
    LookupAppend(args, d1, k1);
    LookupAppend(args + d1, d2, k1);
    LookupAppend(args, d1, k2);
    LookupAppend(args + d1, d2, k2);
    KeysAppend(args, d1);
  }

  lemma KeysAppend(a: seq<(string, string)>, b: seq<(string, string)>)
    ensures Keys(a + b) == Keys(a) + Keys(b)
  {
  }

  lemma LookupPresent(args: seq<(string, string)>, key: string)
    ensures Lookup(args, key).Some? <==> key in Keys(args)
  {
    if args != [] {
      LookupPresent(args[1..], key);
      assert key in Keys(args) <==> key == args[0].0 || key in Keys(args[1..]);
    }
  }

  /** The CMake build-and-install command, run with the configured job count. */
  function CMakeBuild(buildDir: Path, jobs: string, target: string := "install"): (r: seq<string>)
    ensures |r| == 1 && StartsWith(r[0], "cmake --build " + Render(buildDir) + " --target " + target)
    ensures EndsWith(r[0], " -- -j" + jobs)
    ensures |r[0]| == |Render(buildDir)| + |target| + |jobs| + 30
  {
    [ "cmake --build " + Render(buildDir) + " --target " + target + " -- -j" + jobs ]
  }

  /** When the build directory, the target and the job count hold no space, the build
      command reads back word by word: the directory, the target, then the job count
      passed on to the native build tool. */
  lemma CMakeBuildWords(buildDir: Path, jobs: string, target: string)
    requires ' ' !in Render(buildDir) && ' ' !in target && ' ' !in jobs
    ensures Words(CMakeBuild(buildDir, jobs, target)[0])
         == ["cmake", "--build", Render(buildDir), "--target", target, "--", "-j" + jobs]
  {
    var d := Render(buildDir);
    var j := "-j" + jobs;
    var t3 := "--target" + " " + (target + " " + ("--" + " " + j));
    var t2 := d + " " + t3;
    var t1 := "--build" + " " + t2;
    CMakeBuildShape(d, target, jobs);
    CMakeTargetWords(target, j);
    WordsCons(d, t3);
    assert Words(t2) == [d, "--target", target, "--", j];
    WordsCons("--build", t2);
    assert Words(t1) == ["--build", d, "--target", target, "--", j];
    WordsCons("cmake", t1);
  }

  lemma CMakeBuildShape(d: string, target: string, jobs: string)
    ensures "cmake --build " + d + " --target " + target + " -- -j" + jobs
         == "cmake" + " " + ("--build" + " " + (d + " " + ("--target" + " " + (target + " " + ("--" + " " + ("-j" + jobs))))))
  {
  }

  /** The target part of the build command, word by word. */
  lemma CMakeTargetWords(target: string, j: string)
    requires ' ' !in target && ' ' !in j
    ensures Words("--target" + " " + (target + " " + ("--" + " " + j))) == ["--target", target, "--", j]
  {
    var t5 := "--" + " " + j;
    var t4 := target + " " + t5;
    WordsOne(j);
    WordsCons("--", j);
    assert Words(t5) == ["--", j];
    WordsCons(target, t5);
    assert Words(t4) == [target, "--", j];
    WordsCons("--target", t4);
  }

  /** The six lines that prepend `value` to the variable `key` in one shell dialect:
      set it when empty or unset, otherwise put `value` in front of the old value. */
  function EnvBlock(key: string, value: string, shell: string): seq<string>
    requires shell == "sh" || shell == "csh"
  {
    if shell == "sh" then
      [ "if [ -z \"$" + key + "\" ]; then",
        "    export " + key + "=\"" + value + "\"",
        "else",
        "    export " + key + "=\"" + value + ":$" + key + "\"",
        "fi",
        "" ]
    else
      [ "if ( $?" + key + " ) then",
        "    setenv " + key + " \"" + value + ":$" + key + "\"",
        "else",
        "    setenv " + key + " \"" + value + "\"",
        "endif",
        "" ]
  }

  /** `append_envvar`: one six-line block per (variable, value) pair, in order. A shell
      other than sh or csh is an error, raised only once there is a pair to render. */
  function AppendEnvVar(pairs: seq<(string, string)>, shell: string): (r: Result<seq<string>>)
    ensures r.Err? <==> pairs != [] && shell != "sh" && shell != "csh"
    ensures r.Err? ==> r.error == InvalidShell(shell)
    ensures r.Ok? ==> |r.value| == 6 * |pairs|
    ensures r.Ok? ==> forall i :: 0 <= i < |pairs| ==>
      r.value[6 * i..6 * i + 6] == EnvBlock(pairs[i].0, pairs[i].1, shell)
  {
    if pairs == [] then Ok([])
    else if shell != "sh" && shell != "csh" then Err(InvalidShell(shell))
    else
      var rest := AppendEnvVar(pairs[1..], shell).value;
      var block := EnvBlock(pairs[0].0, pairs[0].1, shell);
      ConcatSlices(block, rest, 0, 6);
      forall i | 1 <= i < |pairs|
        ensures (block + rest)[6 * i..6 * i + 6] == EnvBlock(pairs[i].0, pairs[i].1, shell)
      {
        ConcatSlices(block, rest, 6 * i, 6 * i + 6);
        assert pairs[1..][i - 1] == pairs[i];
      }
      Ok(block + rest)
  }

  /** Rendering a concatenation of pair lists renders each part in turn. */
  lemma {:induction false} AppendEnvVarConcat(a: seq<(string, string)>, b: seq<(string, string)>, shell: string)
    requires shell == "sh" || shell == "csh"
    ensures AppendEnvVar(a + b, shell).Ok?
    ensures AppendEnvVar(a + b, shell).value == AppendEnvVar(a, shell).value + AppendEnvVar(b, shell).value
  {
    if a == [] {
      assert a + b == b;
    } else {
      assert (a + b)[1..] == a[1..] + b;
      AppendEnvVarConcat(a[1..], b, shell);
    }
  }

  /** The older clone builder: one command cloning the branch into the source directory. */
  function LegacyCloneGitRepo(sourceDir: Path, url: string, branch: string): (r: string)
    ensures StartsWith(r, "git clone " + url + " " + Render(sourceDir))
    ensures EndsWith(r, " --branch " + branch)
    ensures |r| == |url| + |Render(sourceDir)| + |branch| + 21
  {
    "git clone " + url + " " + Render(sourceDir) + " --branch " + branch
  }

  /** When the URL, the source directory and the branch hold no space, the older clone
      command reads back word by word. */
  lemma LegacyCloneWords(sourceDir: Path, url: string, branch: string)
    requires ' ' !in url && ' ' !in Render(sourceDir) && ' ' !in branch
    ensures Words(LegacyCloneGitRepo(sourceDir, url, branch))
         == ["git", "clone", url, Render(sourceDir), "--branch", branch]
  {
    var d := Render(sourceDir);
    var t4 := "--branch" + " " + branch;
    var t3 := d + " " + t4;
    var t2 := url + " " + t3;
    var t1 := "clone" + " " + t2;
    LegacyCloneShape(d, url, branch);
    WordsOne(branch);
    WordsCons("--branch", branch);
    assert Words(t4) == ["--branch", branch];
    WordsCons(d, t4);
    assert Words(t3) == [d, "--branch", branch];
    WordsCons(url, t3);
    assert Words(t2) == [url, d, "--branch", branch];
    WordsCons("clone", t2);
    assert Words(t1) == ["clone", url, d, "--branch", branch];
    WordsCons("git", t1);
  }

  lemma LegacyCloneShape(d: string, url: string, branch: string)
    ensures "git clone " + url + " " + d + " --branch " + branch
         == "git" + " " + ("clone" + " " + (url + " " + (d + " " + ("--branch" + " " + branch))))
  {
  }

  /** The older download builder. */
  function WgetFile(url: string, file: string): (r: string)
    ensures StartsWith(r, "wget " + url)
    ensures EndsWith(r, " -O " + file)
    ensures |r| == |url| + |file| + 9
  {
    "wget " + url + " -O " + file
  }

  /** When the URL and the file hold no space, the older download command reads back
      word by word. */
  lemma WgetWords(url: string, file: string)
    requires ' ' !in url && ' ' !in file
    ensures Words(WgetFile(url, file)) == ["wget", url, "-O", file]
  {
    WordsOne(file);
    var t2 := "-O" + " " + file;
    WordsCons("-O", file);
    var t1 := url + " " + t2;
    WordsCons(url, t2);
    WordsCons("wget", t1);
    assert "wget" + " " + t1 == WgetFile(url, file);
  }

  function DefineItem(kv: (string, string)): string {
    "-D" + kv.0 + "=" + kv.1
  }

  function DefineItems(args: seq<(string, string)>): (r: seq<string>)
    ensures |r| == |args| && forall i :: 0 <= i < |args| ==> r[i] == DefineItem(args[i])
  {
    if args == [] then [] else [DefineItem(args[0])] + DefineItems(args[1..])
  }

  function Spaced(items: seq<string>): (r: seq<string>)
    ensures |r| == |items| && forall i :: 0 <= i < |items| ==> r[i] == items[i] + " "
  {
    if items == [] then [] else [items[0] + " "] + Spaced(items[1..])
  }

  /** `gen_cmake_args`: every pair rendered `-Dk=v` with a trailing space, joined by a
      space, and the whole stripped. */
  function GenCMakeArgs(args: seq<(string, string)>): (r: string)
    ensures r == [] || (!IsSpace(r[0]) && !IsSpace(r[|r| - 1]))
  {
    Strip(Join(Spaced(DefineItems(args)), " "))
  }

  lemma {:induction false} JoinSpaced(items: seq<string>)
    requires items != []
    ensures Join(Spaced(items), " ") == Join(items, "  ") + " "
  {
    if |items| > 1 {
      JoinSpaced(items[1..]);
      assert Spaced(items)[1..] == Spaced(items[1..]);
    }
  }

  lemma JoinEnds(items: seq<string>, sep: string)
    requires items != [] && items[|items| - 1] != []
    ensures var j := Join(items, sep); j != [] && j[|j| - 1] == items[|items| - 1][|items[|items| - 1]| - 1]
  {
    if |items| > 1 {
      JoinEnds(items[1..], sep);
    }
  }

  lemma JoinStarts(items: seq<string>, sep: string)
    requires items != [] && items[0] != []
    ensures var j := Join(items, sep); j != [] && j[0] == items[0][0]
  {
  }

  /** The arguments come out in order, `-Dk=v` each, separated by two spaces (one from
      the item, one from the join), with nothing around them, unless the last value itself
      ends in whitespace, which the strip also removes. */
  lemma GenCMakeArgsLayout(args: seq<(string, string)>)
    requires args == [] || var v := args[|args| - 1].1; v == [] || !IsSpace(v[|v| - 1])
    ensures GenCMakeArgs(args) == Join(DefineItems(args), "  ")
  {
    if args == [] {
      assert Strip("") == "";
    } else {
      var items := DefineItems(args);
      JoinSpaced(items);
      JoinStarts(items, "  ");
      JoinEnds(items, "  ");
      var last := args[|args| - 1];
      assert items[|items| - 1] == "-D" + last.0 + "=" + last.1;
      StripTrailing(Join(items, "  "), " ");
    }
  }
}

=== FILE: common.dfy ===
/** Shared vocabulary: failure-carrying results, the errors the build manager raises,
    and the small sequence and string helpers every other module uses. */
module Common {

  datatype Option<+T> = None | Some(value: T) {
    function GetOr(default: T): T {
      match this
      case Some(v) => v
      case None => default
    }
  }

  /** Every exception the modelled code raises, named by what went wrong. */
  datatype Error =
    | DuplicatePackage(name: string, version: string)
    | DuplicateMember(name: string)
    | DuplicateDistribution(name: string)
    | UnknownPackage(name: string, version: string)
    | UnknownDependency(distribution: string)
    | Cycle
    | StampLoadFailed
    | MissingShell(shell: string)
    | InvalidShell(shell: string)
    | NotPositiveInteger(text: string)

  datatype Result<+T> = Ok(value: T) | Err(error: Error)

  /** No element occurs twice. */
  predicate Distinct<T(==)>(s: seq<T>) {
    forall i, j :: 0 <= i < j < |s| ==> s[i] != s[j]
  }

  /** Number of occurrences of `x` in `s`. */
  function Count<T(==)>(s: seq<T>, x: T): nat {
    if s == [] then 0 else (if s[0] == x then 1 else 0) + Count(s[1..], x)
  }

  lemma CountAppend<T>(a: seq<T>, b: seq<T>, x: T)
    ensures Count(a + b, x) == Count(a, x) + Count(b, x)
  {
    if a == [] {
      assert a + b == b;
    } else {
      assert (a + b)[1..] == a[1..] + b;
      CountAppend(a[1..], b, x);
    }
  }

  lemma CountZero<T>(s: seq<T>, x: T)
    ensures Count(s, x) == 0 <==> x !in s
  {
    if s != [] {
      CountZero(s[1..], x);
      assert s == [s[0]] + s[1..];
    }
  }

  lemma DistinctAppend<T>(s: seq<T>, x: T)
    requires Distinct(s) && x !in s
    ensures Distinct(s + [x])
  {
  }

  /** A slice of a concatenation inside its left part is a slice of the left part, and
      one inside its right part is a slice of the right part. */
  lemma ConcatSlices<T>(a: seq<T>, b: seq<T>, x: nat, y: nat)
    requires x <= y
    ensures y <= |a| ==> (a + b)[x..y] == a[x..y]
    ensures |a| <= x && y <= |a| + |b| ==> (a + b)[x..y] == b[x - |a|..y - |a|]
  {
    if y <= |a| {
      forall k | 0 <= k < y - x ensures (a + b)[x..y][k] == a[x..y][k] {
        assert (a + b)[x + k] == a[x + k];
      }
    }
    if |a| <= x && y <= |a| + |b| {
      forall k | 0 <= k < y - x ensures (a + b)[x..y][k] == b[x - |a|..y - |a|][k] {
        assert (a + b)[x + k] == b[x + k - |a|];
      }
    }
  }

  /** A distinct sequence has as many elements as its set. */
  lemma DistinctCard<T>(s: seq<T>)
    requires Distinct(s)
    ensures |set x | x in s| == |s|
  {
    if s != [] {
      var t := s[..|s| - 1];
      assert Distinct(t);
      DistinctCard(t);
      assert (set x | x in s) == (set x | x in t) + {s[|s| - 1]};
    }
  }

  /** In a distinct sequence every element occurs exactly once. */
  lemma DistinctMultiplicity<T>(s: seq<T>, x: T)
    requires Distinct(s)
    ensures multiset(s)[x] == if x in s then 1 else 0
  {
    if s != [] {
      var t := s[..|s| - 1];
      assert s == t + [s[|s| - 1]];
      assert Distinct(t);
      DistinctMultiplicity(t, x);
    }
  }

  /** Two distinct sequences with the same elements are permutations of each other. */
  lemma DistinctSameSetPermutes<T>(a: seq<T>, b: seq<T>)
    requires Distinct(a) && Distinct(b)
    requires forall x :: x in a <==> x in b
    ensures multiset(a) == multiset(b)
  {
    forall x ensures multiset(a)[x] == multiset(b)[x] {
      DistinctMultiplicity(a, x);
      DistinctMultiplicity(b, x);
    }
  }

  /** Elements of `s` kept in order when `keep` holds of them. */
  function Filter<T(!new)>(s: seq<T>, keep: T -> bool): (r: seq<T>)
    ensures forall x :: x in r <==> x in s && keep(x)
    ensures |r| <= |s|
  {
    if s == [] then [] else
      var head := if keep(s[0]) then [s[0]] else [];
      head + Filter(s[1..], keep)
  }

  /** Each kept element occurs in the result as often as in the input. */
  lemma {:induction false} FilterMultiplicity<T(!new)>(s: seq<T>, keep: T -> bool)
    ensures forall x :: multiset(Filter(s, keep))[x] == if keep(x) then multiset(s)[x] else 0
  {
    if s != [] {
      FilterMultiplicity(s[1..], keep);
      assert s == [s[0]] + s[1..];
    }
  }

  /** Filtering a concatenation filters each part in turn, so the kept elements stay in
      their order. */
  lemma {:induction false} FilterAppend<T(!new)>(a: seq<T>, b: seq<T>, keep: T -> bool)
    ensures Filter(a + b, keep) == Filter(a, keep) + Filter(b, keep)
  {
    if a == [] {
      assert a + b == b;
    } else {
      assert (a + b)[1..] == a[1..] + b;
      FilterAppend(a[1..], b, keep);
    }
  }

  /** Python's `sep.join(parts)`. */
  function Join(parts: seq<string>, sep: string): string {
    if |parts| == 0 then ""
    else if |parts| == 1 then parts[0]
    else parts[0] + sep + Join(parts[1..], sep)
  }

  /** Concatenation of a sequence of command lists. */
  function Flatten<T>(xss: seq<seq<T>>): seq<T> {
    if xss == [] then [] else xss[0] + Flatten(xss[1..])
  }

  lemma FlattenAppend<T>(a: seq<seq<T>>, b: seq<seq<T>>)
    ensures Flatten(a + b) == Flatten(a) + Flatten(b)
  {
    if a == [] {
      assert a + b == b;
    } else {
      assert (a + b)[1..] == a[1..] + b;
      FlattenAppend(a[1..], b);
    }
  }

  predicate StartsWith(s: string, prefix: string) {
    |prefix| <= |s| && s[..|prefix|] == prefix
  }

  predicate EndsWith(s: string, suffix: string) {
    |suffix| <= |s| && s[|s| - |suffix|..] == suffix
  }

  /** The characters Python counts as whitespace (`str.isspace()`), which `str.strip()`
      removes from the ends of text: tab to carriage return, the four ASCII separators
      U+001C to U+001F, the space, and the Unicode spaces and line separators. */
  predicate IsSpace(c: char) {
    || '\t' <= c <= '\r'
    || '\U{1C}' <= c <= ' '
    || c == '\U{85}' || c == '\U{A0}' || c == '\U{1680}'
    || '\U{2000}' <= c <= '\U{200A}'
    || c == '\U{2028}' || c == '\U{2029}' || c == '\U{202F}' || c == '\U{205F}' || c == '\U{3000}'
  }

  /** `s` without the leading characters `space` holds for. */
  function TrimLeft(s: string, space: char -> bool): (r: string)
    ensures |r| <= |s| && r == s[|s| - |r|..]
    ensures r == [] || !space(r[0])
  {
    if s != [] && space(s[0]) then TrimLeft(s[1..], space) else s
  }

  /** `s` without the trailing characters `space` holds for. */
  function TrimRight(s: string, space: char -> bool): (r: string)
    ensures |r| <= |s| && r == s[..|r|]
    ensures r == [] || !space(r[|r| - 1])
  {
    if s != [] && space(s[|s| - 1]) then TrimRight(s[..|s| - 1], space) else s
  }

  /** `s` without the characters `space` holds for at either end. */
  function Trim(s: string, space: char -> bool): (r: string)
    ensures r == [] || (!space(r[0]) && !space(r[|r| - 1]))
  {
    TrimLeft(TrimRight(s, space), space)
  }

  /** Trimming text that neither starts nor ends with a `space` character changes
      nothing, and such characters put around it are removed again. */
  lemma TrimPadded(lead: string, s: string, pad: string, space: char -> bool)
    requires s == [] || (!space(s[0]) && !space(s[|s| - 1]))
    requires forall i :: 0 <= i < |lead| ==> space(lead[i])
    requires forall i :: 0 <= i < |pad| ==> space(pad[i])
    ensures Trim(lead + s + pad, space) == s
  {
    if s == [] {
      assert lead + s + pad == lead + pad;
      TrimRightAll(lead + pad, space);
    } else {
      TrimRightPad(lead + s, pad, space);
      TrimLeftPad(lead, s, space);
    }
  }

  lemma {:induction false} TrimRightAll(t: string, space: char -> bool)
    requires forall i :: 0 <= i < |t| ==> space(t[i])
    ensures TrimRight(t, space) == []
  {
    if t != [] {
      TrimRightAll(t[..|t| - 1], space);
    }
  }

  lemma {:induction false} TrimRightPad(s: string, pad: string, space: char -> bool)
    requires s == [] || !space(s[|s| - 1])
    requires forall i :: 0 <= i < |pad| ==> space(pad[i])
    ensures TrimRight(s + pad, space) == s
  {
    if pad == [] {
      assert s + pad == s;
    } else {
      var t := s + pad;
      assert space(t[|t| - 1]);
      assert t[..|t| - 1] == s + pad[..|pad| - 1];
      TrimRightPad(s, pad[..|pad| - 1], space);
    }
  }

  lemma {:induction false} TrimLeftPad(lead: string, s: string, space: char -> bool)
    requires s == [] || !space(s[0])
    requires forall i :: 0 <= i < |lead| ==> space(lead[i])
    ensures TrimLeft(lead + s, space) == s
  {
    if lead == [] {
      assert lead + s == s;
    } else {
      var t := lead + s;
      assert space(t[0]);
      assert t[1..] == lead[1..] + s;
      TrimLeftPad(lead[1..], s, space);
    }
  }

  /** Python's `str.strip()`. */
  function Strip(s: string): (r: string)
    ensures r == [] || (!IsSpace(r[0]) && !IsSpace(r[|r| - 1]))
  {
    Trim(s, IsSpace)
  }

  /** Stripping text that neither starts nor ends with whitespace changes nothing, and
      trailing whitespace appended to it is removed again. */
  lemma StripTrailing(s: string, pad: string)
    requires s == [] || (!IsSpace(s[0]) && !IsSpace(s[|s| - 1]))
    requires forall i :: 0 <= i < |pad| ==> IsSpace(pad[i])
    ensures Strip(s + pad) == s
  {
    TrimPadded([], s, pad, IsSpace);
    assert [] + s + pad == s + pad;
  }

  predicate IsDigit(c: char) {
    '0' <= c <= '9'
  }

  predicate AllDigits(s: string) {
    forall i :: 0 <= i < |s| ==> IsDigit(s[i])
  }

  function DigitValue(c: char): nat
    requires IsDigit(c)
  {
    (c as int - '0' as int) as nat
  }

  function DigitChar(d: nat): (c: char)
    requires d < 10
    ensures IsDigit(c) && DigitValue(c) == d
  {
    ('0' as int + d) as char
  }

  /** Value of a string of decimal digits. */
  function DigitsValue(s: string): nat
    requires AllDigits(s)
  {
    if s == [] then 0 else DigitsValue(s[..|s| - 1]) * 10 + DigitValue(s[|s| - 1])
  }

  /** `str(n)` for a natural number: its decimal digits without leading zeros. */
  function Decimal(n: nat): (s: string)
    ensures s != [] && AllDigits(s)
    ensures n > 0 ==> s[0] != '0'
  {
    if n < 10 then
      assert n > 0 ==> DigitChar(n) != '0' by {
        assert DigitValue('0') == 0;
      }
      [DigitChar(n)]
    else Decimal(n / 10) + [DigitChar(n % 10)]
  }

  /** `str(i)` for any integer. */
  function IntString(i: int): string {
    if i < 0 then "-" + Decimal(-i) else Decimal(i)
  }

  /** Decimal rendering reads back as the same number. */
  lemma {:induction false} DecimalRoundTrip(n: nat)
    ensures DigitsValue(Decimal(n)) == n
  {
    if n >= 10 {
      var s := Decimal(n);
      assert s[..|s| - 1] == Decimal(n / 10);
      DecimalRoundTrip(n / 10);
    }
  }
}

=== FILE: config.dfy ===
/** The build configuration records: the current one shared by every package of an
    invocation, and the older one of the first package layout. */
module Config {
  import opened Common
  import opened Paths

  /** The CMake build types the configuration admits. */
  datatype BuildType = Release | Debug | RelWithDebInfo

  function BuildTypeName(t: BuildType): (s: string)
    ensures s in {"Release", "Debug", "RelWithDebInfo"}
  {
    match t
    case Release => "Release"
    case Debug => "Debug"
    case RelWithDebInfo => "RelWithDebInfo"
  }

  /** Reads a build-type literal back; anything outside the three names is refused. */
  function ParseBuildType(s: string): (r: Option<BuildType>)
    ensures r.Some? <==> s in {"Release", "Debug", "RelWithDebInfo"}
    ensures r.Some? ==> BuildTypeName(r.value) == s
  {
    if s == "Release" then Some(Release)
    else if s == "Debug" then Some(Debug)
    else if s == "RelWithDebInfo" then Some(RelWithDebInfo)
    else None
  }

  /** The name of a build type reads back as that build type, so distinct build types
      have distinct names. */
  lemma BuildTypeRoundTrip(t: BuildType)
    ensures ParseBuildType(BuildTypeName(t)) == Some(t)
  {
  }

  /** Build configuration of an invocation. `jobs` is the text `cmake --build` receives
      after `-j`; the invocation passes either the job count it parsed or the default 1. */
  datatype BuildConfig = BuildConfig(
    patchDir: Path,
    buildPrefix: Path,
    installPrefix: Path,
    cmakeBuildType: BuildType,
    buildFlag: string,
    jobs: string := "1",
    dryRun: bool := false)

  /** `str(config)`: a configuration prints as its build flag, so configurations print
      alike exactly when their build flags agree. */
  function ConfigString(c: BuildConfig): string {
    c.buildFlag
  }

  lemma ConfigStringIsFlag(c: BuildConfig, d: BuildConfig)
    ensures ConfigString(c) == c.buildFlag
    ensures ConfigString(c) == ConfigString(d) <==> c.buildFlag == d.buildFlag
  {
  }

  /** A configuration built without the optional arguments runs one job and really
      executes. */
  lemma ConfigDefaults(patchDir: Path, buildPrefix: Path, installPrefix: Path, t: BuildType, flag: string)
    ensures var c := BuildConfig(patchDir, buildPrefix, installPrefix, t, flag);
            c.jobs == "1" && !c.dryRun && ConfigString(c) == flag
  {
  }

  /** The build types of the older configuration. */
  datatype LegacyBuildType = LegacyRelease | LegacyDebug

  function LegacyBuildTypeName(t: LegacyBuildType): (s: string)
    ensures s in {"Release", "Debug"}
  {
    match t
    case LegacyRelease => "Release"
    case LegacyDebug => "Debug"
  }

  /** The older configuration: same idea, with the platform tag called the config alias. */
  datatype LegacyConfig = LegacyConfig(
    patchDir: Path,
    buildDir: Path,
    installDir: Path,
    cmakeBuildType: LegacyBuildType,
    configAlias: string,
    nProc: int := 1,
    dryRun: bool := false)

  /** `str(config)` of the older record: its config alias. */
  function LegacyConfigString(c: LegacyConfig): string {
    c.configAlias
  }

  lemma LegacyConfigStringIsAlias(c: LegacyConfig, d: LegacyConfig)
    ensures LegacyConfigString(c) == c.configAlias
    ensures LegacyConfigString(c) == LegacyConfigString(d) <==> c.configAlias == d.configAlias
  {
  }

  lemma LegacyConfigDefaults(patchDir: Path, buildDir: Path, installDir: Path, t: LegacyBuildType, alias: string)
    ensures var c := LegacyConfig(patchDir, buildDir, installDir, t, alias);
            c.nProc == 1 && !c.dryRun && LegacyConfigString(c) == alias
  {
  }
}

=== FILE: distribution.dfy ===
/** A distribution: a named set of package versions with the dependencies between them,
    and the order it builds them in — Kahn's algorithm, with the ready queue seeded in
    the order the packages were added and served first in, first out. */
module Distribution {
  import opened Common

  /** A package version, the unit the registry and distributions hold. */
  datatype PackageId = PackageId(name: string, version: string)

  /** A distribution's members in the order they were added, and the dependency names
      recorded for each member, keyed by member name. */
  datatype Dist = Dist(name: string, members: seq<PackageId>, deps: map<string, seq<string>>)

  function MemberNames(members: seq<PackageId>): (r: seq<string>)
    ensures |r| == |members| && forall i :: 0 <= i < |members| ==> r[i] == members[i].name
  {
    if members == [] then [] else [members[0].name] + MemberNames(members[1..])
  }

  /** What adding packages one at a time guarantees: member names are distinct and the
      dependency table has exactly the members as keys. */
  ghost predicate Valid(d: Dist) {
    && Distinct(MemberNames(d.members))
    && forall n :: n in d.deps <==> n in MemberNames(d.members)
  }

  /** A newly created distribution: no members, no dependencies. */
  function EmptyDist(name: string): (d: Dist)
    ensures Valid(d) && d.members == [] && d.name == name
  {
    Dist(name, [], map[])
  }

  /** The dependency names recorded for `n`; none for a name that is not a member. */
  function DepsOf(deps: map<string, seq<string>>, n: string): seq<string> {
    if n in deps then deps[n] else []
  }

  /** `add_package`: a second member with the same name is refused; otherwise the package
      is appended and its dependency list (empty when none is given) recorded. */
  function AddPackage(d: Dist, p: PackageId, deps: Option<seq<string>>): (r: Result<Dist>)
    ensures r.Err? <==> p.name in MemberNames(d.members)
    ensures r.Err? ==> r.error == DuplicateMember(p.name)
    ensures r.Ok? ==> r.value.name == d.name && MemberNames(r.value.members) == MemberNames(d.members) + [p.name]
  {
    if p.name in MemberNames(d.members) then Err(DuplicateMember(p.name))
    else
      var r := Dist(d.name, d.members + [p], d.deps[p.name := deps.GetOr([])]);
      assert MemberNames(r.members) == MemberNames(d.members) + [p.name];
      Ok(r)
  }

  /** Adding keeps the distribution well formed and appends the new member. */
  lemma AddPackageValid(d: Dist, p: PackageId, deps: Option<seq<string>>)
    requires Valid(d) && AddPackage(d, p, deps).Ok?
    ensures var e := AddPackage(d, p, deps).value;
            Valid(e) && e.members == d.members + [p]
  {
    DistinctAppend(MemberNames(d.members), p.name);
  }

  /** Adding keeps the distribution well formed, records the new member's dependencies
      (none when not given) and leaves every other member's dependencies alone. */
  lemma AddPackageKeeps(d: Dist, p: PackageId, deps: Option<seq<string>>)
    requires Valid(d) && AddPackage(d, p, deps).Ok?
    ensures var e := AddPackage(d, p, deps).value;
            && Valid(e)
            && e.members == d.members + [p]
            && DepsOf(e.deps, p.name) == deps.GetOr([])
            && forall n :: n != p.name ==> DepsOf(e.deps, n) == DepsOf(d.deps, n)
  {
    AddPackageValid(d, p, deps);
  }

  // ---------------------------------------------------------------------------
  // Kahn's algorithm, as the distribution runs it.

  /** Remaining in-degrees; a name without an entry has in-degree 0. */
  type Degrees = map<string, int>

  function Deg(indeg: Degrees, n: string): int {
    if n in indeg then indeg[n] else 0
  }

  function Repeat(x: string, k: nat): (r: seq<string>)
    ensures |r| == k && forall i :: 0 <= i < k ==> r[i] == x
  {
    if k == 0 then [] else [x] + Repeat(x, k - 1)
  }

  /** The members that name `d` as a dependency, in member order, one entry per time
      they name it: the adjacency list built from the dependency table. */
  function Succs(names: seq<string>, deps: map<string, seq<string>>, d: string): seq<string> {
    if names == [] then [] else Repeat(names[0], Count(DepsOf(deps, names[0]), d)) + Succs(names[1..], deps, d)
  }

  /** Each member's in-degree is the length of its dependency list. */
  function InitialDegrees(names: seq<string>, deps: map<string, seq<string>>): Degrees {
    map n | n in names :: |DepsOf(deps, n)|
  }

  /** The members with no dependencies, in member order. */
  function InitialQueue(names: seq<string>, deps: map<string, seq<string>>): seq<string> {
    Filter(names, (n: string) => |DepsOf(deps, n)| == 0)
  }

  /** Decrements the in-degree of each successor in turn and collects, in order, the
      successors whose in-degree reaches zero. */
  function Relax(indeg: Degrees, succ: seq<string>): (Degrees, seq<string>)
    decreases |succ|
  {
    if succ == [] then (indeg, [])
    else
      var nb := succ[0];
      var left := Deg(indeg, nb) - 1;
      var rest := Relax(indeg[nb := left], succ[1..]);
      (rest.0, (if left == 0 then [nb] else []) + rest.1)
  }

  /** How many entries of a dependency list are not yet emitted. */
  function Pending(ds: seq<string>, out: seq<string>): nat {
    if ds == [] then 0 else (if ds[0] in out then 0 else 1) + Pending(ds[1..], out)
  }

  /** Each dependency of `o[i]` comes before it in `o`. */
  predicate DepsBefore(deps: map<string, seq<string>>, o: seq<string>, i: nat)
    requires i < |o|
  {
    forall d :: d in DepsOf(deps, o[i]) ==> d in o[..i]
  }

  /** Each member's in-degree counts its dependencies not yet emitted. */
  predicate DegreesPending(names: seq<string>, deps: map<string, seq<string>>, indeg: Degrees, out: seq<string>) {
    forall x :: x in names ==> Deg(indeg, x) == Pending(DepsOf(deps, x), out)
  }

  /** Emitted and queued names are distinct members. */
  predicate Unseen(names: seq<string>, queue: seq<string>, out: seq<string>) {
    Distinct(out + queue) && forall x :: x in out + queue ==> x in names
  }

  /** Queued and emitted names wait for nothing. */
  predicate NothingPending(deps: map<string, seq<string>>, s: seq<string>, out: seq<string>) {
    forall x :: x in s ==> Pending(DepsOf(deps, x), out) == 0
  }

  /** A member that waits for nothing has been emitted or queued. */
  predicate ReadyTaken(names: seq<string>, deps: map<string, seq<string>>, queue: seq<string>, out: seq<string>) {
    forall x :: x in names && Pending(DepsOf(deps, x), out) == 0 ==> x in out + queue
  }

  /** Each emitted name comes after its dependencies. */
  predicate Ordered(deps: map<string, seq<string>>, out: seq<string>) {
    forall i :: 0 <= i < |out| ==> DepsBefore(deps, out, i)
  }

  /** What holds of the algorithm's state between two rounds. */
  predicate Inv(names: seq<string>, deps: map<string, seq<string>>, indeg: Degrees, queue: seq<string>, out: seq<string>) {
    && DegreesPending(names, deps, indeg, out)
    && Unseen(names, queue, out)
    && NothingPending(deps, queue, out)
    && NothingPending(deps, out, out)
    && ReadyTaken(names, deps, queue, out)
    && Ordered(deps, out)
  }

  /** The main loop: emit the head of the queue, relax its successors and queue those
      that became ready, until the queue is empty. Returns everything emitted. */
  function Process(names: seq<string>, deps: map<string, seq<string>>, indeg: Degrees,
                   queue: seq<string>, out: seq<string>): seq<string>
    requires Distinct(names) && Inv(names, deps, indeg, queue, out)
    decreases |names| - |out|
  {
    if queue == [] then out
    else
      var relaxed := Relax(indeg, Succs(names, deps, queue[0]));
      InvStep(names, deps, indeg, queue, out);
      DistinctSubsetLength(out + queue, names);
      Process(names, deps, relaxed.0, queue[1..] + relaxed.1, out + [queue[0]])
  }

  /** `sorted_packages` on names: run the loop from the initial degrees and queue, and
      report a cycle when fewer names come out than went in. */
  function SortedNames(names: seq<string>, deps: map<string, seq<string>>): (r: Result<seq<string>>)
    requires Distinct(names)
    ensures r.Ok? ==> IsTopoOrder(names, deps, r.value)
    ensures r.Err? ==> r.error == Cycle && forall o :: !IsTopoOrder(names, deps, o)
    ensures r.Ok? ==> r.value[..|InitialQueue(names, deps)|] == InitialQueue(names, deps)
  {
    InitialInv(names, deps);
    var out := Process(names, deps, InitialDegrees(names, deps), InitialQueue(names, deps), []);
    ProcessFacts(names, deps, InitialDegrees(names, deps), InitialQueue(names, deps), []);
    ProcessPrefix(names, deps, InitialDegrees(names, deps), InitialQueue(names, deps), []);
    assert out + [] == out;
    assert [] + InitialQueue(names, deps) == InitialQueue(names, deps);
    if |out| != |names| then
      StuckMeansNoOrder(names, deps, out);
      Err(Cycle)
    else
      DistinctSubsetCovers(out, names);
      Ok(out)
  }

  /** An order of `names` in which every dependency precedes its dependents: each member
      exactly once, nothing else, and each one after all its dependencies. */
  ghost predicate IsTopoOrder(names: seq<string>, deps: map<string, seq<string>>, o: seq<string>) {
    && Distinct(o)
    && |o| == |names|
    && (forall x :: x in o <==> x in names)
    && (forall i :: 0 <= i < |o| ==> DepsBefore(deps, o, i))
  }

  /** `sorted_packages`: the members in that order. */
  function SortedPackages(d: Dist): (r: Result<seq<PackageId>>)
    requires Valid(d)
    ensures r.Ok? ==> IsTopoOrder(MemberNames(d.members), d.deps, MemberNames(r.value))
    ensures r.Ok? ==> multiset(r.value) == multiset(d.members)
    ensures r.Err? ==> r.error == Cycle && forall o :: !IsTopoOrder(MemberNames(d.members), d.deps, o)
  {
    var names := MemberNames(d.members);
    match SortedNames(names, d.deps)
    case Err(e) => Err(e)
    case Ok(order) =>
      var pkgs := seq(|order|, i requires 0 <= i < |order| => MemberOf(d.members, order[i]));
      PackagesPermute(d.members, order, pkgs);
      Ok(pkgs)
  }

  /** The member called `n`. */
  function MemberOf(members: seq<PackageId>, n: string): (p: PackageId)
    requires n in MemberNames(members)
    ensures p in members && p.name == n
  {
    if members[0].name == n then members[0] else MemberOf(members[1..], n)
  }

  // ---------------------------------------------------------------------------
  // Lemmas about the algorithm.

  lemma PendingAppend(ds: seq<string>, out: seq<string>, c: string)
    requires c !in out
    ensures Pending(ds, out + [c]) + Count(ds, c) == Pending(ds, out)
  {
    if ds != [] {
      PendingAppend(ds[1..], out, c);
    }
  }

  lemma PendingZero(ds: seq<string>, out: seq<string>)
    ensures Pending(ds, out) == 0 <==> forall d :: d in ds ==> d in out
  {
    if ds != [] {
      PendingZero(ds[1..], out);
      assert forall d :: d in ds <==> d == ds[0] || d in ds[1..];
    }
  }

  lemma CountRepeat(y: string, k: nat, x: string)
    ensures Count(Repeat(y, k), x) == if x == y then k else 0
  {
    if k > 0 {
      CountRepeat(y, k - 1, x);
      assert Repeat(y, k)[1..] == Repeat(y, k - 1);
    }
  }

  /** Member `x` occurs in the successors of `d` once per time it names `d`. */
  lemma {:induction false} SuccsCount(names: seq<string>, deps: map<string, seq<string>>, d: string, x: string)
    requires Distinct(names)
    ensures Count(Succs(names, deps, d), x) == if x in names then Count(DepsOf(deps, x), d) else 0
  {
    if names != [] {
      var head := Repeat(names[0], Count(DepsOf(deps, names[0]), d));
      CountAppend(head, Succs(names[1..], deps, d), x);
      CountRepeat(names[0], Count(DepsOf(deps, names[0]), d), x);
      assert Distinct(names[1..]);
      SuccsCount(names[1..], deps, d, x);
      assert x in names <==> x == names[0] || x in names[1..];
      if x == names[0] {
        assert x !in names[1..];
      }
    }
  }

  lemma {:induction false} SuccsMembers(names: seq<string>, deps: map<string, seq<string>>, d: string)
    ensures forall x :: x in Succs(names, deps, d) ==> x in names
  {
    if names != [] {
      SuccsMembers(names[1..], deps, d);
      forall x | x in Succs(names, deps, d) ensures x in names {
        var head := Repeat(names[0], Count(DepsOf(deps, names[0]), d));
        if x in head {
          var i :| 0 <= i < |head| && head[i] == x;
        } else {
          assert x in Succs(names[1..], deps, d);
        }
      }
    }
  }

  /** Relaxing lowers each in-degree by the number of times the name is a successor, and
      collects exactly once each name whose in-degree went from positive to at most zero. */
  lemma {:induction false} RelaxFacts(indeg: Degrees, succ: seq<string>)
    decreases |succ|
    ensures forall x :: Deg(Relax(indeg, succ).0, x) == Deg(indeg, x) - Count(succ, x)
    ensures forall x :: Count(Relax(indeg, succ).1, x) == if 1 <= Deg(indeg, x) <= Count(succ, x) then 1 else 0
  {
    if succ != [] {
      var nb := succ[0];
      var left := Deg(indeg, nb) - 1;
      var indeg1 := indeg[nb := left];
      RelaxFacts(indeg1, succ[1..]);
      var rest := Relax(indeg1, succ[1..]);
      var added := (if left == 0 then [nb] else []) + rest.1;
      forall x
        ensures Count(added, x) == if 1 <= Deg(indeg, x) <= Count(succ, x) then 1 else 0
      {
        CountAppend(if left == 0 then [nb] else [], rest.1, x);
      }
    }
  }

  lemma CountsAtMostOne(s: seq<string>)
    requires forall x :: Count(s, x) <= 1
    ensures Distinct(s)
  {
    if s != [] {
      assert Count(s, s[0]) == 1 + Count(s[1..], s[0]);
      CountZero(s[1..], s[0]);
      assert forall x :: Count(s[1..], x) <= Count(s, x);
      CountsAtMostOne(s[1..]);
      forall i, j | 0 <= i < j < |s| ensures s[i] != s[j] {
        if i > 0 {
          assert s[i] == s[1..][i - 1] && s[j] == s[1..][j - 1];
        } else {
          assert s[j] in s[1..];
        }
      }
    }
  }

  lemma DistinctConcat(a: seq<string>, b: seq<string>)
    requires Distinct(a) && Distinct(b)
    requires forall x :: x in b ==> x !in a
    ensures Distinct(a + b)
  {
    forall i, j | 0 <= i < j < |a + b| ensures (a + b)[i] != (a + b)[j] {
      if i >= |a| {
        assert (a + b)[i] == b[i - |a|] && (a + b)[j] == b[j - |a|];
      } else if j >= |a| {
        assert (a + b)[j] in b;
      }
    }
  }

  lemma SubsetCard(a: set<string>, b: set<string>)
    requires a <= b
    ensures |a| <= |b|
  {
    assert b == a + (b - a);
  }

  /** A distinct sequence drawn from a distinct list is no longer than it, and as long
      only when it uses every element. */
  lemma DistinctSubsetLength(s: seq<string>, names: seq<string>)
    requires Distinct(s) && Distinct(names)
    requires forall x :: x in s ==> x in names
    ensures |s| <= |names|
  {
    DistinctCard(s);
    DistinctCard(names);
    SubsetCard(set x | x in s, set x | x in names);
  }

  lemma DistinctSubsetCovers(s: seq<string>, names: seq<string>)
    requires Distinct(s) && Distinct(names)
    requires forall x :: x in s ==> x in names
    requires |s| == |names|
    ensures forall x :: x in names ==> x in s
  {
    DistinctCard(s);
    DistinctCard(names);
    var a := set x | x in s;
    var b := set x | x in names;
    assert b == a + (b - a);
    assert b - a == {} by {
      assert |b - a| == 0;
    }
    forall x | x in names ensures x in s {
      assert x in b;
    }
  }

  /** The initial degrees and queue satisfy the loop invariant. */
  lemma InitialInv(names: seq<string>, deps: map<string, seq<string>>)
    requires Distinct(names)
    ensures Inv(names, deps, InitialDegrees(names, deps), InitialQueue(names, deps), [])
  {
    var q := InitialQueue(names, deps);
    forall ds: seq<string> ensures Pending(ds, []) == |ds| {
      PendingNone(ds);
    }
    assert [] + q == q;
    FilterDistinct(names, (n: string) => |DepsOf(deps, n)| == 0);
  }

  lemma PendingNone(ds: seq<string>)
    ensures Pending(ds, []) == |ds|
  {
    if ds != [] {
      PendingNone(ds[1..]);
    }
  }

  lemma FilterDistinct(s: seq<string>, keep: string -> bool)
    requires Distinct(s)
    ensures Distinct(Filter(s, keep))
  {
    if s != [] {
      assert Distinct(s[1..]);
      FilterDistinct(s[1..], keep);
      var rest := Filter(s[1..], keep);
      if keep(s[0]) {
        assert s[0] !in s[1..];
        DistinctConcat([s[0]], rest);
      }
    }
  }

  /** What one round changes: the emitted name was not emitted before, each member waits
      for as many fewer dependencies as it has on that name, and the newly ready names are
      members that were waiting and are collected once each. */
  lemma StepBasics(names: seq<string>, deps: map<string, seq<string>>, indeg: Degrees, queue: seq<string>, out: seq<string>)
    requires Distinct(names) && Inv(names, deps, indeg, queue, out) && queue != []
    ensures queue[0] !in out
    ensures forall x :: x in names ==>
              Pending(DepsOf(deps, x), out + [queue[0]]) + Count(Succs(names, deps, queue[0]), x) == Pending(DepsOf(deps, x), out)
    ensures forall x :: Deg(Relax(indeg, Succs(names, deps, queue[0])).0, x) == Deg(indeg, x) - Count(Succs(names, deps, queue[0]), x)
    ensures forall x :: Count(Relax(indeg, Succs(names, deps, queue[0])).1, x) ==
              if 1 <= Deg(indeg, x) <= Count(Succs(names, deps, queue[0]), x) then 1 else 0
    ensures forall x :: x in Relax(indeg, Succs(names, deps, queue[0])).1 ==> x in names && Pending(DepsOf(deps, x), out) >= 1
  {
    var cur := queue[0];
    var succ := Succs(names, deps, cur);
    var added := Relax(indeg, succ).1;
    assert cur !in out by {
      assert (out + queue)[|out|] == cur;
      forall i | 0 <= i < |out| ensures out[i] != cur {
        assert (out + queue)[i] == out[i];
      }
    }
    RelaxFacts(indeg, succ);
    SuccsMembers(names, deps, cur);
    forall x | x in names
      ensures Pending(DepsOf(deps, x), out + [cur]) + Count(succ, x) == Pending(DepsOf(deps, x), out)
    {
      PendingAppend(DepsOf(deps, x), out, cur);
      SuccsCount(names, deps, cur, x);
    }
    forall x | x in added ensures x in names && Pending(DepsOf(deps, x), out) >= 1 {
      CountZero(added, x);
      CountZero(succ, x);
    }
  }

  lemma StepDegrees(names: seq<string>, deps: map<string, seq<string>>, indeg: Degrees, queue: seq<string>, out: seq<string>)
    requires Distinct(names) && Inv(names, deps, indeg, queue, out) && queue != []
    ensures DegreesPending(names, deps, Relax(indeg, Succs(names, deps, queue[0])).0, out + [queue[0]])
  {
    StepBasics(names, deps, indeg, queue, out);
  }

  lemma StepUnseen(names: seq<string>, deps: map<string, seq<string>>, indeg: Degrees, queue: seq<string>, out: seq<string>)
    requires Distinct(names) && Inv(names, deps, indeg, queue, out) && queue != []
    ensures Unseen(names, queue[1..] + Relax(indeg, Succs(names, deps, queue[0])).1, out + [queue[0]])
  {
    var added := Relax(indeg, Succs(names, deps, queue[0])).1;
    StepBasics(names, deps, indeg, queue, out);
    ShiftHead(out, queue, added);
    CountsAtMostOne(added);
    DistinctConcat(out + queue, added);
  }

  lemma StepQueueReady(names: seq<string>, deps: map<string, seq<string>>, indeg: Degrees, queue: seq<string>, out: seq<string>)
    requires Distinct(names) && Inv(names, deps, indeg, queue, out) && queue != []
    ensures NothingPending(deps, queue[1..] + Relax(indeg, Succs(names, deps, queue[0])).1, out + [queue[0]])
  {
    var added := Relax(indeg, Succs(names, deps, queue[0])).1;
    StepBasics(names, deps, indeg, queue, out);
    forall x | x in queue[1..] + added ensures Pending(DepsOf(deps, x), out + [queue[0]]) == 0 {
      if x in added {
        CountZero(added, x);
      } else {
        assert x in queue;
      }
    }
  }

  lemma StepOutDone(names: seq<string>, deps: map<string, seq<string>>, indeg: Degrees, queue: seq<string>, out: seq<string>)
    requires Distinct(names) && Inv(names, deps, indeg, queue, out) && queue != []
    ensures NothingPending(deps, out + [queue[0]], out + [queue[0]])
  {
    StepBasics(names, deps, indeg, queue, out);
    forall x | x in out + [queue[0]] ensures Pending(DepsOf(deps, x), out + [queue[0]]) == 0 {
      assert x in out || x in queue;
    }
  }

  /** The head of the queue has not been emitted yet. */
  lemma HeadUnseen(names: seq<string>, queue: seq<string>, out: seq<string>)
    requires Unseen(names, queue, out) && queue != []
    ensures queue[0] !in out
  {
    assert (out + queue)[|out|] == queue[0];
    forall i | 0 <= i < |out| ensures out[i] != queue[0] {
      assert (out + queue)[i] == out[i];
    }
  }

  /** Emitting `c` lowers the pending count of member `x` by the times `x` names `c`, and
      relaxing queues `x` once exactly when that brings its in-degree from positive to
      at most zero. */
  lemma EmitAt(names: seq<string>, deps: map<string, seq<string>>, indeg: Degrees, c: string, out: seq<string>, x: string)
    requires Distinct(names) && c !in out && x in names
    ensures Pending(DepsOf(deps, x), out + [c]) + Count(Succs(names, deps, c), x) == Pending(DepsOf(deps, x), out)
    ensures Count(Relax(indeg, Succs(names, deps, c)).1, x) ==
              if 1 <= Deg(indeg, x) <= Count(Succs(names, deps, c), x) then 1 else 0
  {
    PendingAppend(DepsOf(deps, x), out, c);
    SuccsCount(names, deps, c, x);
    RelaxFacts(indeg, Succs(names, deps, c));
  }

  lemma StepReadyTaken(names: seq<string>, deps: map<string, seq<string>>, indeg: Degrees, queue: seq<string>, out: seq<string>)
    requires Distinct(names) && queue != []
    requires DegreesPending(names, deps, indeg, out) && Unseen(names, queue, out) && ReadyTaken(names, deps, queue, out)
    ensures ReadyTaken(names, deps, queue[1..] + Relax(indeg, Succs(names, deps, queue[0])).1, out + [queue[0]])
  {
    var c := queue[0];
    var added := Relax(indeg, Succs(names, deps, c)).1;
    HeadUnseen(names, queue, out);
    assert out + queue == (out + [c]) + queue[1..];
    forall x | x in names && Pending(DepsOf(deps, x), out + [c]) == 0
      ensures x in (out + [c]) + (queue[1..] + added)
    {
      if Pending(DepsOf(deps, x), out) != 0 {
        EmitAt(names, deps, indeg, c, out, x);
        assert Deg(indeg, x) == Pending(DepsOf(deps, x), out);
        CountZero(added, x);
      }
    }
  }

  lemma StepOrdered(names: seq<string>, deps: map<string, seq<string>>, indeg: Degrees, queue: seq<string>, out: seq<string>)
    requires Distinct(names) && Inv(names, deps, indeg, queue, out) && queue != []
    ensures Ordered(deps, out + [queue[0]])
  {
    var out' := out + [queue[0]];
    forall i | 0 <= i < |out'| ensures DepsBefore(deps, out', i) {
      if i < |out| {
        assert DepsBefore(deps, out, i);
        assert out'[..i] == out[..i];
      } else {
        PendingZero(DepsOf(deps, queue[0]), out);
        assert out'[..i] == out;
      }
    }
  }

  /** One round preserves the invariant. */
  lemma InvStep(names: seq<string>, deps: map<string, seq<string>>, indeg: Degrees, queue: seq<string>, out: seq<string>)
    requires Distinct(names) && Inv(names, deps, indeg, queue, out) && queue != []
    ensures var relaxed := Relax(indeg, Succs(names, deps, queue[0]));
            Inv(names, deps, relaxed.0, queue[1..] + relaxed.1, out + [queue[0]])
  {
    StepDegrees(names, deps, indeg, queue, out);
    StepUnseen(names, deps, indeg, queue, out);
    StepQueueReady(names, deps, indeg, queue, out);
    StepOutDone(names, deps, indeg, queue, out);
    StepReadyTaken(names, deps, indeg, queue, out);
    StepOrdered(names, deps, indeg, queue, out);
  }

  /** What the loop ends with: distinct members in dependency order, and every member left
      out still waiting for a dependency that never came out. */
  lemma {:induction false} ProcessFacts(names: seq<string>, deps: map<string, seq<string>>, indeg: Degrees,
                                        queue: seq<string>, out: seq<string>)
    requires Distinct(names) && Inv(names, deps, indeg, queue, out)
    ensures var f := Process(names, deps, indeg, queue, out);
            && Unseen(names, [], f) && Ordered(deps, f)
            && (forall x :: x in names && x !in f ==> Pending(DepsOf(deps, x), f) > 0)
    decreases |names| - |out|
  {
    if queue == [] {
      assert out + queue == out;
    } else {
      var relaxed := Relax(indeg, Succs(names, deps, queue[0]));
      InvStep(names, deps, indeg, queue, out);
      DistinctSubsetLength(out + queue, names);
      ProcessFacts(names, deps, relaxed.0, queue[1..] + relaxed.1, out + [queue[0]]);
    }
  }

  /** The loop's result starts with what was emitted and queued when it began. */
  lemma {:induction false} ProcessPrefix(names: seq<string>, deps: map<string, seq<string>>, indeg: Degrees,
                                         queue: seq<string>, out: seq<string>)
    requires Distinct(names) && Inv(names, deps, indeg, queue, out)
    ensures var f := Process(names, deps, indeg, queue, out);
            |f| >= |out| + |queue| && f[..|out| + |queue|] == out + queue
    decreases |names| - |out|
  {
    if queue == [] {
      assert out + queue == out;
    } else {
      var relaxed := Relax(indeg, Succs(names, deps, queue[0]));
      InvStep(names, deps, indeg, queue, out);
      DistinctSubsetLength(out + queue, names);
      var out', queue' := out + [queue[0]], queue[1..] + relaxed.1;
      ProcessPrefix(names, deps, relaxed.0, queue', out');
      assert Process(names, deps, indeg, queue, out) == Process(names, deps, relaxed.0, queue', out');
      ShiftHead(out, queue, relaxed.1);
      PrefixOfPrefix(Process(names, deps, relaxed.0, queue', out'), out + queue, relaxed.1);
    }
  }

  /** Emitting the queue's head keeps emitted-then-queued names in the same order. */
  lemma ShiftHead(out: seq<string>, queue: seq<string>, added: seq<string>)
    requires queue != []
    ensures (out + [queue[0]]) + (queue[1..] + added) == (out + queue) + added
  {
    assert queue == [queue[0]] + queue[1..];
  }

  lemma PrefixOfPrefix(f: seq<string>, a: seq<string>, b: seq<string>)
    requires |f| >= |a + b| && f[..|a + b|] == a + b
    ensures |f| >= |a| && f[..|a|] == a
  {
    assert f[..|a|] == f[..|a + b|][..|a|];
  }

  /** Every member of a dependency order is emitted when each member left out still waits
      for something not emitted: by induction along the order, each member's dependencies
      come earlier and so are emitted already. */
  lemma {:induction false} EmittedPrefix(names: seq<string>, deps: map<string, seq<string>>, f: seq<string>, o: seq<string>, k: nat)
    requires IsTopoOrder(names, deps, o) && k <= |o|
    requires forall x :: x in names && x !in f ==> Pending(DepsOf(deps, x), f) > 0
    ensures forall j :: 0 <= j < k ==> o[j] in f
  {
    if k > 0 {
      EmittedPrefix(names, deps, f, o, k - 1);
      var x := o[k - 1];
      assert DepsBefore(deps, o, k - 1);
      forall d | d in DepsOf(deps, x) ensures d in f {
        var j :| 0 <= j < k - 1 && o[..k - 1][j] == d;
        assert o[j] == d;
      }
      PendingZero(DepsOf(deps, x), f);
      assert x in names;
    }
  }

  /** When the loop stops short, no dependency order exists. */
  lemma StuckMeansNoOrder(names: seq<string>, deps: map<string, seq<string>>, f: seq<string>)
    requires Distinct(names) && Unseen(names, [], f)
    requires forall x :: x in names && x !in f ==> Pending(DepsOf(deps, x), f) > 0
    requires |f| != |names|
    ensures forall o :: !IsTopoOrder(names, deps, o)
  {
    assert f + [] == f;
    forall o | IsTopoOrder(names, deps, o) ensures false {
      EmittedPrefix(names, deps, f, o, |o|);
      forall x | x in names ensures x in f {
        var i :| 0 <= i < |o| && o[i] == x;
      }
      DistinctSubsetLength(names, f);
      DistinctSubsetLength(f, names);
    }
  }

  /** With distinct names, the member called after a member's name is that member. */
  lemma {:induction false} MemberOfUnique(members: seq<PackageId>, p: PackageId)
    requires Distinct(MemberNames(members)) && p in members
    ensures MemberOf(members, p.name) == p
  {
    if members[0] != p {
      var names := MemberNames(members);
      assert members[0].name != p.name by {
        var i :| 0 <= i < |members| && members[i] == p;
        assert names[i] == p.name && names[0] == members[0].name;
      }
      assert MemberNames(members[1..]) == names[1..];
      assert p in members[1..];
      MemberOfUnique(members[1..], p);
    }
  }

  lemma PackagesPermute(members: seq<PackageId>, order: seq<string>, pkgs: seq<PackageId>)
    requires Distinct(MemberNames(members)) && Distinct(order)
    requires forall x :: x in order <==> x in MemberNames(members)
    requires |pkgs| == |order| && forall i :: 0 <= i < |order| ==> pkgs[i] == MemberOf(members, order[i])
    ensures MemberNames(pkgs) == order
    ensures multiset(pkgs) == multiset(members)
  {
    var names := MemberNames(members);
    assert Distinct(pkgs) by {
      forall i, j | 0 <= i < j < |pkgs| ensures pkgs[i] != pkgs[j] {
        assert pkgs[i].name == order[i] && pkgs[j].name == order[j];
      }
    }
    assert Distinct(members) by {
      forall i, j | 0 <= i < j < |members| ensures members[i] != members[j] {
        assert names[i] == members[i].name && names[j] == members[j].name;
      }
    }
    forall p | p in members ensures p in pkgs {
      var i :| 0 <= i < |members| && members[i] == p;
      assert names[i] == p.name;
      assert p.name in order;
      var j :| 0 <= j < |order| && order[j] == p.name;
      MemberOfUnique(members, p);
      assert pkgs[j] == p;
    }
    DistinctSameSetPermutes(pkgs, members);
  }

  // ---------------------------------------------------------------------------
  // Consequences.

  /** In a dependency order no member depends on itself. */
  lemma TopoOrderIrreflexive(names: seq<string>, deps: map<string, seq<string>>, o: seq<string>)
    requires IsTopoOrder(names, deps, o)
    ensures forall x :: x in names ==> x !in DepsOf(deps, x)
  {
    forall x | x in names ensures x !in DepsOf(deps, x) {
      var i :| 0 <= i < |o| && o[i] == x;
      assert DepsBefore(deps, o, i);
      assert x !in o[..i] by {
        forall j | 0 <= j < i ensures o[..i][j] != x {
          assert o[..i][j] == o[j];
        }
      }
    }
  }

  /** A member that depends on itself makes sorting fail. */
  lemma SelfDependencyFails(names: seq<string>, deps: map<string, seq<string>>, x: string)
    requires Distinct(names) && x in names && x in DepsOf(deps, x)
    ensures SortedNames(names, deps) == Err(Cycle)
  {
    var r := SortedNames(names, deps);
    if r.Ok? {
      TopoOrderIrreflexive(names, deps, r.value);
    }
  }

  /** With two packages where the first depends on the second, the second comes first
      in every build order. */
  lemma TwoNamesOnlyOrder(x: string, y: string, deps: map<string, seq<string>>, o: seq<string>)
    requires x != y && y in DepsOf(deps, x) && IsTopoOrder([x, y], deps, o)
    ensures o == [y, x]
  {
    assert o[0] != x by {
      assert DepsBefore(deps, o, 0);
      assert o[..0] == [];
    }
    assert o[0] in [x, y] && o[1] in [x, y] && o[1] != o[0];
  }

  /** With two packages where the first depends on the second, and the second on nothing,
      the second is built first. */
  lemma TwoNamesOrder(x: string, y: string, deps: map<string, seq<string>>)
    requires x != y && DepsOf(deps, x) == [y] && DepsOf(deps, y) == []
    ensures SortedNames([x, y], deps) == Ok([y, x])
  {
    var good := [y, x];
    assert DepsBefore(deps, good, 0);
    assert DepsBefore(deps, good, 1) by {
      assert good[..1] == [y];
    }
    assert IsTopoOrder([x, y], deps, good);
    TwoNamesOnlyOrder(x, y, deps, SortedNames([x, y], deps).value);
  }

  /** The releaseB distribution: fmt is added first but depends on Catch2, so Catch2 is
      built first. */
  lemma ReleaseBOrder()
    ensures SortedNames(["fmt", "Catch2"], map["fmt" := ["Catch2"], "Catch2" := []]) == Ok(["Catch2", "fmt"])
  {
    TwoNamesOrder("fmt", "Catch2", map["fmt" := ["Catch2"], "Catch2" := []]);
  }

}

=== FILE: executor.dfy ===
/** The executor: the registry of known package versions and distributions, registering a
    distribution against it, and making a distribution — building its packages in
    dependency order, each seeing the setup commands of those built before it, and then
    writing one setup script per shell. */
module Executor {
  import opened Common
  import opened Paths
  import opened Selection
  import opened Steps
  import opened Config
  import opened Distribution
  import opened Package
  import opened Commands

  /** Known package versions, by name and then version, and registered distributions by
      name. */
  datatype Registry = Registry(packages: map<string, map<string, Recipe>>, dists: map<string, Dist>)

  const EmptyRegistry: Registry := Registry(map[], map[])

  function FindRecipe(reg: Registry, name: string, version: string): Option<Recipe> {
    if name in reg.packages && version in reg.packages[name] then Some(reg.packages[name][version]) else None
  }

  /** What every reachable registry satisfies: each recipe is filed under its own name and
      version, and each distribution is well formed, filed under its own name, and made of
      registered package versions. */
  ghost predicate RegistryValid(reg: Registry) {
    && (forall n, v :: FindRecipe(reg, n, v).Some? ==> FindRecipe(reg, n, v).value.name == n && FindRecipe(reg, n, v).value.version == v)
    && (forall d :: d in reg.dists ==> Valid(reg.dists[d]) && reg.dists[d].name == d)
    && (forall d, m :: d in reg.dists && m in reg.dists[d].members ==> FindRecipe(reg, m.name, m.version).Some?)
  }

  lemma EmptyRegistryValid()
    ensures RegistryValid(EmptyRegistry)
  {
  }

  /** `add_package`: a version already known is refused; otherwise it becomes known and
      nothing else changes. */
  function AddToRegistry(reg: Registry, p: Recipe): (r: Result<Registry>)
    ensures r.Err? <==> FindRecipe(reg, p.name, p.version).Some?
    ensures r.Err? ==> r.error == DuplicatePackage(p.name, p.version)
    ensures r.Ok? ==> FindRecipe(r.value, p.name, p.version) == Some(p)
    ensures r.Ok? ==> forall n, v :: (n, v) != (p.name, p.version) ==> FindRecipe(r.value, n, v) == FindRecipe(reg, n, v)
    ensures r.Ok? ==> r.value.dists == reg.dists
  {
    var versions := if p.name in reg.packages then reg.packages[p.name] else map[];
    if p.version in versions then Err(DuplicatePackage(p.name, p.version))
    else Ok(reg.(packages := reg.packages[p.name := versions[p.version := p]]))
  }

  lemma AddToRegistryValid(reg: Registry, p: Recipe)
    requires RegistryValid(reg) && AddToRegistry(reg, p).Ok?
    ensures RegistryValid(AddToRegistry(reg, p).value)
  {
    var r := AddToRegistry(reg, p).value;
    forall d, m | d in r.dists && m in r.dists[d].members ensures FindRecipe(r, m.name, m.version).Some? {
      if (m.name, m.version) != (p.name, p.version) {
        assert FindRecipe(reg, m.name, m.version).Some?;
      }
    }
  }

  /** The walk over the package classes: each version found is added in turn to the
      table built so far, and a version found twice is an error. */
  function AddFound(reg: Registry, found: seq<Recipe>): (r: Result<Registry>)
    ensures r.Ok? ==> forall i :: 0 <= i < |found| ==> FindRecipe(r.value, found[i].name, found[i].version) == Some(found[i])
    ensures r.Ok? ==> forall n, v :: FindRecipe(reg, n, v).Some? ==> FindRecipe(r.value, n, v) == FindRecipe(reg, n, v)
    ensures r.Ok? ==> forall n, v :: FindRecipe(r.value, n, v).Some? && FindRecipe(reg, n, v).None? ==>
                        exists i :: 0 <= i < |found| && found[i].name == n && found[i].version == v
    ensures r.Ok? ==> r.value.dists == reg.dists
    ensures r.Err? ==> r.error.DuplicatePackage?
    decreases |found|
  {
    if found == [] then Ok(reg)
    else match AddToRegistry(reg, found[0])
      case Err(e) => Err(e)
      case Ok(reg1) =>
        var r := AddFound(reg1, found[1..]);
        assert forall i :: 1 <= i < |found| ==> found[i] == found[1..][i - 1];
        if r.Ok? then
          assert forall n, v :: FindRecipe(r.value, n, v).Some? && FindRecipe(reg, n, v).None? ==>
                   exists i :: 0 <= i < |found| && found[i].name == n && found[i].version == v by {
            forall n, v | FindRecipe(r.value, n, v).Some? && FindRecipe(reg, n, v).None?
              ensures exists i :: 0 <= i < |found| && found[i].name == n && found[i].version == v
            {
              if (n, v) == (found[0].name, found[0].version) {
                assert found[0].name == n && found[0].version == v;
              } else {
                var h :| 0 <= h < |found[1..]| && found[1..][h].name == n && found[1..][h].version == v;
                assert found[h + 1].name == n && found[h + 1].version == v;
              }
            }
          }
          r
        else r
  }

  /** A version already known when the walk reaches another class with the same name and
      version makes it fail. */
  lemma {:induction false} AddFoundFinds(reg: Registry, found: seq<Recipe>, j: nat)
    requires j < |found| && FindRecipe(reg, found[j].name, found[j].version).Some?
    ensures AddFound(reg, found).Err?
    decreases |found|
  {
    match AddToRegistry(reg, found[0])
    case Err(_) =>
    case Ok(reg1) =>
      if j > 0 {
        assert found[1..][j - 1] == found[j];
        AddFoundFinds(reg1, found[1..], j - 1);
      }
  }

  /** Two classes with the same name and version make the walk fail. */
  lemma {:induction false} AddFoundRejectsTwins(reg: Registry, found: seq<Recipe>, i: nat, j: nat)
    requires i < j < |found| && found[i].name == found[j].name && found[i].version == found[j].version
    ensures AddFound(reg, found).Err?
    decreases |found|
  {
    match AddToRegistry(reg, found[0])
    case Err(_) =>
    case Ok(reg1) =>
      assert found[1..][j - 1] == found[j];
      if i == 0 {
        AddFoundFinds(reg1, found[1..], j - 1);
      } else {
        AddFoundRejectsTwins(reg1, found[1..], i - 1, j - 1);
      }
  }

  /** No name and version is found twice. */
  predicate NoTwins(found: seq<Recipe>) {
    forall i, j :: 0 <= i < j < |found| ==> found[i].name != found[j].name || found[i].version != found[j].version
  }

  /** The walk succeeds when nothing it finds is known already or found twice. */
  lemma {:induction false} AddFoundSucceeds(reg: Registry, found: seq<Recipe>)
    requires NoTwins(found)
    requires forall i :: 0 <= i < |found| ==> FindRecipe(reg, found[i].name, found[i].version).None?
    ensures AddFound(reg, found).Ok?
    decreases |found|
  {
    if found != [] {
      var reg1 := AddToRegistry(reg, found[0]).value;
      var rest := found[1..];
      forall i | 0 <= i < |rest| ensures FindRecipe(reg1, rest[i].name, rest[i].version).None? {
        assert rest[i] == found[i + 1];
      }
      assert NoTwins(rest) by {
        forall a, b | 0 <= a < b < |rest|
          ensures rest[a].name != rest[b].name || rest[a].version != rest[b].version
        {
          assert rest[a] == found[a + 1] && rest[b] == found[b + 1];
        }
      }
      AddFoundSucceeds(reg1, rest);
    }
  }

  /** `update_packages`: the walk starts from an empty table, which then replaces the
      known package versions; the registered distributions stay. */
  function Discover(reg: Registry, found: seq<Recipe>): (r: Result<Registry>)
    ensures r.Ok? ==> r.value.dists == reg.dists
    ensures r.Ok? ==> forall i :: 0 <= i < |found| ==> FindRecipe(r.value, found[i].name, found[i].version) == Some(found[i])
    ensures r.Ok? ==> forall n, v :: FindRecipe(r.value, n, v).Some? ==>
                        exists i :: 0 <= i < |found| && found[i].name == n && found[i].version == v
    ensures r.Err? ==> r.error.DuplicatePackage?
  {
    AddFound(reg.(packages := map[]), found)
  }

  /** Discovery succeeds exactly when no name and version is found twice: the versions
      known before play no part. */
  lemma DiscoverSucceeds(reg: Registry, found: seq<Recipe>)
    ensures Discover(reg, found).Ok? <==> NoTwins(found)
  {
    if NoTwins(found) {
      AddFoundSucceeds(reg.(packages := map[]), found);
    } else {
      var i, j :| 0 <= i < j < |found| && found[i].name == found[j].name && found[i].version == found[j].version;
      AddFoundRejectsTwins(reg.(packages := map[]), found, i, j);
    }
  }

  /** Two discovered classes with the same name and version make discovery fail. */
  lemma DiscoverRejectsTwins(reg: Registry, found: seq<Recipe>, i: nat, j: nat)
    requires i < j < |found| && found[i].name == found[j].name && found[i].version == found[j].version
    ensures Discover(reg, found).Err?
  {
    AddFoundRejectsTwins(reg.(packages := map[]), found, i, j);
  }

  /** Discovering again finds the same table: what the registry knew before does not
      matter, so a second run with the same classes changes nothing. */
  lemma DiscoverRerun(reg: Registry, found: seq<Recipe>)
    requires Discover(reg, found).Ok?
    ensures Discover(Discover(reg, found).value, found) == Discover(reg, found)
  {
    var r := Discover(reg, found).value;
    assert r.(packages := map[]) == reg.(packages := map[]);
  }

  /** The registry discovery builds is valid when the distributions were well formed and
      every member names a version the walk finds. */
  lemma DiscoverValid(reg: Registry, found: seq<Recipe>)
    requires Discover(reg, found).Ok?
    requires forall d :: d in reg.dists ==> Valid(reg.dists[d]) && reg.dists[d].name == d
    requires forall d, m :: d in reg.dists && m in reg.dists[d].members ==>
               exists i :: 0 <= i < |found| && found[i].name == m.name && found[i].version == m.version
    ensures RegistryValid(Discover(reg, found).value)
  {
    var r := Discover(reg, found).value;
    forall n, v | FindRecipe(r, n, v).Some?
      ensures FindRecipe(r, n, v).value.name == n && FindRecipe(r, n, v).value.version == v
    {
      var i :| 0 <= i < |found| && found[i].name == n && found[i].version == v;
      assert FindRecipe(r, found[i].name, found[i].version) == Some(found[i]);
    }
    forall d, m | d in r.dists && m in r.dists[d].members ensures FindRecipe(r, m.name, m.version).Some? {
      var i :| 0 <= i < |found| && found[i].name == m.name && found[i].version == m.version;
      assert FindRecipe(r, found[i].name, found[i].version) == Some(found[i]);
    }
  }

  // ---------------------------------------------------------------------------
  // Registering a distribution.

  /** The first requested version that is not known, if any. */
  function FirstMissing(reg: Registry, pkgs: seq<PackageId>): (r: Option<PackageId>)
    ensures r.None? <==> forall i :: 0 <= i < |pkgs| ==> FindRecipe(reg, pkgs[i].name, pkgs[i].version).Some?
    ensures r.Some? ==> r.value in pkgs && FindRecipe(reg, r.value.name, r.value.version).None?
  {
    if pkgs == [] then None
    else if FindRecipe(reg, pkgs[0].name, pkgs[0].version).None? then Some(pkgs[0])
    else
      var r := FirstMissing(reg, pkgs[1..]);
      assert forall i :: 1 <= i < |pkgs| ==> pkgs[i] == pkgs[1..][i - 1];
      r
  }

  /** Every listed dependency, under any key, names a requested package. */
  predicate DepsKnown(deps: map<string, seq<string>>, names: seq<string>) {
    forall k, d :: k in deps && d in deps[k] ==> d in names
  }

  /** Adds the requested versions one by one with their dependency lists. */
  function AddAll(d: Dist, ids: seq<PackageId>, deps: map<string, seq<string>>): (r: Result<Dist>)
    requires Valid(d)
    ensures r.Ok? ==> Valid(r.value) && r.value.name == d.name && r.value.members == d.members + ids
    ensures r.Err? ==> r.error.DuplicateMember?
    decreases |ids|
  {
    if ids == [] then Ok(d)
    else
      var given := if ids[0].name in deps then Some(deps[ids[0].name]) else None;
      match AddPackage(d, ids[0], given)
      case Err(e) => Err(e)
      case Ok(d1) =>
        AddPackageValid(d, ids[0], given);
        AppendHead(d.members, ids);
        AddAll(d1, ids[1..], deps)
  }

  /** Adding succeeds exactly when no name is added twice or is already a member. */
  lemma {:induction false} AddAllSucceeds(d: Dist, ids: seq<PackageId>, deps: map<string, seq<string>>)
    requires Valid(d)
    ensures AddAll(d, ids, deps).Ok? <==> Distinct(MemberNames(d.members) + MemberNames(ids))
    decreases |ids|
  {
    var names := MemberNames(d.members);
    if ids == [] {
      assert names + MemberNames(ids) == names;
    } else {
      var given := if ids[0].name in deps then Some(deps[ids[0].name]) else None;
      var whole := names + MemberNames(ids);
      assert MemberNames(ids) == [ids[0].name] + MemberNames(ids[1..]);
      assert whole == (names + [ids[0].name]) + MemberNames(ids[1..]);
      assert whole[|names|] == ids[0].name;
      match AddPackage(d, ids[0], given)
      case Err(e) =>
        var i :| 0 <= i < |names| && names[i] == ids[0].name;
        assert whole[i] == whole[|names|];
      case Ok(d1) =>
        AddPackageValid(d, ids[0], given);
        assert MemberNames(d1.members) == names + [ids[0].name];
        AddAllSucceeds(d1, ids[1..], deps);
    }
  }

  /** Each added member gets its dependency list from the table, none when the table has
      no entry for it; earlier members keep theirs. */
  lemma {:induction false} AddAllDeps(d: Dist, ids: seq<PackageId>, deps: map<string, seq<string>>, n: string)
    requires Valid(d) && AddAll(d, ids, deps).Ok?
    ensures DepsOf(AddAll(d, ids, deps).value.deps, n) ==
            if n in MemberNames(ids) then DepsOf(deps, n) else DepsOf(d.deps, n)
    decreases |ids|
  {
    if ids != [] {
      var given := if ids[0].name in deps then Some(deps[ids[0].name]) else None;
      var d1 := AddPackage(d, ids[0], given).value;
      AddPackageKeeps(d, ids[0], given);
      AddAllDeps(d1, ids[1..], deps, n);
      assert MemberNames(ids) == [ids[0].name] + MemberNames(ids[1..]);
    }
  }

  /** `register_distribution`: refused when the name is taken, when a requested version is
      unknown, when a dependency names a package outside the request, or when a package
      is requested twice; otherwise the distribution is recorded and nothing else
      changes. */
  function RegisterDistribution(reg: Registry, name: string, pkgs: seq<PackageId>,
                                deps: Option<map<string, seq<string>>>): (r: Result<Registry>)
    ensures name in reg.dists ==> r == Err(DuplicateDistribution(name))
    ensures name !in reg.dists && FirstMissing(reg, pkgs).Some? ==>
              r == Err(UnknownPackage(FirstMissing(reg, pkgs).value.name, FirstMissing(reg, pkgs).value.version))
    ensures r.Ok? ==> r.value.packages == reg.packages
    ensures r.Ok? ==> forall d :: d != name ==> (d in r.value.dists <==> d in reg.dists)
    ensures r.Ok? ==> forall d :: d != name && d in reg.dists ==> r.value.dists[d] == reg.dists[d]
    ensures r.Ok? ==> name in r.value.dists && r.value.dists[name].members == pkgs
    ensures r.Ok? ==> Valid(r.value.dists[name]) && r.value.dists[name].name == name
  {
    var table := deps.GetOr(map[]);
    if name in reg.dists then Err(DuplicateDistribution(name))
    else match FirstMissing(reg, pkgs)
      case Some(p) => Err(UnknownPackage(p.name, p.version))
      case None =>
        if !DepsKnown(table, MemberNames(pkgs)) then Err(UnknownDependency(name))
        else
          match AddAll(EmptyDist(name), pkgs, table)
          case Err(e) => Err(e)
          case Ok(d) => Ok(reg.(dists := reg.dists[name := d]))
  }

  /** Registration succeeds exactly when the name is new, every requested version is
      known, every listed dependency is requested, and no package is requested twice. */
  lemma RegisterSucceeds(reg: Registry, name: string, pkgs: seq<PackageId>, deps: Option<map<string, seq<string>>>)
    ensures RegisterDistribution(reg, name, pkgs, deps).Ok? <==>
              && name !in reg.dists
              && (forall i :: 0 <= i < |pkgs| ==> FindRecipe(reg, pkgs[i].name, pkgs[i].version).Some?)
              && DepsKnown(deps.GetOr(map[]), MemberNames(pkgs))
              && Distinct(MemberNames(pkgs))
  {
    var table := deps.GetOr(map[]);
    if name !in reg.dists && FirstMissing(reg, pkgs).None? && DepsKnown(table, MemberNames(pkgs)) {
      AddAllSucceeds(EmptyDist(name), pkgs, table);
      assert MemberNames(EmptyDist(name).members) + MemberNames(pkgs) == MemberNames(pkgs);
    }
  }

  /** The registered distribution records each member's dependency list as given. */
  lemma RegisterRecordsDeps(reg: Registry, name: string, pkgs: seq<PackageId>,
                            deps: Option<map<string, seq<string>>>, n: string)
    requires RegisterDistribution(reg, name, pkgs, deps).Ok? && n in MemberNames(pkgs)
    ensures DepsOf(RegisterDistribution(reg, name, pkgs, deps).value.dists[name].deps, n) == DepsOf(deps.GetOr(map[]), n)
  {
    AddAllDeps(EmptyDist(name), pkgs, deps.GetOr(map[]), n);
  }

  /** A registry that differs from a valid one only by a new, well-formed distribution of
      known package versions is valid. */
  lemma AddDistValid(reg: Registry, r: Registry, name: string)
    requires RegistryValid(reg) && r.packages == reg.packages
    requires forall d :: d != name ==> (d in r.dists <==> d in reg.dists)
    requires forall d :: d != name && d in reg.dists ==> r.dists[d] == reg.dists[d]
    requires name in r.dists && Valid(r.dists[name]) && r.dists[name].name == name
    requires forall m :: m in r.dists[name].members ==> FindRecipe(reg, m.name, m.version).Some?
    ensures RegistryValid(r)
  {
    assert forall n, v :: FindRecipe(r, n, v) == FindRecipe(reg, n, v);
    forall d, m | d in r.dists && m in r.dists[d].members ensures FindRecipe(r, m.name, m.version).Some? {
      if d != name {
        assert m in reg.dists[d].members;
      }
    }
  }

  /** Registering keeps the registry valid. */
  lemma RegisterValid(reg: Registry, name: string, pkgs: seq<PackageId>, deps: Option<map<string, seq<string>>>)
    requires RegistryValid(reg) && RegisterDistribution(reg, name, pkgs, deps).Ok?
    ensures RegistryValid(RegisterDistribution(reg, name, pkgs, deps).value)
  {
    var r := RegisterDistribution(reg, name, pkgs, deps).value;
    RegisterSucceeds(reg, name, pkgs, deps);
    assert forall m :: m in pkgs ==> FindRecipe(reg, m.name, m.version).Some?;
    AddDistValid(reg, r, name);
  }

  // ---------------------------------------------------------------------------
  // Making a distribution.

  /** What the outside world answers: whether each package's stamp file can be read,
      whether its directories can be made, and whether the setup script of each shell
      can be written. */
  datatype World = World(stampFile: (string, string) -> StampFile,
                         mkdirOk: (string, string) -> bool,
                         writeOk: string -> bool)

  /** The `sh` setup commands of a package, none when it has none. */
  function ShCmds(p: Recipe): seq<string> {
    if Sh in p.setup then p.setup[Sh] else []
  }

  /** The environment commands accumulated over packages built in order. */
  function EnvOf(pkgs: seq<Recipe>): (r: seq<string>)
    ensures forall c :: c in r ==> exists i :: 0 <= i < |pkgs| && c in ShCmds(pkgs[i])
    ensures forall i, c :: 0 <= i < |pkgs| && c in ShCmds(pkgs[i]) ==> c in r
  {
    if pkgs == [] then [] else
      var init := pkgs[..|pkgs| - 1];
      assert forall i :: 0 <= i < |init| ==> init[i] == pkgs[i];
      EnvOf(init) + ShCmds(pkgs[|pkgs| - 1])
  }

  /** Progress through the packages: how the last attempt ended, the environment so far,
      the environment each attempted package was given, the clock and the scripts. */
  datatype Progress = Progress(outcome: Outcome, env: seq<string>, envs: seq<seq<string>>,
                               clock: nat, scripts: seq<string>)

  /** What one package's turn reports: how it ended, and the clock and scripts after it. */
  datatype Turn = Turn(outcome: Outcome, clock: nat, scripts: seq<string>)

  /** A package's turn: given the environment so far, the clock and the scripts handed to
      the shell so far, it reports how the package's build ended. */
  type Attempts = (Recipe, seq<string>, nat, seq<string>) -> Result<Turn>

  /** One package's turn in `make_distribution`: configure it with a fresh stamp table,
      then make it with the environment built so far. */
  function Attempt(q: Recipe, cfg: BuildConfig, world: World, shell: Shell,
                   env: seq<string>, clock: nat, scripts: seq<string>): (r: Result<Turn>)
    ensures cfg.dryRun && world.stampFile(q.name, q.version) != Unreadable ==> r == Ok(Turn(Done, clock, scripts))
    ensures world.stampFile(q.name, q.version) == Unreadable ==> r == Err(StampLoadFailed)
    ensures r.Err? ==> r.error == StampLoadFailed || (r.error == MissingShell(Sh) && Sh !in q.setup)
    ensures r.Ok? && r.value.outcome == Done && !cfg.dryRun ==>
              Sh in q.setup && |r.value.scripts| > |scripts| && r.value.scripts[|r.value.scripts| - 1] == ScriptText(q.setup[Sh])
  {
    match SetConfig(q, cfg, map[], world.stampFile(q.name, q.version))
    case Err(e) => Err(e)
    case Ok(c) =>
      match Make(q, cfg, world.mkdirOk(q.name, q.version), env, shell, RunState(c.stamps, clock, scripts, []))
      case Err(e) => Err(e)
      case Ok(run) => Ok(Turn(run.outcome, run.state.clock, run.state.scripts))
  }

  /** The turns of `make_distribution` under one configuration, world and shell. */
  function Turns(cfg: BuildConfig, world: World, shell: Shell): Attempts {
    (q: Recipe, env: seq<string>, clock: nat, scripts: seq<string>) => Attempt(q, cfg, world, shell, env, clock, scripts)
  }

  /** Turns that neither run anything nor advance the clock, and always finish. */
  ghost predicate Quiet(attempt: Attempts) {
    forall q, env, clock, scripts :: attempt(q, env, clock, scripts).Ok? ==>
      attempt(q, env, clock, scripts).value == Turn(Done, clock, scripts)
  }

  /** The failures a turn can report: an unreadable stamp file or a missing `sh` entry. */
  predicate TurnError(e: Error) {
    e == StampLoadFailed || e == MissingShell(Sh)
  }

  /** Turns that fail only in the ways a turn of `make_distribution` can. */
  ghost predicate FailsAsTurns(attempt: Attempts) {
    forall q, env, clock, scripts :: attempt(q, env, clock, scripts).Err? ==>
      TurnError(attempt(q, env, clock, scripts).error)
  }

  lemma TurnErrors(cfg: BuildConfig, world: World, shell: Shell)
    ensures FailsAsTurns(Turns(cfg, world, shell))
  {
  }

  /** In a dry run, every turn is quiet. */
  lemma DryRunQuiet(cfg: BuildConfig, world: World, shell: Shell)
    requires cfg.dryRun
    ensures Quiet(Turns(cfg, world, shell))
  {
  }

  /** The packages in build order, each taking its turn. The first package that does not
      finish ends the loop; after one that finishes its `sh` setup commands join the
      environment, and a missing `sh` entry is an error. */
  function BuildAll(pkgs: seq<Recipe>, attempt: Attempts, p: Progress): (r: Result<Progress>)
    requires p.outcome == Done
    ensures r.Ok? ==> |r.value.envs| >= |p.envs| && r.value.envs[..|p.envs|] == p.envs
    ensures r.Ok? ==> |r.value.envs| - |p.envs| <= |pkgs|
    ensures r.Ok? && r.value.outcome == Done ==> |r.value.envs| - |p.envs| == |pkgs|
    ensures r.Ok? && r.value.outcome != Done ==> |r.value.envs| > |p.envs|
    ensures r.Ok? && pkgs != [] ==> |r.value.envs| > |p.envs| && r.value.envs[|p.envs|] == p.env
    decreases |pkgs|
  {
    if pkgs == [] then Ok(p)
    else
      match attempt(pkgs[0], p.env, p.clock, p.scripts)
      case Err(e) => Err(e)
      case Ok(turn) =>
        if turn.outcome != Done then Ok(Progress(turn.outcome, p.env, p.envs + [p.env], turn.clock, turn.scripts))
        else if Sh !in pkgs[0].setup then Err(MissingShell(Sh))
        else
          var p1 := Next(p, pkgs[0], turn);
          var r := BuildAll(pkgs[1..], attempt, p1);
          if r.Ok? then
            assert r.value.envs[..|p.envs|] == r.value.envs[..|p1.envs|][..|p.envs|];
            assert r.value.envs[|p.envs|] == r.value.envs[..|p1.envs|][|p.envs|];
            r
          else r
  }

  /** The loop stops at the first package that fails, is interrupted or reports an error:
      packages listed after the stopping point are never attempted. */
  lemma {:induction false} BuildAllStops(pkgs: seq<Recipe>, more: seq<Recipe>, attempt: Attempts, p: Progress)
    requires p.outcome == Done
    requires BuildAll(pkgs, attempt, p).Err? || BuildAll(pkgs, attempt, p).value.outcome != Done
    ensures BuildAll(pkgs + more, attempt, p) == BuildAll(pkgs, attempt, p)
    decreases |pkgs|
  {
    assert pkgs != [];
    assert (pkgs + more)[0] == pkgs[0];
    match attempt(pkgs[0], p.env, p.clock, p.scripts)
    case Err(_) =>
    case Ok(turn) =>
      if turn.outcome == Done && Sh in pkgs[0].setup {
        assert (pkgs + more)[1..] == pkgs[1..] + more;
        BuildAllStops(pkgs[1..], more, attempt, Next(p, pkgs[0], turn));
      }
  }

  /** The progress after a package's turn that finished, with its `sh` commands added. */
  function Next(p: Progress, q: Recipe, turn: Turn): Progress
    requires Sh in q.setup
  {
    Progress(turn.outcome, p.env + q.setup[Sh], p.envs + [p.env], turn.clock, turn.scripts)
  }

  /** Each package is given the starting environment plus the `sh` setup commands of every
      package built before it. */
  lemma {:induction false} BuildAllEnvs(pkgs: seq<Recipe>, attempt: Attempts, p: Progress)
    requires p.outcome == Done && BuildAll(pkgs, attempt, p).Ok?
    ensures var r := BuildAll(pkgs, attempt, p).value;
            EnvsFrom(r.envs, |p.envs|, p.env, pkgs)
    decreases |pkgs|
  {
    if pkgs != [] {
      var r := BuildAll(pkgs, attempt, p).value;
      var turn := attempt(pkgs[0], p.env, p.clock, p.scripts).value;
      assert EnvOf(pkgs[..0]) == [];
      if turn.outcome != Done {
        assert r.envs == p.envs + [p.env];
      } else {
        var p2 := Next(p, pkgs[0], turn);
        assert r == BuildAll(pkgs[1..], attempt, p2).value;
        BuildAllEnvs(pkgs[1..], attempt, p2);
        ShiftEnvs(r.envs, |p.envs|, |p2.envs|, p.env, p2.env, pkgs);
      }
    }
  }

  /** When no turn runs anything, neither does the loop, and every package finishes. */
  lemma {:induction false} BuildAllQuiet(pkgs: seq<Recipe>, attempt: Attempts, p: Progress)
    requires p.outcome == Done && Quiet(attempt) && BuildAll(pkgs, attempt, p).Ok?
    ensures var r := BuildAll(pkgs, attempt, p).value;
            r.scripts == p.scripts && r.clock == p.clock && r.outcome == Done
    decreases |pkgs|
  {
    if pkgs != [] {
      var turn := attempt(pkgs[0], p.env, p.clock, p.scripts).value;
      BuildAllQuiet(pkgs[1..], attempt, Next(p, pkgs[0], turn));
    }
  }

  /** The loop fails only with an error of a turn or on a missing `sh` entry. */
  lemma {:induction false} BuildAllErrors(pkgs: seq<Recipe>, attempt: Attempts, p: Progress)
    requires p.outcome == Done && FailsAsTurns(attempt)
    ensures BuildAll(pkgs, attempt, p).Err? ==> TurnError(BuildAll(pkgs, attempt, p).error)
    decreases |pkgs|
  {
    if pkgs != [] {
      match attempt(pkgs[0], p.env, p.clock, p.scripts)
      case Err(e) =>
      case Ok(turn) =>
        if turn.outcome == Done && Sh in pkgs[0].setup {
          BuildAllErrors(pkgs[1..], attempt, Next(p, pkgs[0], turn));
        }
    }
  }

  /** From position `base` on, `envs` holds `env` plus the commands of the packages
      before each one. */
  predicate EnvsFrom(envs: seq<seq<string>>, base: nat, env: seq<string>, pkgs: seq<Recipe>) {
    forall i :: base <= i < |envs| && i - base <= |pkgs| ==> envs[i] == env + EnvOf(pkgs[..i - base])
  }

  /** The environments recorded after the first package, computed from the rest of the
      packages with the first package's commands added, are those computed from all of
      them. */
  lemma ShiftEnvs(envs: seq<seq<string>>, base: nat, base1: nat, env: seq<string>, env1: seq<string>, pkgs: seq<Recipe>)
    requires pkgs != [] && |envs| <= base + |pkgs| && base1 == base + 1
    requires env1 == env + ShCmds(pkgs[0])
    requires EnvsFrom(envs, base1, env1, pkgs[1..])
    requires base < |envs| ==> envs[base] == env
    ensures EnvsFrom(envs, base, env, pkgs)
  {
    assert pkgs[..0] == [];
    forall i | base1 <= i < |envs| ensures envs[i] == env + EnvOf(pkgs[..i - base]) {
      EnvOfPrefix(pkgs, i - base);
      AppendAssoc(env, ShCmds(pkgs[0]), EnvOf(pkgs[1..][..i - base1]));
    }
  }

  lemma AppendHead<T>(a: seq<T>, b: seq<T>)
    requires b != []
    ensures (a + [b[0]]) + b[1..] == a + b
  {
  }

  lemma AppendAssoc<T>(a: seq<T>, b: seq<T>, c: seq<T>)
    ensures (a + b) + c == a + (b + c)
  {
  }

  /** The commands of the first `k` packages are the first package's followed by those of
      the next `k - 1`. */
  lemma EnvOfPrefix(pkgs: seq<Recipe>, k: nat)
    requires 1 <= k <= |pkgs|
    ensures EnvOf(pkgs[..k]) == ShCmds(pkgs[0]) + EnvOf(pkgs[1..][..k - 1])
  {
    EnvOfCons(pkgs[..k]);
    assert pkgs[..k][1..] == pkgs[1..][..k - 1];
  }

  /** Whether `part` occurs in `s` starting at position `at`. */
  predicate OccursAt<T(==)>(s: seq<T>, at: nat, part: seq<T>) {
    at + |part| <= |s| && s[at..at + |part|] == part
  }

  /** The accumulated environment starts with the first package's commands. */
  lemma {:induction false} EnvOfCons(pkgs: seq<Recipe>)
    requires pkgs != []
    ensures EnvOf(pkgs) == ShCmds(pkgs[0]) + EnvOf(pkgs[1..])
    decreases |pkgs|
  {
    if |pkgs| > 1 {
      var init := pkgs[..|pkgs| - 1];
      EnvOfCons(init);
      assert init[1..] == pkgs[1..][..|pkgs[1..]| - 1];
      assert init[0] == pkgs[0];
    } else {
      assert pkgs[..0] == [] && pkgs[1..] == [];
    }
  }

  /** Within the environment accumulated over `pkgs`, the `sh` commands of package `j`
      sit right after those of the packages before it. */
  lemma {:induction false} EnvOfContains(pkgs: seq<Recipe>, j: nat)
    requires j < |pkgs|
    ensures OccursAt(EnvOf(pkgs), |EnvOf(pkgs[..j])|, ShCmds(pkgs[j]))
    decreases |pkgs|
  {
    var init := pkgs[..|pkgs| - 1];
    if j == |pkgs| - 1 {
      assert pkgs[..j] == init;
    } else {
      EnvOfContains(init, j);
      assert init[..j] == pkgs[..j] && init[j] == pkgs[j];
      var at := |EnvOf(pkgs[..j])|;
      assert EnvOf(pkgs)[at..at + |ShCmds(pkgs[j])|] == EnvOf(init)[at..at + |ShCmds(pkgs[j])|];
    }
  }

  /** Where a distribution's setup scripts go. */
  function SetupFile(cfg: BuildConfig, dist: string, shellType: string): (f: Path)
    ensures Under(f, cfg.installPrefix)
    ensures f.parts == cfg.installPrefix.parts + ["setup-scripts", dist, cfg.buildFlag, cfg.buildFlag + "." + shellType]
  {
    var dir := Child(Child(Child(cfg.installPrefix, "setup-scripts"), dist), cfg.buildFlag);
    assert Under(cfg.installPrefix, cfg.installPrefix);
    UnderChild(cfg.installPrefix, cfg.installPrefix, "setup-scripts");
    UnderChild(Child(cfg.installPrefix, "setup-scripts"), cfg.installPrefix, dist);
    UnderChild(Child(Child(cfg.installPrefix, "setup-scripts"), dist), cfg.installPrefix, cfg.buildFlag);
    UnderChild(dir, cfg.installPrefix, cfg.buildFlag + "." + shellType);
    assert dir.parts == cfg.installPrefix.parts + ["setup-scripts", dist, cfg.buildFlag];
    Child(dir, cfg.buildFlag + "." + shellType)
  }

  /** Different shells get different setup files. */
  lemma SetupFilesDiffer(cfg: BuildConfig, dist: string, a: string, b: string)
    requires a != b
    ensures SetupFile(cfg, dist, a) != SetupFile(cfg, dist, b)
  {
    var dir := Child(Child(Child(cfg.installPrefix, "setup-scripts"), dist), cfg.buildFlag);
    var fa, fb := cfg.buildFlag + "." + a, cfg.buildFlag + "." + b;
    assert fa[|cfg.buildFlag| + 1..] == a && fb[|cfg.buildFlag| + 1..] == b;
    ChildInjective(dir, fa, dir, fb);
  }

  /** The block a package contributes to the setup script of a shell it has commands
      for: a comment naming it, its commands, and an empty line. */
  function Block(p: Recipe, shellType: string): seq<string> {
    if shellType in p.setup then [Header(p)] + p.setup[shellType] + [""] else []
  }

  /** The comment line naming a package in a setup script. */
  function Header(p: Recipe): string {
    "# " + p.name + " - " + p.version
  }

  /** The lines of a shell's setup script: the blocks of the packages, in build order. */
  function SetupLines(pkgs: seq<Recipe>, shellType: string): (r: seq<string>)
    ensures r == [] <==> forall i :: 0 <= i < |pkgs| ==> shellType !in pkgs[i].setup
    ensures r != [] ==> r[|r| - 1] == ""
  {
    if pkgs == [] then [] else
      var init := pkgs[..|pkgs| - 1];
      assert forall i :: 0 <= i < |init| ==> init[i] == pkgs[i];
      SetupLines(init, shellType) + Block(pkgs[|pkgs| - 1], shellType)
  }

  lemma BlockShape(p: Recipe, shellType: string)
    requires shellType in p.setup
    ensures var cmds := p.setup[shellType];
            var blk := Block(p, shellType);
            && |blk| == |cmds| + 2 && blk[0] == Header(p)
            && blk[1..1 + |cmds|] == cmds && blk[1 + |cmds|] == ""
  {
    var cmds := p.setup[shellType];
    var blk := Block(p, shellType);
    assert blk[1..1 + |cmds|] == cmds;
  }

  /** The last package's block ends the setup lines. */
  lemma SetupLinesLast(pkgs: seq<Recipe>, shellType: string)
    requires pkgs != []
    ensures SetupLines(pkgs, shellType) == SetupLines(pkgs[..|pkgs| - 1], shellType) + Block(pkgs[|pkgs| - 1], shellType)
  {
  }

  /** Whether a package's block, at a position, is its header line, then its commands, then
      an empty line. */
  predicate BlockAt(lines: seq<string>, at: nat, p: Recipe, cmds: seq<string>) {
    && |lines| >= at + |cmds| + 2
    && lines[at] == Header(p) && lines[at + 1..at + 1 + |cmds|] == cmds && lines[at + 1 + |cmds|] == ""
  }

  /** A block found in the lines before is still found after more lines are appended. */
  lemma BlockAtAppend(lines: seq<string>, more: seq<string>, at: nat, p: Recipe, cmds: seq<string>)
    requires BlockAt(lines, at, p, cmds)
    ensures BlockAt(lines + more, at, p, cmds)
  {
    ConcatSlices(lines, more, at + 1, at + 1 + |cmds|);
  }

  /** A package's own block is found right after the lines before it. */
  lemma BlockAtEnd(lines: seq<string>, p: Recipe, shellType: string)
    requires shellType in p.setup
    ensures BlockAt(lines + Block(p, shellType), |lines|, p, p.setup[shellType])
  {
    var cmds := p.setup[shellType];
    BlockShape(p, shellType);
    ConcatSlices(lines, Block(p, shellType), |lines| + 1, |lines| + 1 + |cmds|);
  }

  /** Within a shell's setup script, package `j`'s block follows the blocks of the
      packages before it: its header line, then its commands, then an empty line. */
  lemma {:induction false} SetupLinesContain(pkgs: seq<Recipe>, shellType: string, j: nat)
    requires j < |pkgs| && shellType in pkgs[j].setup
    ensures BlockAt(SetupLines(pkgs, shellType), |SetupLines(pkgs[..j], shellType)|, pkgs[j], pkgs[j].setup[shellType])
    decreases |pkgs|
  {
    var init := pkgs[..|pkgs| - 1];
    SetupLinesLast(pkgs, shellType);
    if j == |pkgs| - 1 {
      assert pkgs[..j] == init;
      BlockAtEnd(SetupLines(init, shellType), pkgs[j], shellType);
    } else {
      SetupLinesContain(init, shellType, j);
      assert init[..j] == pkgs[..j] && init[j] == pkgs[j];
      BlockAtAppend(SetupLines(init, shellType), Block(pkgs[|pkgs| - 1], shellType),
                    |SetupLines(pkgs[..j], shellType)|, pkgs[j], pkgs[j].setup[shellType]);
    }
  }

  /** The shells any of the packages has setup commands for. */
  function Shells(pkgs: seq<Recipe>): (s: set<string>)
    ensures forall sh :: sh in s <==> exists i :: 0 <= i < |pkgs| && sh in pkgs[i].setup
  {
    set i, sh | 0 <= i < |pkgs| && sh in pkgs[i].setup :: sh
  }

  /** The recipes of registered package versions. */
  function Recipes(reg: Registry, ids: seq<PackageId>): (r: seq<Recipe>)
    requires forall i :: 0 <= i < |ids| ==> FindRecipe(reg, ids[i].name, ids[i].version).Some?
    ensures |r| == |ids| && forall i :: 0 <= i < |ids| ==> r[i] == FindRecipe(reg, ids[i].name, ids[i].version).value
  {
    seq(|ids|, i requires 0 <= i < |ids| => FindRecipe(reg, ids[i].name, ids[i].version).value)
  }

  /** The outcome of `make_distribution`: its answer, the progress through the packages,
      and the text of the setup script written for each shell. */
  datatype Made = Made(ok: bool, trace: Progress, files: map<string, string>)

  /** Where `make_distribution` starts: nothing built, no environment, no scripts. */
  function Start(clock: nat): Progress {
    Progress(Done, [], [], clock, [])
  }

  /** Building packages in a given order and writing the setup scripts: an unreadable
      stamp file or a missing `sh` entry is an error; a dry run stops after the packages;
      otherwise each shell's setup script joins the blocks of all packages, and the answer
      is true when every package finished and every script was written. */
  function MakeFrom(order: seq<Recipe>, cfg: BuildConfig, world: World, shell: Shell, clock: nat): (r: Result<Made>)
    ensures r.Err? ==> TurnError(r.error)
    ensures r.Ok? ==> BuildAll(order, Turns(cfg, world, shell), Start(clock)) == Ok(r.value.trace)
    ensures r.Ok? && r.value.ok ==> r.value.trace.outcome == Done && |r.value.trace.envs| == |order|
    ensures r.Ok? && cfg.dryRun ==> r.value.trace.scripts == [] && r.value.trace.clock == clock && r.value.files == map[]
    ensures r.Ok? && cfg.dryRun ==> r.value.ok
    ensures r.Ok? && r.value.ok && !cfg.dryRun ==>
              && (forall sh :: sh in r.value.files <==> sh in Shells(order))
              && (forall sh :: sh in r.value.files ==> r.value.files[sh] == Join(SetupLines(order, sh), "\n"))
              && (forall sh :: sh in r.value.files ==> world.writeOk(sh))
    ensures r.Ok? && r.value.trace.outcome == Done && !cfg.dryRun ==>
              (r.value.ok <==> forall sh :: sh in Shells(order) ==> world.writeOk(sh))
  {
    match BuildAll(order, Turns(cfg, world, shell), Start(clock))
    case Err(e) =>
      assert TurnError(e) by {
        TurnErrors(cfg, world, shell);
        BuildAllErrors(order, Turns(cfg, world, shell), Start(clock));
      }
      Err(e)
    case Ok(t) =>
      assert cfg.dryRun ==> t.scripts == [] && t.clock == clock && t.outcome == Done by {
        if cfg.dryRun {
          DryRunQuiet(cfg, world, shell);
          BuildAllQuiet(order, Turns(cfg, world, shell), Start(clock));
        }
      }
      if t.outcome != Done then Ok(Made(false, t, map[]))
      else if cfg.dryRun then Ok(Made(true, t, map[]))
      else
        var shells := Shells(order);
        var files := map sh | sh in shells :: Join(SetupLines(order, sh), "\n");
        Ok(Made(forall sh :: sh in shells ==> world.writeOk(sh), t, files))
  }

  /** `make_distribution`: an unknown distribution is a failure and a dependency cycle an
      error; otherwise its packages are made in dependency order. */
  function MakeDistribution(reg: Registry, name: string, cfg: BuildConfig, world: World,
                            shell: Shell, clock: nat): (r: Result<Made>)
    requires RegistryValid(reg)
    ensures name !in reg.dists ==> r == Ok(Made(false, Start(clock), map[]))
    ensures name in reg.dists && SortedPackages(reg.dists[name]).Err? ==> r == Err(Cycle)
    ensures name in reg.dists && SortedPackages(reg.dists[name]).Ok? ==>
              r == MakeFrom(Order(reg, name), cfg, world, shell, clock)
    ensures r.Err? ==> r.error == Cycle || TurnError(r.error)
    ensures r.Ok? && r.value.ok ==> name in reg.dists && |r.value.trace.envs| == |reg.dists[name].members|
  {
    if name !in reg.dists then Ok(Made(false, Start(clock), map[]))
    else match SortedPackages(reg.dists[name])
      case Err(e) => Err(e)
      case Ok(_) => MakeFrom(Order(reg, name), cfg, world, shell, clock)
  }

  /** The recipes of a registered distribution in build order. */
  function Order(reg: Registry, name: string): (r: seq<Recipe>)
    requires RegistryValid(reg) && name in reg.dists && SortedPackages(reg.dists[name]).Ok?
    ensures |r| == |reg.dists[name].members|
    ensures forall i :: 0 <= i < |r| ==> r[i].name == MemberNames(SortedPackages(reg.dists[name]).value)[i]
    ensures var ids := SortedPackages(reg.dists[name]).value;
            forall i :: 0 <= i < |r| ==> Some(r[i]) == FindRecipe(reg, ids[i].name, ids[i].version)
  {
    var ids := SortedPackages(reg.dists[name]).value;
    SortedRegistered(reg, name);
    var r := Recipes(reg, ids);
    RecipesNamed(reg, ids, r);
    r
  }

  /** The sorted members of a registered distribution are as many as its members, and each
      is a registered package version. */
  lemma SortedRegistered(reg: Registry, name: string)
    requires RegistryValid(reg) && name in reg.dists && SortedPackages(reg.dists[name]).Ok?
    ensures var ids := SortedPackages(reg.dists[name]).value;
            && |ids| == |reg.dists[name].members|
            && forall i :: 0 <= i < |ids| ==> FindRecipe(reg, ids[i].name, ids[i].version).Some?
  {
    var d := reg.dists[name];
    var ids := SortedPackages(d).value;
    assert multiset(ids) == multiset(d.members);
    forall i | 0 <= i < |ids| ensures FindRecipe(reg, ids[i].name, ids[i].version).Some? {
      assert ids[i] in multiset(d.members);
    }
    assert |ids| == |multiset(ids)| == |multiset(d.members)| == |d.members|;
  }

  /** In a valid registry the recipes found for package versions carry those names. */
  lemma RecipesNamed(reg: Registry, ids: seq<PackageId>, r: seq<Recipe>)
    requires RegistryValid(reg)
    requires |r| == |ids| && forall i :: 0 <= i < |ids| ==> Some(r[i]) == FindRecipe(reg, ids[i].name, ids[i].version)
    ensures forall i :: 0 <= i < |r| ==> r[i].name == MemberNames(ids)[i]
  {
  }

  /** From the start, package `i` is given the `sh` setup commands of the packages before
      it. */
  lemma StartEnvs(pkgs: seq<Recipe>, attempt: Attempts, clock: nat, i: nat)
    requires BuildAll(pkgs, attempt, Start(clock)).Ok?
    requires i < |BuildAll(pkgs, attempt, Start(clock)).value.envs|
    ensures i <= |pkgs| && BuildAll(pkgs, attempt, Start(clock)).value.envs[i] == EnvOf(pkgs[..i])
  {
    var t := BuildAll(pkgs, attempt, Start(clock)).value;
    BuildAllEnvs(pkgs, attempt, Start(clock));
    assert t.envs[i] == [] + EnvOf(pkgs[..i - 0]);
    assert pkgs[..i - 0] == pkgs[..i];
  }

  /** From the start, the environment package `i` is given holds the `sh` setup commands
      of each package `j` before it, right after those of the packages before `j`. */
  lemma EarlierSetupVisible(pkgs: seq<Recipe>, attempt: Attempts, clock: nat, i: nat, j: nat)
    requires BuildAll(pkgs, attempt, Start(clock)).Ok?
    requires j < i < |BuildAll(pkgs, attempt, Start(clock)).value.envs|
    ensures OccursAt(BuildAll(pkgs, attempt, Start(clock)).value.envs[i], |EnvOf(pkgs[..j])|, ShCmds(pkgs[j]))
  {
    StartEnvs(pkgs, attempt, clock, i);
    EnvOfContains(pkgs[..i], j);
    assert pkgs[..i][..j] == pkgs[..j] && pkgs[..i][j] == pkgs[j];
  }

  /** In the build order every dependency of a package comes before it. */
  lemma DependencyEarlier(reg: Registry, name: string, i: nat, j: nat)
    requires RegistryValid(reg) && name in reg.dists && SortedPackages(reg.dists[name]).Ok?
    requires i < |Order(reg, name)| && j < |Order(reg, name)|
    requires Order(reg, name)[j].name in DepsOf(reg.dists[name].deps, Order(reg, name)[i].name)
    ensures j < i
  {
    var d := reg.dists[name];
    var names := MemberNames(SortedPackages(d).value);
    assert DepsBefore(d.deps, names, i);
    assert names[j] in names[..i];
    var h :| 0 <= h < i && names[..i][h] == names[j];
    assert names[h] == names[j];
  }

  /** Each package of a distribution is built with the `sh` setup commands of every one of
      its dependencies in its environment, right after those of the packages built before
      that dependency, whatever a package's turn does. */
  lemma DependencySetupVisible(reg: Registry, name: string, attempt: Attempts, clock: nat, i: nat, j: nat)
    requires RegistryValid(reg) && name in reg.dists && SortedPackages(reg.dists[name]).Ok?
    requires BuildAll(Order(reg, name), attempt, Start(clock)).Ok?
    requires i < |BuildAll(Order(reg, name), attempt, Start(clock)).value.envs|
    requires j < |Order(reg, name)| && Order(reg, name)[j].name in DepsOf(reg.dists[name].deps, Order(reg, name)[i].name)
    ensures j < i
    ensures OccursAt(BuildAll(Order(reg, name), attempt, Start(clock)).value.envs[i],
                     |EnvOf(Order(reg, name)[..j])|, ShCmds(Order(reg, name)[j]))
  {
    DependencyEarlier(reg, name, i, j);
    EarlierSetupVisible(Order(reg, name), attempt, clock, i, j);
  }
}

=== FILE: legacy.dfy ===
/** A package under the older build manager: five fixed steps, the last three named after
    the configuration alias, environment commands prepended to each, and scripts joined
    line by line without stopping at the first failing command. */
module Legacy {
  import opened Common
  import opened Paths
  import opened Selection
  import opened Steps
  import opened Config
  import Package

  /** What an older package recipe provides: the commands of each of its five steps and
      its setup commands by shell. */
  datatype LegacyRecipe = LegacyRecipe(name: string, version: string,
                                       download: seq<string>, patch: seq<string>,
                                       configure: seq<string>, build: seq<string>,
                                       install: seq<string>, setup: map<string, seq<string>>)

  const Download: string := "download"
  const Patch: string := "patch"
  const ConfigureSuffix: string := "-configure"
  const BuildSuffix: string := "-build"
  const InstallSuffix: string := "-install"

  /** The steps of an older package, in order: download and patch are shared by all
      configurations, configure, build and install carry the configuration alias. */
  function LegacySteps(r: LegacyRecipe, alias: string): (steps: seq<Step>)
    ensures |steps| == 5 && Distinct(Names(steps))
    ensures Names(steps) == [Download, Patch, alias + ConfigureSuffix, alias + BuildSuffix, alias + InstallSuffix]
    ensures steps[0].cmds == r.download && steps[1].cmds == r.patch
    ensures steps[2].cmds == r.configure && steps[3].cmds == r.build && steps[4].cmds == r.install
  {
    var steps := [Step(Download, r.download), Step(Patch, r.patch),
                  Step(alias + ConfigureSuffix, r.configure),
                  Step(alias + BuildSuffix, r.build),
                  Step(alias + InstallSuffix, r.install)];
    LegacyNamesDistinct(alias);
    assert Names(steps) == [Download, Patch, alias + ConfigureSuffix, alias + BuildSuffix, alias + InstallSuffix];
    steps
  }

  /** A name ending in `suffix` is not `lit` when `lit` does not end in it. */
  lemma SuffixDiffers(alias: string, suffix: string, lit: string)
    requires |lit| < |suffix| || lit[|lit| - |suffix|..] != suffix
    ensures alias + suffix != lit
  {
    var w := alias + suffix;
    assert w[|w| - |suffix|..] == suffix;
  }

  /** Two names with the same alias and different suffixes differ. */
  lemma SuffixesDiffer(alias: string, a: string, b: string)
    requires a != b
    ensures alias + a != alias + b
  {
    assert (alias + a)[|alias|..] == a && (alias + b)[|alias|..] == b;
  }

  /** The five step names of an older package are distinct, whatever the alias. */
  lemma LegacyNamesDistinct(alias: string)
    ensures Distinct([Download, Patch, alias + ConfigureSuffix, alias + BuildSuffix, alias + InstallSuffix])
  {
    SuffixDiffers(alias, ConfigureSuffix, Download);
    SuffixDiffers(alias, ConfigureSuffix, Patch);
    SuffixDiffers(alias, BuildSuffix, Download);
    SuffixDiffers(alias, BuildSuffix, Patch);
    SuffixDiffers(alias, InstallSuffix, Download);
    SuffixDiffers(alias, InstallSuffix, Patch);
    SuffixesDiffer(alias, ConfigureSuffix, BuildSuffix);
    SuffixesDiffer(alias, ConfigureSuffix, InstallSuffix);
    SuffixesDiffer(alias, BuildSuffix, InstallSuffix);
  }

  /** The environment commands an older package prepends: the given ones, in order, less
      those starting with '#'. */
  function PreEnv(cmds: seq<string>): (r: seq<string>)
    ensures forall c :: c in r <==> c in cmds && !StartsWith(c, "#")
    ensures forall c :: multiset(r)[c] == if StartsWith(c, "#") then 0 else multiset(cmds)[c]
    ensures |r| <= |cmds|
  {
    FilterMultiplicity(cmds, (c: string) => !StartsWith(c, "#"));
    Filter(cmds, (c: string) => !StartsWith(c, "#"))
  }

  /** The commands are filtered one by one, in order: a comment is dropped and any other
      command is kept as it is, where it was. */
  lemma PreEnvAppend(a: seq<string>, b: seq<string>)
    ensures PreEnv(a + b) == PreEnv(a) + PreEnv(b)
  {
    FilterAppend(a, b, (c: string) => !StartsWith(c, "#"));
  }

  lemma PreEnvOne(c: string)
    ensures PreEnv([c]) == if StartsWith(c, "#") then [] else [c]
  {
    assert [c][1..] == [];
  }

  /** Filtering twice keeps what filtering once kept. */
  lemma {:induction false} PreEnvIdempotent(cmds: seq<string>)
    ensures PreEnv(PreEnv(cmds)) == PreEnv(cmds)
  {
    if cmds != [] {
      PreEnvIdempotent(cmds[1..]);
      var keep := (c: string) => !StartsWith(c, "#");
      var rest := Filter(cmds[1..], keep);
      var head := if keep(cmds[0]) then [cmds[0]] else [];
      assert Filter(cmds, keep) == head + rest;
      FilterAppend(head, rest, keep);
    }
  }

  /** The script text of the older packages: the commands joined by newlines. */
  function LegacyScript(cmds: seq<string>): (r: string)
    ensures cmds != [] ==> StartsWith(r, cmds[0])
    ensures |cmds| == 1 ==> r == cmds[0]
  {
    Join(cmds, "\n")
  }

  /** An older script's lines read back as its commands, when there is at least one and
      none spans several lines. */
  lemma LegacyScriptLines(cmds: seq<string>)
    requires cmds != [] && forall i :: 0 <= i < |cmds| ==> '\n' !in cmds[i]
    ensures Split(LegacyScript(cmds), '\n') == cmds
  {
    SplitJoin(cmds, '\n');
  }

  /** The older directory layout. */
  datatype LegacyDirs = LegacyDirs(source: Path, build: Path, install: Path, stamp: Path)

  function DeriveLegacyDirs(cfg: LegacyConfig, name: string, version: string): (d: LegacyDirs)
    ensures Under(d.source, cfg.installDir) && Under(d.install, cfg.installDir)
    ensures Under(d.stamp, cfg.installDir) && Under(d.build, cfg.buildDir)
    ensures d.source.parts == cfg.installDir.parts + [name, version, "src"]
    ensures d.install.parts == cfg.installDir.parts + [name, version, cfg.configAlias]
    ensures d.stamp.parts == cfg.installDir.parts + [name, version, Package.StampFileName]
    ensures d.build.parts == cfg.buildDir.parts + [name, version, cfg.configAlias]
  {
    var vdir := Child(Child(cfg.installDir, name), version);
    var d := LegacyDirs(Child(vdir, "src"), Child(Child(Child(cfg.buildDir, name), version), cfg.configAlias),
                        Child(vdir, cfg.configAlias), Child(vdir, Package.StampFileName));
    assert Under(cfg.installDir, cfg.installDir) && Under(cfg.buildDir, cfg.buildDir);
    UnderChild(cfg.installDir, cfg.installDir, name);
    UnderChild(Child(cfg.installDir, name), cfg.installDir, version);
    UnderChild(vdir, cfg.installDir, "src");
    UnderChild(vdir, cfg.installDir, cfg.configAlias);
    UnderChild(vdir, cfg.installDir, Package.StampFileName);
    UnderChild(cfg.buildDir, cfg.buildDir, name);
    UnderChild(Child(cfg.buildDir, name), cfg.buildDir, version);
    UnderChild(Child(Child(cfg.buildDir, name), version), cfg.buildDir, cfg.configAlias);
    d
  }

  /** The older layout is the current per-flag layout with the configuration alias in
      place of the build flag. */
  lemma LegacyDirsArePerFlag(lc: LegacyConfig, cfg: BuildConfig, name: string, version: string)
    requires cfg.installPrefix == lc.installDir && cfg.buildPrefix == lc.buildDir
    requires cfg.buildFlag == lc.configAlias
    ensures var a := DeriveLegacyDirs(lc, name, version);
            var b := Package.DeriveDirs(Package.PerFlag, name, version, cfg);
            a.source == b.source && a.build == b.build && a.install == b.install && a.stamp == b.stamp
  {
  }

  /** The older packages load their stamps into a fresh table: without a file nothing is
      recorded. */
  function LegacyLoadStamps(file: Package.StampFile): (r: Result<Stamps>)
    ensures r == Package.LoadStamps(map[], file)
    ensures file.Absent? ==> r == Ok(map[])
  {
    match file
    case Absent => Ok(map[])
    case Readable(t) => Ok(t)
    case Unreadable => Err(StampLoadFailed)
  }

  /** The older `_make`: resume from the older scan's start, skipping everything in a dry
      run. A failing or interrupted step ends the build without success. */
  function LegacyMake(r: LegacyRecipe, cfg: LegacyConfig, preEnv: seq<string>, shell: Shell, s: RunState): (run: Run)
    ensures cfg.dryRun ==> run == Run(Done, s)
    ensures run == Resume(PreEnv(preEnv), LegacySteps(r, cfg.configAlias), cfg.dryRun, LegacyScript, shell, s)
  {
    var steps := LegacySteps(r, cfg.configAlias);
    LegacyStartIndexAgrees(Names(steps), s.stamps);
    match LegacyStartIndex(Names(steps), s.stamps)
    case None => Run(Done, s)
    case Some(k) =>
      if cfg.dryRun then Run(Done, s)
      else RunSteps(PreEnv(preEnv), steps[k..], LegacyScript, shell, s)
  }

  /** `_make`'s answer: true exactly when every step it ran succeeded. */
  function LegacyMakeOk(r: LegacyRecipe, cfg: LegacyConfig, preEnv: seq<string>, shell: Shell, s: RunState): (ok: bool)
    ensures ok <==> LegacyMake(r, cfg, preEnv, shell, s).outcome == Done
  {
    LegacyMake(r, cfg, preEnv, shell, s).outcome == Done
  }

  /** Building an older package again straight after a build that succeeded runs nothing. */
  lemma LegacyRerun(r: LegacyRecipe, cfg: LegacyConfig, preEnv: seq<string>, shell: Shell, shell': Shell, s: RunState)
    requires !cfg.dryRun
    requires ClockAhead(s.stamps, s.clock)
    requires LegacyMakeOk(r, cfg, preEnv, shell, s)
    ensures var t := LegacyMake(r, cfg, preEnv, shell, s).state;
            LegacyMake(r, cfg, preEnv, shell', t) == Run(Done, t)
  {
    ResumeRerun(PreEnv(preEnv), LegacySteps(r, cfg.configAlias), LegacyScript, shell, shell', s);
  }

  /** A fresh older package runs all five steps, and when the shell accepts them all, each
      step's script is its environment commands followed by its own, and every step ends
      up stamped. */
  lemma LegacyFreshBuild(r: LegacyRecipe, cfg: LegacyConfig, preEnv: seq<string>, shell: Shell, s: RunState)
    requires !cfg.dryRun
    requires forall n :: Stamp(s.stamps, n) == 0
    requires LegacyMakeOk(r, cfg, preEnv, shell, s)
    ensures var t := LegacyMake(r, cfg, preEnv, shell, s).state;
            var steps := LegacySteps(r, cfg.configAlias);
            && |t.scripts| == |s.scripts| + 5
            && (forall i :: 0 <= i < 5 ==> t.scripts[|s.scripts| + i] == LegacyScript(PreEnv(preEnv) + steps[i].cmds))
            && (forall i :: 0 <= i < 5 ==> Stamp(t.stamps, Names(steps)[i]) != 0)
  {
    var steps := LegacySteps(r, cfg.configAlias);
    StartIndexFresh(Names(steps), s.stamps);
    assert steps[0..] == steps;
    var env := PreEnv(preEnv);
    RunStepsCount(env, steps, LegacyScript, shell, s);
    RunStepsScripts(env, steps, LegacyScript, shell, s);
    RunStepsStampsDistinct(env, steps, LegacyScript, shell, s);
  }
}

=== FILE: package.dfy ===
/** A package under the current build manager: where its files go, how its table of step
    stamps is loaded, and how a build runs its source phase, its build phase and the
    check of its environment setup commands. */
module Package {
  import opened Common
  import opened Paths
  import opened Selection
  import opened Steps
  import opened Config
  import opened Commands

  /** A package keeps a build and an install tree per build flag, or, when it does not
      depend on the build type, a single shared one. */
  datatype Layout = PerFlag | Shared

  /** What a package recipe provides: its name and version, its layout, the steps that
      prepare the source and the steps that build it, and its setup commands by shell. */
  datatype Recipe = Recipe(name: string, version: string, layout: Layout,
                           srcSteps: seq<Step>, buildSteps: seq<Step>,
                           setup: map<string, seq<string>>)

  /** The package's directories, its stamp file and its script file. */
  datatype Dirs = Dirs(base: Path, version: Path, source: Path, build: Path,
                       install: Path, stamp: Path, script: Path)

  const StampFileName: string := "step_stamp.json"
  const SharedInstall: string := "install"
  const SharedScript: string := "tmp.sh"

  /** The script file of a per-flag build directory. */
  function FlagScript(flag: string): string {
    "tmp-" + flag + ".sh"
  }

  /** The directories `set_config` derives. The version directory under the install
      prefix holds the source and the stamp file in both layouts; the per-flag layout
      installs into a directory named after the flag and builds in a directory per flag,
      the shared layout has one of each. */
  function DeriveDirs(layout: Layout, name: string, version: string, cfg: BuildConfig): (d: Dirs)
    ensures Under(d.source, cfg.installPrefix) && Under(d.stamp, cfg.installPrefix)
    ensures Under(d.install, cfg.installPrefix) && Under(d.build, cfg.buildPrefix)
    ensures Under(d.script, d.build) && Under(d.source, d.version) && Under(d.install, d.version)
    ensures d.source != d.stamp
    ensures d.base.parts == cfg.installPrefix.parts + [name]
    ensures d.version.parts == cfg.installPrefix.parts + [name, version]
    ensures d.source.parts == d.version.parts + ["src"] && d.stamp.parts == d.version.parts + [StampFileName]
    ensures d.install.parts == d.version.parts + [if layout == PerFlag then cfg.buildFlag else SharedInstall]
    ensures d.build.parts == cfg.buildPrefix.parts + [name, version] + (if layout == PerFlag then [cfg.buildFlag] else [])
    ensures d.script.parts == d.build.parts + [if layout == PerFlag then FlagScript(cfg.buildFlag) else SharedScript]
  {
    var base := Child(cfg.installPrefix, name);
    var vdir := Child(base, version);
    var pkgBuild := Child(Child(cfg.buildPrefix, name), version);
    var build := if layout == PerFlag then Child(pkgBuild, cfg.buildFlag) else pkgBuild;
    var install := Child(vdir, if layout == PerFlag then cfg.buildFlag else SharedInstall);
    var script := Child(build, if layout == PerFlag then FlagScript(cfg.buildFlag) else SharedScript);
    var d := Dirs(base, vdir, Child(vdir, "src"), build, install, Child(vdir, StampFileName), script);
    assert Under(cfg.installPrefix, cfg.installPrefix) && Under(cfg.buildPrefix, cfg.buildPrefix);
    UnderChild(cfg.installPrefix, cfg.installPrefix, name);
    UnderChild(base, cfg.installPrefix, version);
    UnderChild(vdir, cfg.installPrefix, "src");
    UnderChild(vdir, cfg.installPrefix, StampFileName);
    UnderChild(vdir, cfg.installPrefix, install.parts[|vdir.parts|]);
    UnderChild(cfg.buildPrefix, cfg.buildPrefix, name);
    UnderChild(Child(cfg.buildPrefix, name), cfg.buildPrefix, version);
    UnderChild(pkgBuild, cfg.buildPrefix, cfg.buildFlag);
    assert Under(build, build);
    UnderChild(build, build, script.parts[|build.parts|]);
    assert Under(vdir, vdir);
    UnderChild(vdir, vdir, "src");
    UnderChild(vdir, vdir, install.parts[|vdir.parts|]);
    ChildInjective(vdir, "src", vdir, StampFileName);
    assert vdir.parts == cfg.installPrefix.parts + [name, version];
    assert pkgBuild.parts == cfg.buildPrefix.parts + [name, version];
    d
  }

  /** The shared layout does not depend on the build flag. */
  lemma SharedDirsIgnoreFlag(name: string, version: string, cfg: BuildConfig, flag: string)
    ensures DeriveDirs(Shared, name, version, cfg.(buildFlag := flag)) == DeriveDirs(Shared, name, version, cfg)
  {
  }

  /** Under the per-flag layout two build flags get separate build, install and script
      locations, while the source and the stamp file are shared. */
  lemma PerFlagDirsSeparate(name: string, version: string, cfg: BuildConfig, flag: string)
    requires flag != cfg.buildFlag
    ensures var a := DeriveDirs(PerFlag, name, version, cfg);
            var b := DeriveDirs(PerFlag, name, version, cfg.(buildFlag := flag));
            && a.build != b.build && a.install != b.install && a.script != b.script
            && a.source == b.source && a.stamp == b.stamp
  {
    var a := DeriveDirs(PerFlag, name, version, cfg);
    var b := DeriveDirs(PerFlag, name, version, cfg.(buildFlag := flag));
    var pkgBuild := Child(Child(cfg.buildPrefix, name), version);
    ChildInjective(pkgBuild, cfg.buildFlag, pkgBuild, flag);
    ChildInjective(a.version, cfg.buildFlag, a.version, flag);
    ChildInjective(a.build, FlagScript(cfg.buildFlag), b.build, FlagScript(flag));
  }

  /** Two versions of a package never share a directory. */
  lemma VersionsSeparate(layout: Layout, name: string, v1: string, v2: string, cfg: BuildConfig)
    requires v1 != v2
    ensures var a := DeriveDirs(layout, name, v1, cfg);
            var b := DeriveDirs(layout, name, v2, cfg);
            && a.version != b.version && a.source != b.source && a.stamp != b.stamp
            && a.build != b.build && a.install != b.install
  {
    var a := DeriveDirs(layout, name, v1, cfg);
    var b := DeriveDirs(layout, name, v2, cfg);
    var base := Child(cfg.installPrefix, name);
    var pb := Child(cfg.buildPrefix, name);
    ChildInjective(base, v1, base, v2);
    ChildInjective(pb, v1, pb, v2);
    ChildInjective(a.version, "src", b.version, "src");
    ChildInjective(a.version, StampFileName, b.version, StampFileName);
    ChildInjective(a.version, a.install.parts[|a.version.parts|], b.version, b.install.parts[|b.version.parts|]);
    if layout == PerFlag {
      ChildInjective(Child(pb, v1), cfg.buildFlag, Child(pb, v2), cfg.buildFlag);
    }
  }

  /** What the stamp file holds when `set_config` looks for it. */
  datatype StampFile = Absent | Readable(table: Stamps) | Unreadable

  /** Loading the stamp table: a readable file replaces the table, an unreadable one is
      an error, and without a file the table already held is kept. */
  function LoadStamps(held: Stamps, file: StampFile): (r: Result<Stamps>)
    ensures r.Err? <==> file.Unreadable?
    ensures r.Err? ==> r.error == StampLoadFailed
    ensures r.Ok? ==> forall n :: Stamp(r.value, n) == Stamp(if file.Readable? then file.table else held, n)
  {
    match file
    case Absent => Ok(held)
    case Readable(t) => Ok(t)
    case Unreadable => Err(StampLoadFailed)
  }

  /** A configured package: its directories and its stamps. */
  datatype Configured = Configured(dirs: Dirs, stamps: Stamps)

  /** `set_config`. */
  function SetConfig(p: Recipe, cfg: BuildConfig, held: Stamps, file: StampFile): (r: Result<Configured>)
    ensures r.Err? <==> file.Unreadable?
    ensures r.Ok? ==> r.value.dirs == DeriveDirs(p.layout, p.name, p.version, cfg)
    ensures r.Ok? && file.Absent? ==> r.value.stamps == held
  {
    match LoadStamps(held, file)
    case Err(e) => Err(e)
    case Ok(st) => Ok(Configured(DeriveDirs(p.layout, p.name, p.version, cfg), st))
  }

  /** A package that was never built, configured without a stamp file, starts its source
      phase from the first step. */
  lemma FreshPackageStartsAtFirstStep(p: Recipe, cfg: BuildConfig)
    requires |p.srcSteps| >= 1
    ensures SetConfig(p, cfg, map[], Absent).Ok?
    ensures StartIndex(Names(p.srcSteps), SetConfig(p, cfg, map[], Absent).value.stamps) == Some(0)
  {
    StartIndexFresh(Names(p.srcSteps), map[]);
  }

  /** The check of the environment setup commands: their script is handed to the shell
      on its own, and nothing is stamped. */
  function CheckSetup(text: string, shell: Shell, s: RunState): (r: Run)
    ensures r.state == s.(scripts := s.scripts + [text])
    ensures r.outcome == Done <==> shell(|s.scripts|, text) == Success
    ensures r.outcome == Interrupted <==> shell(|s.scripts|, text) == Interrupt
  {
    var t := s.(scripts := s.scripts + [text]);
    match shell(|s.scripts|, text)
    case Success => Run(Done, t)
    case NonZero => Run(Failed, t)
    case Interrupt => Run(Interrupted, t)
  }

  /** The setup shell the build checks and the distribution script composes from. */
  const Sh: string := "sh"

  /** `_make`: prepare the directories (never attempted in a dry run), resume the source
      steps under their own names, then the build steps under flag-qualified names, and
      outside a dry run check the `sh` setup commands. A missing `sh` entry is an error. */
  function Make(p: Recipe, cfg: BuildConfig, mkdirOk: bool, env: seq<string>, shell: Shell, s: RunState): (r: Result<Run>)
    ensures cfg.dryRun ==> r == Ok(Run(Done, s))
    ensures !cfg.dryRun && !mkdirOk ==> r == Ok(Run(Failed, s))
    ensures r.Err? ==> r.error == MissingShell(Sh) && Sh !in p.setup && !cfg.dryRun
    ensures Sh in p.setup ==> r.Ok?
    ensures r.Ok? && r.value.outcome == Done && !cfg.dryRun ==>
              && Sh in p.setup && |r.value.state.scripts| > |s.scripts|
              && r.value.state.scripts[|r.value.state.scripts| - 1] == ScriptText(p.setup[Sh])
  {
    if !cfg.dryRun && !mkdirOk then Ok(Run(Failed, s))
    else
      var src := ExecSteps(env, p.srcSteps, false, cfg.buildFlag, cfg.dryRun, ScriptText, shell, s);
      if src.outcome != Done then Ok(src)
      else
        var bld := ExecSteps(env, p.buildSteps, true, cfg.buildFlag, cfg.dryRun, ScriptText, shell, src.state);
        if bld.outcome != Done then Ok(bld)
        else if cfg.dryRun then Ok(bld)
        else if Sh !in p.setup then Err(MissingShell(Sh))
        else
          ResumeAppends(env, p.srcSteps, false, ScriptText, shell, s);
          ResumeAppends(env, Qualify(cfg.buildFlag, p.buildSteps), false, ScriptText, shell, src.state);
          Ok(CheckSetup(ScriptText(p.setup[Sh]), shell, bld.state))
  }

  /** The source phase runs first: when it does not finish, the build is that phase's run
      and nothing more, so no script follows its last one and no name outside the source
      steps, in particular no build step, gets a new stamp. */
  lemma MakeStopsAfterSource(p: Recipe, cfg: BuildConfig, env: seq<string>, shell: Shell, s: RunState)
    requires !cfg.dryRun
    requires ExecSteps(env, p.srcSteps, false, cfg.buildFlag, false, ScriptText, shell, s).outcome != Done
    ensures var src := ExecSteps(env, p.srcSteps, false, cfg.buildFlag, false, ScriptText, shell, s);
            && Make(p, cfg, true, env, shell, s) == Ok(src)
            && forall n :: n !in Names(p.srcSteps) ==> Stamp(src.state.stamps, n) == Stamp(s.stamps, n)
  {
    forall n | n !in Names(p.srcSteps)
      ensures Stamp(ExecSteps(env, p.srcSteps, false, cfg.buildFlag, false, ScriptText, shell, s).state.stamps, n)
              == Stamp(s.stamps, n)
    {
      ResumeKeepsOthers(env, p.srcSteps, false, ScriptText, shell, s, n);
    }
  }

  /** When the source phase finishes, the build phase starts from the state it left: a
      build phase that stops is the build's result, and whatever follows only appends to
      the source phase's scripts and saves and leaves the stamps of source steps that are
      not also build steps as the source phase set them. */
  lemma MakeBuildsAfterSource(p: Recipe, cfg: BuildConfig, env: seq<string>, shell: Shell, s: RunState, n: string)
    requires !cfg.dryRun
    requires ExecSteps(env, p.srcSteps, false, cfg.buildFlag, false, ScriptText, shell, s).outcome == Done
    requires n !in Names(Qualify(cfg.buildFlag, p.buildSteps))
    ensures var src := ExecSteps(env, p.srcSteps, false, cfg.buildFlag, false, ScriptText, shell, s);
            var bld := ExecSteps(env, p.buildSteps, true, cfg.buildFlag, false, ScriptText, shell, src.state);
            var r := Make(p, cfg, true, env, shell, s);
            && (bld.outcome != Done ==> r == Ok(bld))
            && (r.Ok? ==> Extends(src.state, r.value.state)
                          && Stamp(r.value.state.stamps, n) == Stamp(src.state.stamps, n))
  {
    var src := ExecSteps(env, p.srcSteps, false, cfg.buildFlag, false, ScriptText, shell, s);
    var bld := ExecSteps(env, p.buildSteps, true, cfg.buildFlag, false, ScriptText, shell, src.state);
    ResumeAppends(env, Qualify(cfg.buildFlag, p.buildSteps), false, ScriptText, shell, src.state);
    ResumeKeepsOthers(env, Qualify(cfg.buildFlag, p.buildSteps), false, ScriptText, shell, src.state, n);
    if bld.outcome == Done && Sh in p.setup {
      var t := CheckSetup(ScriptText(p.setup[Sh]), shell, bld.state).state;
      assert Extends(bld.state, t);
      ExtendsTrans(src.state, bld.state, t);
    }
  }

  /** The step names a build of `p` under `flag` stamps. */
  function StepNames(p: Recipe, flag: string): (r: seq<string>)
    ensures forall n :: n in r <==> n in Names(p.srcSteps) || n in Names(Qualify(flag, p.buildSteps))
  {
    Names(p.srcSteps) + Names(Qualify(flag, p.buildSteps))
  }

  /** A build only appends to the scripts handed over and the tables saved. */
  lemma MakeAppends(p: Recipe, cfg: BuildConfig, mkdirOk: bool, env: seq<string>, shell: Shell, s: RunState)
    requires Make(p, cfg, mkdirOk, env, shell, s).Ok?
    ensures Extends(s, Make(p, cfg, mkdirOk, env, shell, s).value.state)
  {
    var t := Make(p, cfg, mkdirOk, env, shell, s).value.state;
    if !cfg.dryRun && mkdirOk {
      var src := ExecSteps(env, p.srcSteps, false, cfg.buildFlag, false, ScriptText, shell, s);
      ResumeAppends(env, p.srcSteps, false, ScriptText, shell, s);
      if src.outcome == Done {
        var bld := ExecSteps(env, p.buildSteps, true, cfg.buildFlag, false, ScriptText, shell, src.state);
        ResumeAppends(env, Qualify(cfg.buildFlag, p.buildSteps), false, ScriptText, shell, src.state);
        ExtendsTrans(s, src.state, bld.state);
        if bld.outcome == Done {
          assert Extends(bld.state, t);
          ExtendsTrans(s, bld.state, t);
        }
      }
    }
  }


  /** A build stamps only its own steps. */
  lemma MakeKeepsOthers(p: Recipe, cfg: BuildConfig, mkdirOk: bool, env: seq<string>, shell: Shell,
                        s: RunState, n: string)
    requires Make(p, cfg, mkdirOk, env, shell, s).Ok?
    requires n !in StepNames(p, cfg.buildFlag)
    ensures Stamp(Make(p, cfg, mkdirOk, env, shell, s).value.state.stamps, n) == Stamp(s.stamps, n)
  {
    if !cfg.dryRun && mkdirOk {
      var src := ExecSteps(env, p.srcSteps, false, cfg.buildFlag, false, ScriptText, shell, s);
      ResumeKeepsOthers(env, p.srcSteps, false, ScriptText, shell, s, n);
      if src.outcome == Done {
        ResumeKeepsOthers(env, Qualify(cfg.buildFlag, p.buildSteps), false, ScriptText, shell, src.state, n);
      }
    }
  }

  /** Building again straight after a build that finished runs no step: both phases are
      up to date and only the environment check is repeated, whatever the shell would
      answer to the steps. This needs distinct step names within each phase and no source
      step named like a qualified build step. */
  lemma MakeRerun(p: Recipe, cfg: BuildConfig, env: seq<string>, shell: Shell, shell': Shell, s: RunState)
    requires !cfg.dryRun
    requires Distinct(Names(p.srcSteps)) && Distinct(Names(p.buildSteps))
    requires forall n :: n in Names(p.srcSteps) ==> n !in Names(Qualify(cfg.buildFlag, p.buildSteps))
    requires ClockAhead(s.stamps, s.clock)
    requires Make(p, cfg, true, env, shell, s).Ok? && Make(p, cfg, true, env, shell, s).value.outcome == Done
    ensures var t := Make(p, cfg, true, env, shell, s).value.state;
            Make(p, cfg, true, env, shell', t) == Ok(CheckSetup(ScriptText(p.setup[Sh]), shell', t))
  {
    var flag := cfg.buildFlag;
    var src := ExecSteps(env, p.srcSteps, false, flag, false, ScriptText, shell, s);
    ExecStepsRerun(env, p.srcSteps, false, flag, ScriptText, shell, shell', s);
    var bld := ExecSteps(env, p.buildSteps, true, flag, false, ScriptText, shell, src.state);
    ExecStepsRerun(env, p.buildSteps, true, flag, ScriptText, shell, shell', src.state);
    var t := Make(p, cfg, true, env, shell, s).value.state;
    assert t.stamps == bld.state.stamps;
    var srcNames := Names(p.srcSteps);
    forall i | 0 <= i < |srcNames| ensures Stamp(t.stamps, srcNames[i]) == Stamp(src.state.stamps, srcNames[i]) {
      ResumeKeepsOthers(env, Qualify(flag, p.buildSteps), false, ScriptText, shell, src.state, srcNames[i]);
    }
    StartIndexSameStamps(srcNames, src.state.stamps, t.stamps);
    StartIndexSameStamps(Names(Qualify(flag, p.buildSteps)), bld.state.stamps, t.stamps);
  }

  /** A shared-layout recipe without build steps, which is what a shared-layout package
      has by default, builds alike whatever the build flag. */
  lemma NoBuildStepsIgnoreFlag(p: Recipe, cfg: BuildConfig, flag: string, mkdirOk: bool,
                               env: seq<string>, shell: Shell, s: RunState)
    requires p.layout == Shared && p.buildSteps == []
    ensures Make(p, cfg.(buildFlag := flag), mkdirOk, env, shell, s) == Make(p, cfg, mkdirOk, env, shell, s)
  {
    assert Qualify(flag, []) == [] && Qualify(cfg.buildFlag, []) == [];
  }
}

=== FILE: paths.dfy ===
/** Abstract file-system paths. A path is its list of components; `p / name` appends one
    component and a path is rendered by joining its components with '/'. Resolving a path
    against the working directory is the identity here. */
module Paths {
  import opened Common

  datatype Path = Path(parts: seq<string>)

  /** `p / name` for a single component `name`. */
  function Child(p: Path, name: string): (r: Path)
    ensures |r.parts| == |p.parts| + 1 && r.parts[|p.parts|] == name
  {
    Path(p.parts + [name])
  }

  /** The parent of `p / name` is `p` again and its last component is `name`. */
  function Parent(p: Path): Path
    requires p.parts != []
  {
    Path(p.parts[..|p.parts| - 1])
  }

  function Render(p: Path): string {
    Join(p.parts, "/")
  }

  /** Appending a component loses nothing: both the parent and the name can be read
      back, so two children are equal only when parents and names agree. */
  lemma ChildInjective(p: Path, a: string, q: Path, b: string)
    ensures Child(p, a) == Child(q, b) <==> p == q && a == b
    ensures Parent(Child(p, a)) == p
  {
    if Child(p, a) == Child(q, b) {
      assert p.parts == Child(p, a).parts[..|p.parts|];
      assert q.parts == Child(q, b).parts[..|q.parts|];
    }
    assert Child(p, a).parts[..|p.parts|] == p.parts;
  }

  /** `p` is `root` or lies below it. */
  predicate Under(p: Path, root: Path) {
    |root.parts| <= |p.parts| && p.parts[..|root.parts|] == root.parts
  }

  lemma UnderChild(p: Path, root: Path, name: string)
    requires Under(p, root)
    ensures Under(Child(p, name), root)
  {
    assert Child(p, name).parts[..|root.parts|] == p.parts[..|root.parts|];
  }

  /** Splits `s` at every `sep`, like Python's `str.split(sep)`. */
  function Split(s: string, sep: char): (r: seq<string>)
    ensures |r| >= 1
    ensures forall i :: 0 <= i < |r| ==> sep !in r[i]
  {
    if s == [] then [""]
    else
      var rest := Split(s[1..], sep);
      if s[0] == sep then [""] + rest else [[s[0]] + rest[0]] + rest[1..]
  }

  lemma {:induction false} SplitAppend(a: string, sep: char, f: string)
    requires sep !in f
    ensures Split(a + [sep] + f, sep) == Split(a, sep)[..|Split(a, sep)| - 1]
                                       + [Split(a, sep)[|Split(a, sep)| - 1], f]
  {
    if a == [] {
      assert [sep] + f == a + [sep] + f;
      SplitNoSep(f, sep);
    } else {
      assert (a + [sep] + f)[1..] == a[1..] + [sep] + f;
      SplitAppend(a[1..], sep, f);
    }
  }

  lemma {:induction false} SplitNoSep(f: string, sep: char)
    requires sep !in f
    ensures Split(f, sep) == [f]
  {
    if f != [] {
      SplitNoSep(f[1..], sep);
      assert [f[0]] + f[1..] == f;
    }
  }

  /** Text without the separator, then the separator: the first piece is that text and
      the rest is the split of what follows. */
  lemma {:induction false} SplitAfter(x: string, sep: char, t: string)
    requires sep !in x
    ensures Split(x + [sep] + t, sep) == [x] + Split(t, sep)
  {
    if x != [] {
      assert (x + [sep] + t)[1..] == x[1..] + [sep] + t;
      SplitAfter(x[1..], sep, t);
      assert [x[0]] + x[1..] == x;
    } else {
      assert x + [sep] + t == [sep] + t;
      assert ([sep] + t)[1..] == t;
    }
  }

  /** Splitting undoes joining with a one-character separator that no part contains. */
  lemma {:induction false} SplitJoin(parts: seq<string>, sep: char)
    requires parts != [] && forall i :: 0 <= i < |parts| ==> sep !in parts[i]
    ensures Split(Join(parts, [sep]), sep) == parts
  {
    if |parts| == 1 {
      SplitNoSep(parts[0], sep);
    } else {
      SplitJoin(parts[1..], sep);
      SplitAfter(parts[0], sep, Join(parts[1..], [sep]));
      assert [parts[0]] + parts[1..] == parts;
    }
  }

  /** `Path(s).name`: the last component of `s` once empty and "." components are
      dropped, or "" when there is none. */
  function Name(s: string): (r: string)
    ensures '/' !in r
  {
    var parts := Filter(Split(s, '/'), (c: string) => c != "" && c != ".");
    if parts == [] then "" else
      assert parts[|parts| - 1] in Split(s, '/');
      parts[|parts| - 1]
  }

  /** The file name of a URL or path whose last segment is a proper file name is that
      segment, whatever comes before it. */
  lemma NameOfLastSegment(dir: string, f: string)
    requires '/' !in f && f != "" && f != "."
    ensures Name(dir + "/" + f) == f
  {
    var keep := (c: string) => c != "" && c != ".";
    var sp := Split(dir, '/');
    SplitAppend(dir, '/', f);
    assert Split(dir + "/" + f, '/') == sp[..|sp| - 1] + [sp[|sp| - 1]] + [f];
    FilterAppend(sp[..|sp| - 1] + [sp[|sp| - 1]], [f], keep);
    assert Filter([f], keep) == [f];
  }
}

=== FILE: selection.dfy ===
/** Step resumption: given the ordered names of a package's steps and the completion time
    recorded for each, which step must a build start from? A step whose recorded time is 0
    never completed, and a step that completed before its predecessor is stale. */
module Selection {
  import opened Common

  /** Completion times by step name. A name without an entry reads as 0, "never done". */
  type Stamps = map<string, nat>

  function Stamp(st: Stamps, name: string): nat {
    if name in st then st[name] else 0
  }

  /** Step `i` is done and not newer than step `i + 1`: the scan moves past it. */
  predicate InOrder(names: seq<string>, st: Stamps, i: nat)
    requires i + 1 < |names|
  {
    Stamp(st, names[i]) != 0 && Stamp(st, names[i]) <= Stamp(st, names[i + 1])
  }

  /** Every step of a list of two or more is in order: nothing needs rebuilding. */
  predicate AllInOrder(names: seq<string>, st: Stamps) {
    forall i :: 0 <= i < |names| - 1 ==> InOrder(names, st, i)
  }

  /** `j` is the first position where the scan stops. */
  predicate FirstOutOfOrder(names: seq<string>, st: Stamps, j: nat) {
    && j + 1 < |names|
    && !InOrder(names, st, j)
    && forall i :: 0 <= i < j ==> InOrder(names, st, i)
  }

  /** Where a stop at `j` resumes: at `j` itself when it never completed, otherwise at
      its successor, which is older than it. */
  function ResumeAt(names: seq<string>, st: Stamps, j: nat): nat
    requires j < |names|
  {
    if Stamp(st, names[j]) == 0 then j else j + 1
  }

  /** The scan of the package's step executor from position `i` on: it looks at each
      step but the last, stopping at the first that never completed or is newer than
      its successor. */
  function ScanFrom(names: seq<string>, st: Stamps, i: nat): (r: Option<nat>)
    requires forall h :: 0 <= h < i && h + 1 < |names| ==> InOrder(names, st, h)
    ensures r == None <==> AllInOrder(names, st)
    ensures forall j :: i <= j && FirstOutOfOrder(names, st, j) ==> r == Some(ResumeAt(names, st, j))
    ensures r.Some? ==> r.value < |names|
    decreases |names| - i
  {
    if i + 1 >= |names| then None
    else if Stamp(st, names[i]) == 0 then
      assert FirstOutOfOrder(names, st, i);
      Some(i)
    else if Stamp(st, names[i]) > Stamp(st, names[i + 1]) then
      assert FirstOutOfOrder(names, st, i);
      Some(i + 1)
    else
      ScanFrom(names, st, i + 1)
  }

  /** A list that is not all in order has a first position out of order. */
  lemma {:induction false} FirstOutOfOrderExists(names: seq<string>, st: Stamps, i: nat)
    requires forall h :: 0 <= h < i && h + 1 < |names| ==> InOrder(names, st, h)
    requires !AllInOrder(names, st)
    ensures exists j :: i <= j && FirstOutOfOrder(names, st, j)
    decreases |names| - i
  {
    if i + 1 < |names| && !InOrder(names, st, i) {
      assert FirstOutOfOrder(names, st, i);
    } else {
      FirstOutOfOrderExists(names, st, i + 1);
    }
  }

  /** The step the current package executor starts from, or None when every step is up to
      date. A single step is rerun exactly when it never completed; an empty list has
      nothing to run. */
  function StartIndex(names: seq<string>, st: Stamps): (r: Option<nat>)
    ensures |names| == 0 ==> r == None
    ensures |names| == 1 ==> (r == None <==> Stamp(st, names[0]) != 0)
    ensures |names| >= 2 ==> (r == None <==> AllInOrder(names, st))
    ensures forall j :: FirstOutOfOrder(names, st, j) ==> r == Some(ResumeAt(names, st, j))
    ensures r.Some? ==> r.value < |names|
  {
    if |names| == 1 && Stamp(st, names[0]) == 0 then Some(0) else ScanFrom(names, st, 0)
  }

  /** Every step before the chosen start has completed, in order, and the start itself
      either never completed or completed before the step preceding it. */
  lemma StartIndexMeaning(names: seq<string>, st: Stamps)
    requires StartIndex(names, st).Some?
    ensures var k := StartIndex(names, st).value;
            && (forall i :: 0 <= i < k ==> Stamp(st, names[i]) != 0)
            && (forall i :: 0 <= i && i + 1 < k ==> InOrder(names, st, i))
            && (Stamp(st, names[k]) == 0 || (k > 0 && Stamp(st, names[k - 1]) > Stamp(st, names[k])))
  {
    if |names| >= 2 {
      FirstOutOfOrderExists(names, st, 0);
      var j: nat :| FirstOutOfOrder(names, st, j);
      var k := ResumeAt(names, st, j);
      forall i | 0 <= i && i + 1 < k
        ensures InOrder(names, st, i)
      {
      }
      forall i | 0 <= i < k
        ensures Stamp(st, names[i]) != 0
      {
        if i < j {
          assert InOrder(names, st, i);
        }
      }
    }
  }

  /** The start depends only on the stamps of the steps up to and including it. */
  lemma StartIndexIgnoresLater(names: seq<string>, st: Stamps, st': Stamps)
    requires StartIndex(names, st).Some?
    requires forall i :: 0 <= i <= StartIndex(names, st).value ==> Stamp(st, names[i]) == Stamp(st', names[i])
    ensures StartIndex(names, st') == StartIndex(names, st)
  {
    if |names| >= 2 {
      FirstOutOfOrderExists(names, st, 0);
      var j: nat :| FirstOutOfOrder(names, st, j);
      var k := ResumeAt(names, st, j);
      assert StartIndex(names, st) == Some(k);
      forall i | 0 <= i <= j
        ensures Stamp(st', names[i]) == Stamp(st, names[i])
      {
      }
      assert Stamp(st, names[j]) != 0 ==> Stamp(st', names[j + 1]) == Stamp(st, names[j + 1]);
      forall i | 0 <= i < j
        ensures InOrder(names, st', i)
      {
        assert InOrder(names, st, i);
        assert Stamp(st', names[i + 1]) == Stamp(st, names[i + 1]);
      }
      assert FirstOutOfOrder(names, st', j);
    }
  }

  /** The start depends only on the stamps of the listed steps. */
  lemma StartIndexSameStamps(names: seq<string>, st: Stamps, st': Stamps)
    requires forall i :: 0 <= i < |names| ==> Stamp(st, names[i]) == Stamp(st', names[i])
    ensures StartIndex(names, st') == StartIndex(names, st)
  {
    forall i | 0 <= i && i + 1 < |names| ensures InOrder(names, st, i) == InOrder(names, st', i) {
      assert Stamp(st, names[i + 1]) == Stamp(st', names[i + 1]);
    }
    if |names| >= 2 && !AllInOrder(names, st) {
      FirstOutOfOrderExists(names, st, 0);
      var j: nat :| FirstOutOfOrder(names, st, j);
      assert FirstOutOfOrder(names, st', j);
    }
  }

  /** With nothing recorded, a build starts at the first step. */
  lemma StartIndexFresh(names: seq<string>, st: Stamps)
    requires |names| >= 1
    requires forall i :: 0 <= i < |names| ==> Stamp(st, names[i]) == 0
    ensures StartIndex(names, st) == Some(0)
  {
    if |names| >= 2 {
      assert FirstOutOfOrder(names, st, 0);
    }
  }

  /** A source that was re-extracted after it was downloaded, then never built: the
      download stamp is newer than the extract stamp, so the scan restarts at extract. */
  lemma StartIndexExample()
    ensures StartIndex(["download", "extract", "build"], map["download" := 100, "extract" := 50]) == Some(1)
  {
    var names := ["download", "extract", "build"];
    var st := map["download" := 100, "extract" := 50];
    assert Stamp(st, names[0]) == 100 && Stamp(st, names[1]) == 50;
    assert FirstOutOfOrder(names, st, 0);
  }

  /** The older packages' scan: every step but the last is checked as above, then the last
      step is rerun when it never completed. It is only ever applied to a non-empty list. */
  function LegacyScanFrom(names: seq<string>, st: Stamps, i: nat): (r: Option<nat>)
    requires i < |names|
    ensures r.Some? ==> i <= r.value < |names|
    ensures r.None? ==> forall h :: i <= h < |names| ==> Stamp(st, names[h]) != 0
    decreases |names| - i
  {
    if i == |names| - 1 then (if Stamp(st, names[i]) == 0 then Some(i) else None)
    else if Stamp(st, names[i]) == 0 then Some(i)
    else if Stamp(st, names[i]) > Stamp(st, names[i + 1]) then Some(i + 1)
    else LegacyScanFrom(names, st, i + 1)
  }

  function LegacyStartIndex(names: seq<string>, st: Stamps): (r: Option<nat>)
    requires |names| >= 1
    ensures r.Some? ==> r.value < |names|
    ensures r.None? ==> forall h :: 0 <= h < |names| ==> Stamp(st, names[h]) != 0
  {
    LegacyScanFrom(names, st, 0)
  }

  lemma {:induction false} LegacyScanAgrees(names: seq<string>, st: Stamps, i: nat)
    requires 1 <= i < |names|
    requires forall h :: 0 <= h < i ==> InOrder(names, st, h)
    ensures LegacyScanFrom(names, st, i) == ScanFrom(names, st, i)
    decreases |names| - i
  {
    assert InOrder(names, st, i - 1);
    if i < |names| - 1 && Stamp(st, names[i]) != 0 && Stamp(st, names[i]) <= Stamp(st, names[i + 1]) {
      LegacyScanAgrees(names, st, i + 1);
    }
  }

  /** The older scan, with its separate check of the last step, chooses the same start as
      the current one on every non-empty list: a last step that never completed is
      already caught as older than its completed predecessor. */
  lemma LegacyStartIndexAgrees(names: seq<string>, st: Stamps)
    requires |names| >= 1
    ensures LegacyStartIndex(names, st) == StartIndex(names, st)
  {
    if |names| >= 2 && Stamp(st, names[0]) != 0 && Stamp(st, names[0]) <= Stamp(st, names[1]) {
      LegacyScanAgrees(names, st, 1);
    }
  }
}

=== FILE: steps.dfy ===
/** Running a package's steps: pick the start from the recorded stamps, then run each
    step's commands in turn, stamping and saving after every success and stopping at the
    first failure. The shell is an oracle: it is handed the n-th script of the run and
    answers with its exit. */
module Steps {
  import opened Common
  import opened Selection
  import opened Commands

  /** A named step and the shell commands it runs. */
  datatype Step = Step(name: string, cmds: seq<string>)

  function Names(steps: seq<Step>): (r: seq<string>)
    ensures |r| == |steps| && forall i :: 0 <= i < |steps| ==> r[i] == steps[i].name
  {
    if steps == [] then [] else [steps[0].name] + Names(steps[1..])
  }

  /** Build-phase steps are keyed by the build flag, `flag-name`, so that builds for
      different flags keep separate stamps. */
  function Qualify(flag: string, steps: seq<Step>): (r: seq<Step>)
    ensures |r| == |steps|
    ensures forall i :: 0 <= i < |steps| ==> r[i] == Step(flag + "-" + steps[i].name, steps[i].cmds)
  {
    if steps == [] then [] else [Step(flag + "-" + steps[0].name, steps[0].cmds)] + Qualify(flag, steps[1..])
  }

  /** Qualifying keeps distinct step names distinct. */
  lemma QualifyDistinct(flag: string, steps: seq<Step>)
    requires Distinct(Names(steps))
    ensures Distinct(Names(Qualify(flag, steps)))
  {
    var q := Qualify(flag, steps);
    forall i, j | 0 <= i < j < |q| ensures Names(q)[i] != Names(q)[j] {
      var p := flag + "-";
      assert Names(q)[i] == p + steps[i].name && Names(q)[j] == p + steps[j].name;
      assert steps[i].name == Names(q)[i][|p|..];
      assert steps[j].name == Names(q)[j][|p|..];
      assert Names(steps)[i] != Names(steps)[j];
    }
  }

  /** How the shell answered a script. */
  datatype Exit = Success | NonZero | Interrupt

  /** The shell: the exit of the n-th script handed to it (numbered from 0 over the
      whole session), given the script text. */
  type Shell = (nat, string) -> Exit

  /** How a run of steps ended. */
  datatype Outcome = Done | Failed | Interrupted

  /** What a run changes: the stamps, the clock that stamps successes, the scripts
      handed to the shell, and every stamp table written to the stamp file. */
  datatype RunState = RunState(stamps: Stamps, clock: nat, scripts: seq<string>, saves: seq<Stamps>)

  datatype Run = Run(outcome: Outcome, state: RunState)

  /** The state after a step whose script `text` the shell accepted: the step is stamped
      with the next clock tick and the whole table is saved. */
  function Advance(s: RunState, name: string, text: string): RunState {
    var stamps := s.stamps[name := s.clock + 1];
    RunState(stamps, s.clock + 1, s.scripts + [text], s.saves + [stamps])
  }

  /** Runs `steps` in order. Each step's script is rendered from the environment
      commands followed by the step's own; on success the state advances, otherwise the
      run stops there. */
  function RunSteps(env: seq<string>, steps: seq<Step>, render: seq<string> -> string,
                    shell: Shell, s: RunState): (r: Run)
    ensures r.outcome == Done ==> r.state.clock == s.clock + |steps| && |r.state.scripts| == |s.scripts| + |steps|
    ensures r.outcome != Done ==> steps != [] && |r.state.scripts| > |s.scripts|
    decreases |steps|
  {
    if steps == [] then Run(Done, s)
    else
      var text := render(env + steps[0].cmds);
      match shell(|s.scripts|, text)
      case Success => RunSteps(env, steps[1..], render, shell, Advance(s, steps[0].name, text))
      case NonZero => Run(Failed, s.(scripts := s.scripts + [text]))
      case Interrupt => Run(Interrupted, s.(scripts := s.scripts + [text]))
  }

  /** How many leading steps the shell accepts when their scripts are numbered from
      `base`. */
  function Accepted(env: seq<string>, steps: seq<Step>, render: seq<string> -> string,
                    shell: Shell, base: nat): (k: nat)
    ensures k <= |steps|
    decreases |steps|
  {
    if steps == [] || shell(base, render(env + steps[0].cmds)) != Success then 0
    else 1 + Accepted(env, steps[1..], render, shell, base + 1)
  }

  /** The accepted steps are a maximal prefix: the shell accepts every script before
      that count and refuses the next one, if any. */
  lemma {:induction false} AcceptedMeaning(env: seq<string>, steps: seq<Step>, render: seq<string> -> string,
                                           shell: Shell, base: nat)
    ensures var k := Accepted(env, steps, render, shell, base);
            && (forall i :: 0 <= i < k ==> shell(base + i, render(env + steps[i].cmds)) == Success)
            && (k < |steps| ==> shell(base + k, render(env + steps[k].cmds)) != Success)
    decreases |steps|
  {
    if steps != [] && shell(base, render(env + steps[0].cmds)) == Success {
      var rest := steps[1..];
      AcceptedMeaning(env, rest, render, shell, base + 1);
      var k1 := Accepted(env, rest, render, shell, base + 1);
      forall i | 1 <= i < 1 + k1
        ensures shell(base + i, render(env + steps[i].cmds)) == Success
      {
        assert steps[i] == rest[i - 1];
        assert base + i == (base + 1) + (i - 1);
      }
      if k1 < |rest| {
        assert steps[k1 + 1] == rest[k1];
      }
    }
  }

  /** The scripts `steps` render to. */
  function Scripts(env: seq<string>, steps: seq<Step>, render: seq<string> -> string): (r: seq<string>)
    ensures |r| == |steps| && forall i :: 0 <= i < |steps| ==> r[i] == render(env + steps[i].cmds)
  {
    if steps == [] then [] else [render(env + steps[0].cmds)] + Scripts(env, steps[1..], render)
  }

  /** The exit that ends a run that did not finish. */
  function Refusal(o: Outcome): Exit {
    if o == Interrupted then Interrupt else NonZero
  }

  /** How many scripts a run hands to the shell: the accepted ones, plus the refused one
      when the run stopped early. */
  function Tried(o: Outcome, k: nat): nat {
    if o == Done then k else k + 1
  }

  /** Each accepted step ticks the clock once and saves the stamp table once. */
  lemma {:induction false} RunStepsTicks(env: seq<string>, steps: seq<Step>, render: seq<string> -> string,
                                         shell: Shell, s: RunState)
    ensures var r := RunSteps(env, steps, render, shell, s);
            var k := Accepted(env, steps, render, shell, |s.scripts|);
            r.state.clock == s.clock + k && |r.state.saves| == |s.saves| + k
    decreases |steps|
  {
    if steps != [] {
      var text := render(env + steps[0].cmds);
      if shell(|s.scripts|, text) == Success {
        var s1 := Advance(s, steps[0].name, text);
        RunStepsTicks(env, steps[1..], render, shell, s1);
      }
    }
  }

  /** A run finishes exactly when every step is accepted, and hands the shell one script
      per accepted step plus the refused one when it stops early. */
  lemma {:induction false} RunStepsTried(env: seq<string>, steps: seq<Step>, render: seq<string> -> string,
                                         shell: Shell, s: RunState)
    ensures var r := RunSteps(env, steps, render, shell, s);
            var k := Accepted(env, steps, render, shell, |s.scripts|);
            && (r.outcome == Done <==> k == |steps|)
            && |r.state.scripts| == |s.scripts| + Tried(r.outcome, k)
    decreases |steps|
  {
    if steps != [] {
      var text := render(env + steps[0].cmds);
      if shell(|s.scripts|, text) == Success {
        var s1 := Advance(s, steps[0].name, text);
        RunStepsTried(env, steps[1..], render, shell, s1);
      }
    }
  }

  /** A run finishes exactly when the shell accepts every step; it then ticks the clock
      and saves once per accepted step, and when it stops early it stops for the reason
      the refused script gave. */
  lemma RunStepsCount(env: seq<string>, steps: seq<Step>, render: seq<string> -> string,
                      shell: Shell, s: RunState)
    ensures var r := RunSteps(env, steps, render, shell, s);
            var k := Accepted(env, steps, render, shell, |s.scripts|);
            && r.state.clock == s.clock + k
            && (r.outcome == Done <==> k == |steps|)
            && |r.state.saves| == |s.saves| + k
            && |r.state.scripts| == |s.scripts| + Tried(r.outcome, k)
  {
    RunStepsTicks(env, steps, render, shell, s);
    RunStepsTried(env, steps, render, shell, s);
  }

  /** A run that stops early stops at the first script the shell refuses, for the reason
      the shell gave. */
  lemma {:induction false} RunStepsRefusal(env: seq<string>, steps: seq<Step>, render: seq<string> -> string,
                                           shell: Shell, s: RunState)
    ensures var r := RunSteps(env, steps, render, shell, s);
            var k := Accepted(env, steps, render, shell, |s.scripts|);
            r.outcome != Done ==>
              k < |steps| && shell(|s.scripts| + k, render(env + steps[k].cmds)) == Refusal(r.outcome)
    decreases |steps|
  {
    if steps != [] {
      var text := render(env + steps[0].cmds);
      if shell(|s.scripts|, text) == Success {
        var s1 := Advance(s, steps[0].name, text);
        var rest := steps[1..];
        RunStepsRefusal(env, rest, render, shell, s1);
        var k1 := Accepted(env, rest, render, shell, |s1.scripts|);
        if k1 < |rest| {
          assert steps[k1 + 1] == rest[k1];
          assert |s.scripts| + (k1 + 1) == |s1.scripts| + k1;
        }
      }
    }
  }

  /** `t` carries on from `s`: the scripts handed over and the tables saved in `s` are
      still there, in order, at the front. */
  predicate Extends(s: RunState, t: RunState) {
    && |t.scripts| >= |s.scripts| && t.scripts[..|s.scripts|] == s.scripts
    && |t.saves| >= |s.saves| && t.saves[..|s.saves|] == s.saves
  }

  lemma ExtendsTrans(a: RunState, b: RunState, c: RunState)
    requires Extends(a, b) && Extends(b, c)
    ensures Extends(a, c)
  {
    assert c.scripts[..|a.scripts|] == c.scripts[..|b.scripts|][..|a.scripts|];
    assert c.saves[..|a.saves|] == c.saves[..|b.saves|][..|a.saves|];
  }

  /** A run only appends: the scripts handed over earlier and the tables saved earlier
      stay as they were. */
  lemma {:induction false} RunStepsAppends(env: seq<string>, steps: seq<Step>, render: seq<string> -> string,
                                           shell: Shell, s: RunState)
    ensures Extends(s, RunSteps(env, steps, render, shell, s).state)
    decreases |steps|
  {
    if steps != [] {
      var text := render(env + steps[0].cmds);
      if shell(|s.scripts|, text) == Success {
        var s1 := Advance(s, steps[0].name, text);
        RunStepsAppends(env, steps[1..], render, shell, s1);
        assert Extends(s, s1);
        ExtendsTrans(s, s1, RunSteps(env, steps[1..], render, shell, s1).state);
      }
    }
  }

  /** From position `base` on, `scripts` holds the scripts of the first `m` steps. */
  predicate ScriptsFrom(scripts: seq<string>, base: nat, env: seq<string>, steps: seq<Step>,
                        render: seq<string> -> string, m: nat) {
    && m <= |steps| && base + m <= |scripts|
    && forall i :: 0 <= i < m ==> scripts[base + i] == render(env + steps[i].cmds)
  }

  /** The first step's script followed by the scripts of the rest. */
  lemma ScriptsFromCons(scripts: seq<string>, base: nat, env: seq<string>, steps: seq<Step>,
                        render: seq<string> -> string, m: nat)
    requires steps != [] && base < |scripts| && scripts[base] == render(env + steps[0].cmds)
    requires ScriptsFrom(scripts, base + 1, env, steps[1..], render, m)
    ensures ScriptsFrom(scripts, base, env, steps, render, m + 1)
  {
    forall i | 1 <= i < m + 1 ensures scripts[base + i] == render(env + steps[i].cmds) {
      assert steps[i] == steps[1..][i - 1];
      assert base + i == (base + 1) + (i - 1);
    }
  }

  /** A run hands the shell exactly the scripts of the steps it tried, in order, after the
      earlier ones. */
  lemma {:induction false} RunStepsScripts(env: seq<string>, steps: seq<Step>, render: seq<string> -> string,
                                           shell: Shell, s: RunState)
    ensures var r := RunSteps(env, steps, render, shell, s);
            var m := Tried(r.outcome, Accepted(env, steps, render, shell, |s.scripts|));
            |r.state.scripts| == |s.scripts| + m && ScriptsFrom(r.state.scripts, |s.scripts|, env, steps, render, m)
    decreases |steps|
  {
    RunStepsTried(env, steps, render, shell, s);
    if steps != [] {
      var text := render(env + steps[0].cmds);
      if shell(|s.scripts|, text) == Success {
        var s1 := Advance(s, steps[0].name, text);
        var rest := steps[1..];
        RunStepsScripts(env, rest, render, shell, s1);
        RunStepsAppends(env, rest, render, shell, s1);
        var t := RunSteps(env, rest, render, shell, s1).state;
        var m := Tried(RunSteps(env, rest, render, shell, s1).outcome, Accepted(env, rest, render, shell, |s1.scripts|));
        assert t.scripts[|s.scripts|] == t.scripts[..|s1.scripts|][|s.scripts|];
        ScriptsFromCons(t.scripts, |s.scripts|, env, steps, render, m);
      }
    }
  }

  /** Every name outside the accepted steps keeps its stamp. */
  lemma {:induction false} RunStepsKeepsOthers(env: seq<string>, steps: seq<Step>, render: seq<string> -> string,
                                               shell: Shell, s: RunState, n: string)
    requires forall i :: 0 <= i < Accepted(env, steps, render, shell, |s.scripts|) ==> steps[i].name != n
    ensures Stamp(RunSteps(env, steps, render, shell, s).state.stamps, n) == Stamp(s.stamps, n)
    decreases |steps|
  {
    if steps != [] {
      var text := render(env + steps[0].cmds);
      if shell(|s.scripts|, text) == Success {
        var s1 := Advance(s, steps[0].name, text);
        var rest := steps[1..];
        assert steps[0].name != n;
        forall i | 0 <= i < Accepted(env, rest, render, shell, |s1.scripts|) ensures rest[i].name != n {
          assert rest[i] == steps[i + 1];
        }
        RunStepsKeepsOthers(env, rest, render, shell, s1, n);
      }
    }
  }

  /** Every accepted step is stamped later than the clock read before the run, and the
      last table saved is the final one. */
  lemma {:induction false} RunStepsStampsLater(env: seq<string>, steps: seq<Step>, render: seq<string> -> string,
                                               shell: Shell, s: RunState)
    ensures var r := RunSteps(env, steps, render, shell, s);
            var k := Accepted(env, steps, render, shell, |s.scripts|);
            && (forall i :: 0 <= i < k ==> Stamp(r.state.stamps, steps[i].name) > s.clock)
            && (k > 0 ==> |r.state.saves| > 0 && r.state.saves[|r.state.saves| - 1] == r.state.stamps)
    decreases |steps|
  {
    if steps != [] {
      var text := render(env + steps[0].cmds);
      if shell(|s.scripts|, text) == Success {
        var s1 := Advance(s, steps[0].name, text);
        var rest := steps[1..];
        RunStepsStampsLater(env, rest, render, shell, s1);
        var r := RunSteps(env, rest, render, shell, s1);
        var k1 := Accepted(env, rest, render, shell, |s1.scripts|);
        if k1 == 0 {
          assert r.state.stamps == s1.stamps && r.state.saves == s1.saves;
        }
        forall i | 0 <= i < k1 + 1
          ensures Stamp(r.state.stamps, steps[i].name) > s.clock
        {
          if i > 0 {
            assert steps[i] == rest[i - 1];
          } else if exists h :: 0 <= h < k1 && rest[h].name == steps[0].name {
            var h :| 0 <= h < k1 && rest[h].name == steps[0].name;
          } else {
            RunStepsKeepsOthers(env, rest, render, shell, s1, steps[0].name);
          }
        }
      }
    }
  }

  /** With distinct step names, the `i`-th accepted step is stamped with the old clock
      plus `i + 1`. */
  lemma {:induction false} RunStepsStampsDistinct(env: seq<string>, steps: seq<Step>, render: seq<string> -> string,
                                                  shell: Shell, s: RunState)
    requires Distinct(Names(steps))
    ensures var r := RunSteps(env, steps, render, shell, s);
            forall i :: 0 <= i < Accepted(env, steps, render, shell, |s.scripts|) ==>
              Stamp(r.state.stamps, steps[i].name) == s.clock + i + 1
    decreases |steps|
  {
    if steps != [] {
      var text := render(env + steps[0].cmds);
      if shell(|s.scripts|, text) == Success {
        var s1 := Advance(s, steps[0].name, text);
        var rest := steps[1..];
        assert Distinct(Names(rest)) by {
          forall a, b | 0 <= a < b < |rest| ensures Names(rest)[a] != Names(rest)[b] {
            assert Names(steps)[a + 1] != Names(steps)[b + 1];
          }
        }
        RunStepsStampsDistinct(env, rest, render, shell, s1);
        var k1 := Accepted(env, rest, render, shell, |s1.scripts|);
        forall h | 0 <= h < k1 ensures rest[h].name != steps[0].name {
          assert Names(steps)[0] != Names(steps)[h + 1];
        }
        RunStepsKeepsOthers(env, rest, render, shell, s1, steps[0].name);
        forall i | 1 <= i < k1 + 1
          ensures steps[i] == rest[i - 1]
        {
        }
      }
    }
  }

  /** The clock is not behind any recorded stamp. */
  predicate ClockAhead(st: Stamps, clock: nat) {
    forall n :: n in st ==> st[n] <= clock
  }

  /** A run keeps the clock ahead of the stamps: each success is stamped with the tick
      the clock advances to. */
  lemma {:induction false} RunStepsClockAhead(env: seq<string>, steps: seq<Step>, render: seq<string> -> string,
                                              shell: Shell, s: RunState)
    requires ClockAhead(s.stamps, s.clock)
    ensures var t := RunSteps(env, steps, render, shell, s).state; ClockAhead(t.stamps, t.clock)
    decreases |steps|
  {
    if steps != [] {
      var text := render(env + steps[0].cmds);
      if shell(|s.scripts|, text) == Success {
        RunStepsClockAhead(env, steps[1..], render, shell, Advance(s, steps[0].name, text));
      }
    }
  }

  /** Picks the start from the stamps and, unless everything is up to date or this is
      a dry run, runs the steps from the start. */
  function Resume(env: seq<string>, steps: seq<Step>, dryRun: bool,
                  render: seq<string> -> string, shell: Shell, s: RunState): (r: Run)
    ensures StartIndex(Names(steps), s.stamps).None? || dryRun ==> r == Run(Done, s)
  {
    match StartIndex(Names(steps), s.stamps)
    case None => Run(Done, s)
    case Some(k) => if dryRun then Run(Done, s) else RunSteps(env, steps[k..], render, shell, s)
  }

  /** `_exec_steps`: the build-phase steps are qualified by the build flag first. */
  function ExecSteps(env: seq<string>, steps: seq<Step>, addFlag: bool, flag: string, dryRun: bool,
                     render: seq<string> -> string, shell: Shell, s: RunState): (r: Run)
    ensures dryRun || steps == [] ==> r == Run(Done, s)
    ensures r.outcome != Done ==> |r.state.scripts| > |s.scripts|
  {
    assert steps == [] ==> Names(if addFlag then Qualify(flag, steps) else steps) == [];
    Resume(env, if addFlag then Qualify(flag, steps) else steps, dryRun, render, shell, s)
  }

  /** The names of a suffix are the suffix of the names. */
  lemma NamesFrom(steps: seq<Step>, k: nat, h: nat)
    requires k + h < |steps|
    ensures Names(steps[k..])[h] == Names(steps)[k + h]
  {
  }

  /** With distinct names, no step from `k` on shares its name with step `i` before `k`. */
  lemma OthersBeforeStart(steps: seq<Step>, k: nat, i: nat)
    requires Distinct(Names(steps)) && i < k <= |steps|
    ensures forall h :: 0 <= h < |steps[k..]| ==> steps[k..][h].name != steps[i].name
  {
    forall h | 0 <= h < |steps[k..]| ensures steps[k..][h].name != steps[i].name {
      assert Names(steps)[i] != Names(steps)[k + h];
    }
  }

  /** Running from the chosen start leaves the stamps of the steps before it alone, and
      the first script handed over is the start step's. */
  lemma ResumeFromStart(env: seq<string>, steps: seq<Step>, render: seq<string> -> string, shell: Shell, s: RunState)
    requires Distinct(Names(steps))
    requires StartIndex(Names(steps), s.stamps).Some?
    ensures var k := StartIndex(Names(steps), s.stamps).value;
            var t := Resume(env, steps, false, render, shell, s).state;
            && |t.scripts| > |s.scripts|
            && t.scripts[|s.scripts|] == render(env + steps[k].cmds)
            && forall i :: 0 <= i < k ==> Stamp(t.stamps, steps[i].name) == Stamp(s.stamps, steps[i].name)
  {
    var k := StartIndex(Names(steps), s.stamps).value;
    var tail := steps[k..];
    RunStepsTried(env, tail, render, shell, s);
    RunStepsScripts(env, tail, render, shell, s);
    forall i | 0 <= i < k
      ensures Stamp(RunSteps(env, tail, render, shell, s).state.stamps, steps[i].name) == Stamp(s.stamps, steps[i].name)
    {
      OthersBeforeStart(steps, k, i);
      RunStepsKeepsOthers(env, tail, render, shell, s, steps[i].name);
    }
  }

  /** When every step from `k` on is accepted, the steps before `k` keep their stamps and
      the steps from `k` on are stamped with successive clock ticks. */
  lemma RunAllFromStamps(env: seq<string>, steps: seq<Step>, k: nat, render: seq<string> -> string,
                         shell: Shell, s: RunState)
    requires Distinct(Names(steps)) && k <= |steps|
    requires Accepted(env, steps[k..], render, shell, |s.scripts|) == |steps| - k
    ensures var t := RunSteps(env, steps[k..], render, shell, s).state;
            && (forall i :: 0 <= i < k ==> Stamp(t.stamps, steps[i].name) == Stamp(s.stamps, steps[i].name))
            && (forall i :: k <= i < |steps| ==> Stamp(t.stamps, steps[i].name) == s.clock + (i - k) + 1)
  {
    var tail := steps[k..];
    assert Distinct(Names(tail)) by {
      forall a, b | 0 <= a < b < |tail| ensures Names(tail)[a] != Names(tail)[b] {
        NamesFrom(steps, k, a);
        NamesFrom(steps, k, b);
      }
    }
    RunStepsStampsDistinct(env, tail, render, shell, s);
    var t := RunSteps(env, tail, render, shell, s).state;
    forall i | 0 <= i < k
      ensures Stamp(t.stamps, steps[i].name) == Stamp(s.stamps, steps[i].name)
    {
      OthersBeforeStart(steps, k, i);
      RunStepsKeepsOthers(env, tail, render, shell, s, steps[i].name);
    }
    forall i | k <= i < |steps|
      ensures Stamp(t.stamps, steps[i].name) == s.clock + (i - k) + 1
    {
      assert tail[i - k] == steps[i];
    }
  }

  /** Run again straight after a run that finished, with nothing else touching the stamps,
      the steps are all up to date and nothing changes, whatever the shell would answer.
      It needs distinct step names and a clock not behind the recorded stamps. */
  lemma ResumeRerun(env: seq<string>, steps: seq<Step>, render: seq<string> -> string,
                    shell: Shell, shell': Shell, s: RunState)
    requires Distinct(Names(steps))
    requires ClockAhead(s.stamps, s.clock)
    requires Resume(env, steps, false, render, shell, s).outcome == Done
    ensures var t := Resume(env, steps, false, render, shell, s).state;
            && StartIndex(Names(steps), t.stamps).None?
            && Resume(env, steps, false, render, shell', t) == Run(Done, t)
            && ClockAhead(t.stamps, t.clock)
  {
    var names := Names(steps);
    match StartIndex(names, s.stamps)
    case None =>
    case Some(k) =>
      StartIndexMeaning(names, s.stamps);
      RunStepsCount(env, steps[k..], render, shell, s);
      RunAllFromStamps(env, steps, k, render, shell, s);
      var t := RunSteps(env, steps[k..], render, shell, s).state;
      StampsAscending(names, s.stamps, t.stamps, k, s.clock);
      RunStepsClockAhead(env, steps[k..], render, shell, s);
  }

  /** Resuming touches only the stamps of its own steps. */
  lemma ResumeKeepsOthers(env: seq<string>, steps: seq<Step>, dryRun: bool, render: seq<string> -> string,
                          shell: Shell, s: RunState, n: string)
    requires n !in Names(steps)
    ensures Stamp(Resume(env, steps, dryRun, render, shell, s).state.stamps, n) == Stamp(s.stamps, n)
  {
    match StartIndex(Names(steps), s.stamps)
    case None =>
    case Some(k) =>
      if !dryRun {
        var tail := steps[k..];
        forall h | 0 <= h < |tail| ensures tail[h].name != n {
          NamesFrom(steps, k, h);
        }
        RunStepsKeepsOthers(env, tail, render, shell, s, n);
      }
  }

  /** Resuming keeps the clock ahead of the stamps. */
  lemma ResumeClockAhead(env: seq<string>, steps: seq<Step>, dryRun: bool, render: seq<string> -> string,
                         shell: Shell, s: RunState)
    requires ClockAhead(s.stamps, s.clock)
    ensures var t := Resume(env, steps, dryRun, render, shell, s).state; ClockAhead(t.stamps, t.clock)
  {
    match StartIndex(Names(steps), s.stamps)
    case None =>
    case Some(k) =>
      if !dryRun {
        RunStepsClockAhead(env, steps[k..], render, shell, s);
      }
  }

  /** Resuming only appends to the scripts handed over and the tables saved. */
  lemma ResumeAppends(env: seq<string>, steps: seq<Step>, dryRun: bool, render: seq<string> -> string,
                      shell: Shell, s: RunState)
    ensures Extends(s, Resume(env, steps, dryRun, render, shell, s).state)
  {
    match StartIndex(Names(steps), s.stamps)
    case None =>
    case Some(k) =>
      if !dryRun {
        RunStepsAppends(env, steps[k..], render, shell, s);
      }
  }

  /** Stamps that agree with `before` up to `k`, where those were in order and not later
      than `clock`, and count up from `clock + 1` from `k` on, are all in order. */
  lemma StampsAscending(names: seq<string>, before: Stamps, after: Stamps, k: nat, clock: nat)
    requires k < |names|
    requires forall i :: 0 <= i < k ==> Stamp(before, names[i]) != 0
    requires ClockAhead(before, clock)
    requires forall i :: 0 <= i && i + 1 < k ==> InOrder(names, before, i)
    requires forall i :: 0 <= i < k ==> Stamp(after, names[i]) == Stamp(before, names[i])
    requires forall i :: k <= i < |names| ==> Stamp(after, names[i]) == clock + (i - k) + 1
    ensures |names| >= 2 ==> AllInOrder(names, after)
    ensures Stamp(after, names[|names| - 1]) != 0
  {
    forall i | 0 <= i < |names| - 1
      ensures InOrder(names, after, i)
    {
      if i + 1 < k {
        assert InOrder(names, before, i);
      }
    }
  }

  /** The same two facts for `_exec_steps`, whose build-phase names are qualified. */
  lemma ExecStepsRerun(env: seq<string>, steps: seq<Step>, addFlag: bool, flag: string,
                       render: seq<string> -> string, shell: Shell, shell': Shell, s: RunState)
    requires Distinct(Names(steps))
    requires ClockAhead(s.stamps, s.clock)
    requires ExecSteps(env, steps, addFlag, flag, false, render, shell, s).outcome == Done
    ensures var t := ExecSteps(env, steps, addFlag, flag, false, render, shell, s).state;
            && StartIndex(Names(if addFlag then Qualify(flag, steps) else steps), t.stamps).None?
            && ExecSteps(env, steps, addFlag, flag, false, render, shell', t) == Run(Done, t)
            && ClockAhead(t.stamps, t.clock)
  {
    if addFlag {
      QualifyDistinct(flag, steps);
    }
    ResumeRerun(env, if addFlag then Qualify(flag, steps) else steps, render, shell, shell', s);
  }
}
